=== FILE: README.md ===
# Portfolio image scripts, screenshot helpers and project metadata, in Dafny

This project models the file-naming logic of the portfolio site's build
scripts. It also models two small pure cores that sit beside them.

The five image scripts each look at a path and decide whether it is:

- an original image;
- one of the generated responsive variants (`-768.webp`, `-1200.webp`);
- a legacy variant (`-900w.webp`, `-900w-768.webp`, …).

They rewrite an original's name into the names of its outputs, and they run a
skip / overwrite / delete loop over the files they are given:

- `scripts/gen-images.mjs` writes `name-768.webp` and `name-1200.webp` beside
  every source. It overwrites old outputs and stops at the first error.
- `scripts/generate-variants.mjs` writes the same two variants. It skips
  outputs that already exist and inputs whose names look generated. It selects
  its inputs from `--file`, `--glob` or two default directory patterns.
- `scripts/clean-old-variants.mjs` deletes every legacy variant it walks over.
  It counts every attempt.
- `scripts/optimize-images.mjs` writes `stem-900w.webp` beside every PNG or
  JPEG a pattern matches. It carries on past failures.
- `scripts/convert-images.mjs` writes `stem.webp` beside every PNG or JPEG
  whose WebP name is free.

Each regular expression is an explicit predicate over `seq<char>`. `/i`
becomes ASCII case folding, which is exact for these patterns.

The file system is:

- a sequence of walked paths;
- a set of existing paths;
- for generate-variants, a `Tree`: the kind of each path, and the files a walk
  yields under it.

The image library (sharp) is a `Codec`. It says, for one run, the width each
file decodes to and which conversions succeed. A resize without enlargement
gives the smaller of the requested and the native width.

`NamingPipeline` connects the scripts:

- optimize-images writes `x-900w.webp`;
- generate-variants' input filter `-\d+\.webp$` lets that name through;
- so generate-variants writes `x-900w-768.webp` and `x-900w-1200.webp`;
- those are exactly the legacy names that gen-images refuses as sources and
  clean-old-variants deletes.

The code does not keep its predicates disjoint: `x-900w-768.webp` is both a
target variant and a legacy variant for gen-images. The model follows the
code (`GenImages.OverlappingVariant`).

`Capture` holds the pure helpers of the one-off screenshot script
`capture.js`:

- the status check and `slugify`;
- the timestamp, as a function of the clock's date parts;
- URL scheme normalisation;
- the flag and mode selection;
- the base slug and the names of the screenshots saved.

`ProjectSeo` is `buildProjectSEO` from `src/lib/projectSEO.ts`: the canonical
URL, the absolute image, the breadcrumbs, the `CreativeWork` record, and the
keyword list de-duplicated in insertion order, as a JavaScript `Set` does.

The shared modules are:

- `Strings`: ASCII case folding, digits, `trim`, `split`/`join`;
- `Seqs`: `Dedup`, the element order of a JavaScript `Set`;
- `Paths`: Node's `basename`, `dirname` and `extname` on normalised paths;
- `Transcoding`: the `Codec` and the resize rule;
- `ImageEndings` and `VariantNames`: the suffix grammars two scripts share.

## Model

| member | source | states |
|---|---|---|
| GenImages.OverlappingVariant | scripts/gen-images.mjs:20-50 | a name ending `-900w-768.webp` satisfies both the target and the legacy pattern, and so is not a source |
| GenImages.SplitParts | scripts/gen-images.mjs:34-39 | `dir + base` is the path, `base` holds no separator, `dir` is empty or ends in `/`, and `name + ext` is `base` |
| GenImages.SplitExtension | scripts/gen-images.mjs:34-39 | a non-empty `ext` starts at the base name's last `.`, which is not its first character, and `name` is then non-empty; an empty `ext` leaves `name` equal to the whole base name |
| GenImages.OutputBesideSource | scripts/gen-images.mjs:68-70 | an output keeps the source's directory and its base name is the source's stem followed by the suffix |
| GenImages.OutputsAreTargets | scripts/gen-images.mjs:68-70 | both outputs are target variants, so they are not sources on a later run and differ from the source they came from |
| GenImages.ExitCode | scripts/gen-images.mjs:98-101 | exit code 0 exactly for a finished run; a missing tree or an uncaught error gives 1 |
| GenImages.WritesFor | scripts/gen-images.mjs:79-89 | a source gets exactly two writes, 768 then 1200, each as wide as requested or as the native image, never wider than either |
| GenImages.WalkFinishes | scripts/gen-images.mjs:65-93 | the loop finishes exactly when every source among the walked files converts to both sizes |
| GenImages.WalkTally | scripts/gen-images.mjs:63-93 | a finished run made two variants per source, skipped every other file, read exactly the sources in order, and wrote exactly their planned outputs |
| GenImages.VisitTally | scripts/gen-images.mjs:66-91 | one finished turn adds 2 to `made` and reads and writes its source, or adds 1 to `skipped` for a non-source and touches nothing |
| GenImages.WalkCrash | scripts/gen-images.mjs:65-93 | a run that stops, stops at a walked file that is a source |
| GenImages.VisitCrash | scripts/gen-images.mjs:66-89 | one turn either finishes or stops at its own file, which is then a source |
| GenImages.FinishedCounts | scripts/gen-images.mjs:63-95 | on a finished run `made` is twice the number of sources and `made / 2 + skipped` is the number of files walked |
| GenImages.WrittenAreTargets | scripts/gen-images.mjs:66-89 | whether the run finishes or stops, every path written is a target variant and never a source, and every path read is a source |
| GenImages.VisitTargets | scripts/gen-images.mjs:66-89 | one turn preserves "written paths are targets, read paths are sources" |
| GenImages.WalkNonSources | scripts/gen-images.mjs:66 | walking further non-sources only raises `skipped` and reads and writes nothing |
| GenImages.SourcesSnoc | scripts/gen-images.mjs:65-66 | one more file adds itself to the sources exactly when it is a source |
| GenImages.Snoc | scripts/gen-images.mjs:65-91 | one more file adds its two planned writes, and its conversion to the requirement that every source converts, exactly when it is a source |
| GenImages.SourcesOfSources | scripts/gen-images.mjs:66 | every file among the sources is itself a source, so keeping the sources again changes nothing |
| GenImages.SourcesDetermine | scripts/gen-images.mjs:65-91 | whether a run finishes and what it writes depend on the walked files only through their sources, in order |
| GenImages.RerunSameSources | scripts/gen-images.mjs:63-93 | any run whose sources are another finished run's, in the same order, finishes too and makes, reads and writes the same, skipping its other files |
| GenImages.Rerun | scripts/gen-images.mjs:76-89 | a second run over the tree plus the first run's outputs overwrites the same paths with the same widths, makes the same count, and skips the outputs |
| VariantNames.WeirdVariantShape | scripts/gen-images.mjs:27-29 | the legacy-variant test holds exactly for names of the form `stem-<digits>w[-<digits>].webp` (letters in any case) |
| VariantNames.OverlapIsWeird | scripts/clean-old-variants.mjs:13-15 | every `stem-900w-768.webp` is a legacy variant |
| VariantNames.PlainVariantWeird | scripts/clean-old-variants.mjs:13-15 | `stem-<digits>.webp` is a legacy variant exactly when `stem` ends with `-<digits>w` |
| GenerateVariants.EndingsExclusive | scripts/generate-variants.mjs:65 | no name ends with two of `.png`, `.jpg`, `.jpeg`, `.webp`, so the alternation has one match at most |
| GenerateVariants.VariantBaseShape | scripts/generate-variants.mjs:65 | a recognised ending is replaced by `-<size>.webp`, everything before it is kept, and the result passes the input filter |
| GenerateVariants.VariantBaseUnchanged | scripts/generate-variants.mjs:65 | a base name without a recognised ending is returned unchanged |
| GenerateVariants.VariantPathParts | scripts/generate-variants.mjs:62-66 | the variant lives in the input's directory under the rewritten base name |
| GenerateVariants.VariantPathGenerated | scripts/generate-variants.mjs:62-66 | for a recognised ending the variant path matches the `-\d+\.webp$` filter, so it is not converted later |
| GenerateVariants.VariantPathUnchanged | scripts/generate-variants.mjs:62-66 | without a recognised ending the variant path is the input path itself |
| GenerateVariants.GeneratedNameSuffix | scripts/generate-variants.mjs:123 | every name ending in `-<size>.webp` matches the input filter |
| GenerateVariants.VariantsDiffer | scripts/generate-variants.mjs:13 | the 768 and 1200 variants of one input are different paths |
| GenerateVariants.ClampWidth | scripts/generate-variants.mjs:75 | the width asked for is the native width when it is known and smaller, otherwise the size; it never exceeds the size, nor a known native width, so the resize keeps it |
| GenerateVariants.ParsePatternGreedy | scripts/generate-variants.mjs:36 | the parse succeeds exactly when the pattern regex can match, gives back parts that rebuild the pattern, and splits at the last possible `/**/*.{` as the greedy group does |
| GenerateVariants.ParseDirPattern | scripts/generate-variants.mjs:36-41 | `<root>/**/*.{<list>}` (no line terminators, no `{` in the list) parses back into its root and list |
| GenerateVariants.DefaultListExts | scripts/generate-variants.mjs:39 | the brace list `png,jpg,jpeg,webp`, split, trimmed, lower-cased and dotted, is exactly the four default extensions |
| GenerateVariants.DefaultPatternsParse | scripts/generate-variants.mjs:15-18 | both default patterns are directory patterns over `public/images` and `src/assets/images` with the default brace list |
| GenerateVariants.AcceptedExtsMembers | scripts/generate-variants.mjs:33-41 | the shared extension set holds the four defaults and every extension any directory pattern lists, and nothing else |
| GenerateVariants.KeepAcceptedMembers | scripts/generate-variants.mjs:54-56 | a walked file is kept exactly when its lower-cased extension is in the set |
| GenerateVariants.FilesUnderMembers | scripts/generate-variants.mjs:48-58 | a missing root contributes nothing, a file root contributes itself whatever its extension, and a directory contributes its walked files with an accepted extension |
| GenerateVariants.ListFilesMembers | scripts/generate-variants.mjs:31-60 | a file is listed exactly when some pattern's root contributes it under the extension set shared by all patterns |
| GenerateVariants.ListSingle | scripts/generate-variants.mjs:31-60 | a single pattern lists what its root contributes under the defaults plus its own extensions |
| GenerateVariants.ListedFileExists | scripts/generate-variants.mjs:47-58 | in a tree whose walks yield only existing files, every listed path is an existing file |
| GenerateVariants.ParseArgs | scripts/generate-variants.mjs:88-91 | the argument loop leaves each flag's value as the word after its last occurrence, or nothing when that occurrence is the last word |
| GenerateVariants.FileFlagWins | scripts/generate-variants.mjs:94-99 | a non-empty `--file` value overrides `--glob`: that path alone is processed, and the run exits with 1 exactly when it does not exist |
| GenerateVariants.MissingGlobFallsBack | scripts/generate-variants.mjs:100-110 | a `--glob` path that does not exist selects the default patterns, as if no flag had been given |
| GenerateVariants.GlobDirectory | scripts/generate-variants.mjs:100-106 | `--glob <dir>` for a directory lists the files walked under it whose extension is one of the four defaults |
| GenerateVariants.DotGlobIsLiteral | scripts/generate-variants.mjs:106 | `path.join(".", "/**/*.{…}")` loses its `/**/*.{` marker, so the pattern is taken as a literal root with no extensions |
| GenerateVariants.GlobDotFindsNothing | scripts/generate-variants.mjs:100-118 | `--glob .` finds no images, even when the current directory holds some |
| GenerateVariants.TargetsExist | scripts/generate-variants.mjs:93-113 | in a tree whose walks yield only existing files, every selected target exists |
| GenerateVariants.ExistingOutputSkipped | scripts/generate-variants.mjs:70 | an output that exists is counted as skipped, with no conversion, no write and no other counter moved |
| GenerateVariants.SizeStepCounts | scripts/generate-variants.mjs:125-132 | one attempt is counted exactly once, as created, skipped or warned about, and each creation is one write |
| GenerateVariants.FileStepCounts | scripts/generate-variants.mjs:121-133 | an input that looks generated makes no attempt; any other makes two |
| GenerateVariants.ProcessCounts | scripts/generate-variants.mjs:120-134 | over a run, created + skipped + warnings is twice the number of inputs passing the filter, and created is the number of writes |
| GenerateVariants.ProcessFresh | scripts/generate-variants.mjs:68-81 | a path exists afterwards exactly when it existed or was written; no existing path is overwritten and none is written twice |
| GenerateVariants.ProcessSettles | scripts/generate-variants.mjs:120-134 | after the loop, every attempt it made has an existing output or a failing conversion, and paths are only added |
| GenerateVariants.SettledCreatesNothing | scripts/generate-variants.mjs:120-134 | over settled attempts the loop writes nothing and leaves the existing paths and the created count as they were |
| GenerateVariants.Rerun | scripts/generate-variants.mjs:120-134 | a second run over the same targets creates and writes nothing |
| GenerateVariants.WritesAreGenerated | scripts/generate-variants.mjs:121-133 | when every target exists beforehand, every variant written matches the input filter |
| GenerateVariants.VariantWidth | scripts/generate-variants.mjs:68-81 | a creation appends one write at the variant path, never wider than the size; for a known width it is the smaller of native width and size |
| GenerateVariants.ExitCode | scripts/generate-variants.mjs:93-118 | only a missing `--file` target exits with 1 |
| GenerateVariants.RunConverts | scripts/generate-variants.mjs:83-137 | a converting run counts one write per creation, writes only paths that did not exist, never the same path twice, and (in a well-formed tree) only filter-matching names |
| CleanOldVariants.WeirdFilesMembers | scripts/clean-old-variants.mjs:20-21 | a path is acted on exactly when it was walked and matches the legacy pattern |
| CleanOldVariants.Clean | scripts/clean-old-variants.mjs:19-26 | the loop logs every match in walk order, counts each one as removed, and deletes those whose `unlink` succeeds |
| CleanOldVariants.Run | scripts/clean-old-variants.mjs:17-29 | a cleanup happens exactly when the root exists, and then `removed` is the number of matches |
| CleanOldVariants.ExitCode | scripts/clean-old-variants.mjs:29 | exit code 0 exactly when the cleanup ran, and 1 exactly when the root is missing (the unhandled rejection) |
| CleanOldVariants.RemainingMembers | scripts/clean-old-variants.mjs:20-24 | a walked path is deleted exactly when it matches and its `unlink` succeeds; every other walked path remains |
| CleanOldVariants.RemovedCountsAttempts | scripts/clean-old-variants.mjs:22-24 | the count covers failed deletions too: at least as many as were deleted, and equal when every `unlink` succeeds |
| CleanOldVariants.CleanIdempotent | scripts/clean-old-variants.mjs:19-26 | when every deletion succeeds, a second pass over what remains finds nothing to remove |
| CleanOldVariants.OnlyWebpDeleted | scripts/clean-old-variants.mjs:13-15 | only `.webp` files are deleted |
| CleanOldVariants.PlainVariantSurvives | scripts/clean-old-variants.mjs:13-15 | `stem-<digits>.webp` survives unless its stem ends with a width marker |
| OptimizeImages.RunOutcome | scripts/optimize-images.mjs:10-25 | no pattern is the usage error; patterns that all match nothing end the run early; otherwise the run has items |
| OptimizeImages.RunCovers | scripts/optimize-images.mjs:16-27 | every file any pattern matched is processed |
| OptimizeImages.ExitCode | scripts/optimize-images.mjs:10-25 | exit code 1 only for the usage error, 0 for no matches and for a finished loop |
| OptimizeImages.OutputParts | scripts/optimize-images.mjs:29-32 | the output keeps the input's directory, under the rewritten base name |
| OptimizeImages.OutputIsLegacy | scripts/optimize-images.mjs:29-32 | a PNG or JPEG input gets `<dir><stem>-900w.webp`, a legacy-variant name |
| OptimizeImages.WidthSuffixIsLegacy | scripts/optimize-images.mjs:31 | anything followed by `-900w.webp` is a legacy-variant name |
| OptimizeImages.OutputUnchanged | scripts/optimize-images.mjs:31 | an input without a PNG or JPEG ending maps onto its own path |
| OptimizeImages.OptimizeItems | scripts/optimize-images.mjs:27-43 | each listed file gives one item; a write lands on that file's output path, never the file itself, only for a PNG or JPEG, exactly as wide as the smaller of 900 and the input's width |
| OptimizeImages.OutputsAreLegacy | scripts/optimize-images.mjs:27-37 | every path a run writes is a legacy-variant name |
| ConvertImages.ExitCode | scripts/convert-images.mjs:32-35 | exit code 1 exactly when the root is missing |
| ConvertImages.ConvertibleStem | scripts/convert-images.mjs:17 | a file that qualifies has a non-empty stem |
| ConvertImages.ConvertibleEnding | scripts/convert-images.mjs:17-18 | a file that qualifies by `extname` ends with that extension, which the rewrite pattern recognises at its full length |
| ConvertImages.WebpPathForm | scripts/convert-images.mjs:18 | the output is the input's directory and stem followed by `.webp` |
| ConvertImages.WebpPathDiffers | scripts/convert-images.mjs:18 | the output never coincides with its input |
| ConvertImages.WebpBaseName | scripts/convert-images.mjs:18 | the output's base name is the input's stem with `.webp` |
| ConvertImages.WebpNotConvertible | scripts/convert-images.mjs:17-18 | an output never qualifies for conversion |
| ConvertImages.PngAndJpgCollide | scripts/convert-images.mjs:18 | `x.png` and `x.jpg` share the output `x.webp` |
| ConvertImages.StepConverts | scripts/convert-images.mjs:22-23 | a qualifying file with a free output that converts is written once and its output now exists |
| ConvertImages.StepSkipsExisting | scripts/convert-images.mjs:20 | a file whose output exists changes nothing |
| ConvertImages.StepWrites | scripts/convert-images.mjs:17-28 | one file writes nothing, or the WebP name of a qualifying file |
| ConvertImages.WalkFresh | scripts/convert-images.mjs:11-30 | the existing paths afterwards are those before plus the outputs written; each output was new and is written once |
| ConvertImages.WalkWritesWebp | scripts/convert-images.mjs:11-30 | every output written is the WebP name of a walked file that qualifies |
| ConvertImages.OutputsNotConvertible | scripts/convert-images.mjs:17-23 | no output is itself a PNG or JPEG file |
| ConvertImages.WalkCounts | scripts/convert-images.mjs:13-29 | writes plus failures never exceed the number of qualifying files |
| ConvertImages.WalkSettles | scripts/convert-images.mjs:11-30 | after the walk every file visited can add nothing more, and paths are only added |
| ConvertImages.SettledWritesNothing | scripts/convert-images.mjs:20 | over files that can add nothing, the walk leaves paths and writes unchanged |
| ConvertImages.Rerun | scripts/convert-images.mjs:20 | running the script again writes nothing |
| ConvertImages.CollisionWritesOnce | scripts/convert-images.mjs:18-20 | after `x.png` converts, `x.jpg` finds `x.webp` and is skipped: one write in all |
| ConvertImages.RunExit | scripts/convert-images.mjs:22-37 | exit code 1 exactly for a missing root; otherwise no path is lost, the walk goes on past failed conversions so every file ends settled, and every logged failure is a walked file that qualified and did not convert |
| ConvertImages.WalkFailures | scripts/convert-images.mjs:22-27 | every failure a walk logs is a walked file that qualified and whose conversion failed |
| NamingPipeline.OptimizedName | scripts/optimize-images.mjs:29-32 | a PNG or JPEG becomes `<stem>-900w.webp` beside it |
| NamingPipeline.OptimizedPassesFilter | scripts/generate-variants.mjs:123 | that name does not match generate-variants' input filter |
| NamingPipeline.OptimizedVariantName | scripts/generate-variants.mjs:62-66 | generate-variants turns it into `<stem>-900w-<size>.webp` |
| NamingPipeline.OptimizedVariantIsLegacy | scripts/gen-images.mjs:27-29 | that variant is a legacy-variant name for every size |
| NamingPipeline.SmallVariantOverlaps | scripts/gen-images.mjs:47-50 | the 768 variant is both a target and a legacy name for gen-images, and not a source |
| NamingPipeline.CleanupDeletesThem | scripts/clean-old-variants.mjs:20-24 | a cleanup that walks such a variant acts on it, and it is gone when its deletion succeeds |
| NamingPipeline.OptimizedIsCleaned | scripts/clean-old-variants.mjs:20-21 | the optimize output itself is acted on by the cleanup and is never a gen-images source |
| NamingPipeline.CleanupSparesSources | scripts/clean-old-variants.mjs:20-22 | nothing the cleanup deletes is a file gen-images would take as a source |
| NamingPipeline.OverlapDeleted | scripts/clean-old-variants.mjs:20-24 | a `-900w-768.webp` file is deleted although gen-images counts it as a target |
| Capture.StatusClasses | capture.js:14 | the accepted statuses are exactly the numbers of the 2xx and 3xx classes |
| Capture.Collapse | capture.js:15 | the result has only `[a-z0-9-]` and no `--`, is empty only for empty input, and starts with `-` exactly when the input starts with a separator |
| Capture.CollapseAppend | capture.js:15 | text ending in a slug character is replaced independently of what follows it: `Collapse(a + b) == Collapse(a) + Collapse(b)` |
| Capture.CollapseRun | capture.js:15 | a non-empty run of non-`[a-z0-9]` characters in front of a slug character (or the end) becomes exactly one `-` |
| Capture.CollapseCons | capture.js:15 | a leading slug character is kept; a leading separator becomes `-` and the rest of its run is dropped |
| Capture.DropSeparatorsAppend | capture.js:15 | the run of separators being replaced ends inside a prefix that ends in a slug character |
| Capture.DropAllSeparators | capture.js:15 | a run of separators followed by a slug character (or the end) is swallowed whole |
| Capture.TrimLeadingDashes | capture.js:15 | the result is the input without its maximal leading run of dashes |
| Capture.TrimTrailingDashes | capture.js:15 | the result is the input without its maximal trailing run of dashes |
| Capture.SlugLetters | capture.js:15 | the slug keeps exactly the letters and digits of the lower-cased input, in order |
| Capture.SlugShape | capture.js:15 | the slug uses only `[a-z0-9-]`, has no `--`, and neither starts nor ends with `-` |
| Capture.SlugOfNothing | capture.js:15 | a missing or empty input gives the empty slug |
| Capture.CollapseOfSlug | capture.js:15 | a string of slug characters without `--` passes the replacement unchanged |
| Capture.SlugIdempotent | capture.js:15 | slugifying a slug gives it back |
| Capture.DateStampFields | capture.js:16 | `YYYYMMDD` is eight digits that read back as the year, the month counted from 1, and the day |
| Capture.TimeStampFields | capture.js:16 | `HHMMSS` is six digits that read back as hours, minutes and seconds |
| Capture.TsRoundTrip | capture.js:16 | for a four-digit year the stamp has 15 characters and reads back as the date parts it was made from |
| Capture.TsSlugChars | capture.js:16 | a stamp uses only digits and `-` |
| Capture.NormalisedHasScheme | capture.js:246 | the normalised URL always has an `http://` or `https://` scheme; it is the input, or the input after `https://`; an input that already has a scheme is kept |
| Capture.NormaliseIdempotent | capture.js:256 | normalising twice is normalising once |
| Capture.ModeCases | capture.js:248-252 | the answer, trimmed and lower-cased, picks `--mobile+menu` when it contains both words, `--mobile` or `--menu` when it is exactly that word, and `--desktop` otherwise |
| Capture.FlagArgs | capture.js:239 | the filter keeps no more arguments than it is given, and each one kept starts with `--` |
| Capture.FlagsMembers | capture.js:239 | the set built from the filtered arguments holds exactly the arguments that start with `--` |
| Capture.FirstUrlIsFirst | capture.js:240 | the URL is the first argument that is not a flag; there is none only when every argument is a flag |
| Capture.SetupFlags | capture.js:243-258 | the URL always has a scheme; given flags are kept; with none, exactly one mode flag is added |
| Capture.UrlAloneIsDesktop | capture.js:255-258 | a URL with no flags means a desktop capture of the normalised URL |
| Capture.BaseSlugShape | capture.js:271 | the base slug starts with the host slug and ends with `-` and the stamp, and uses only `[a-z0-9-]` |
| Capture.ShotsMembers | capture.js:274-336 | desktop is saved under `--desktop` when its page loads; mobile under `--mobile` or `--mobile+menu`; the menu shot after a mobile load under `--mobile+menu`, or in the menu-only run (`--menu` without either mobile flag) |
| Capture.ShotsBound | capture.js:274-336 | a run saves at most the three names |
| Capture.ShotsDistinct | capture.js:305-318 | no name is saved twice, because the two menu captures never both run |
| Capture.UnknownFlagsCaptureNothing | capture.js:274-336 | flags that name no mode save nothing |
| ProjectSeo.BuildFails | src/lib/projectSEO.ts:41 | the metadata is built unless a date is given that `Date` cannot read |
| ProjectSeo.UrlAndCrumbs | src/lib/projectSEO.ts:23-31 | the crumbs are Home `/`, Projects `/projects/`, then the title; the page URL is the origin followed by the last crumb's link, which lies under `/projects/`; the schema repeats URL and image |
| ProjectSeo.DefaultOriginUsed | src/lib/projectSEO.ts:20-24 | without an origin, URL and creator use `https://mattblethen.com` |
| ProjectSeo.ImageIsAbsolute | src/lib/projectSEO.ts:25 | a hero starting with `http` is kept; any other is appended to the origin, so the image is absolute when the origin is |
| ProjectSeo.SchemaFields | src/lib/projectSEO.ts:33-54 | name and headline are the title, description the summary, the creator the fixed person at the origin; there is a producer exactly for a truthy client, and a date exactly for a truthy date |
| ProjectSeo.DatePublished | src/lib/projectSEO.ts:41 | a published date is the first ten characters of the ISO text |
| ProjectSeo.KeywordsOrder | src/lib/projectSEO.ts:44-53 | the keywords are the caller's without repeats, in first-occurrence order, then the fixed ones the caller did not give, in their order |
| ProjectSeo.KeywordsMembers | src/lib/projectSEO.ts:44-53 | no keyword repeats, and a keyword is listed exactly when the caller gave it or it is fixed |
| ProjectSeo.KeywordsKeepCaller | src/lib/projectSEO.ts:44-53 | caller keywords without repeats come first, unchanged |
| Seqs.DedupElements | src/lib/projectSEO.ts:44-45 | a `Set` built from a sequence holds exactly its elements |
| Seqs.DedupOrder | src/lib/projectSEO.ts:44-45 | the `Set`'s order has no repeats and follows first occurrence in the input |
| Seqs.DedupAppend | src/lib/projectSEO.ts:45-52 | the `Set` of `a + b` lists `a`'s elements, then those of `b` not in `a` |
| Strings.TrimIsSlice | capture.js:245 | `trim()` gives the slice of the input between its leading and trailing whitespace runs |
| Strings.JoinSplit | scripts/generate-variants.mjs:39 | splitting on a separator and joining again gives the string back |
| Strings.ParseDecimalOfDecimal | capture.js:16 | `String(n)` of a natural number reads back as `n` |
| Paths.PathShape | scripts/gen-images.mjs:35-38 | the directory prefix and the base name make up the path, and the base name has no separator |
| Paths.SiblingParts | scripts/gen-images.mjs:69-70 | a file joined to a path's directory lives in that directory under exactly the given name |
| Paths.ExtensionShape | scripts/gen-images.mjs:36 | `extname` starts at the base name's last `.` unless that is its first character; it is empty for `..` and names without a later `.` |
| Transcoding.ResizedWidth | scripts/gen-images.mjs:81 | a resize without enlargement gives the smaller of the requested and the native width |
| ImageEndings.SourceEndingsExclusive | scripts/optimize-images.mjs:31 | a name carries at most one of `.png`, `.jpg`, `.jpeg`, so the order of the alternatives does not matter |

## Left out

- Directory walks, `readdir`, `stat`, `existsSync`, `unlink`, `mkdir` and the
  `glob` library. Each becomes a parameter: the walked paths, the existing
  paths, the `Tree` of generate-variants, the match function of
  optimize-images, the unlink outcome of clean-old-variants.
- Paths are assumed normalised: no trailing `/`, no `.` or `..` segments, no
  doubled separators. `path.resolve` and `path.join(ROOT, …)` prefixes are
  part of the given paths. The one `path.join` normalisation that changes
  behaviour, `--glob .`, is modelled (`GenerateVariants.GlobDotFindsNothing`).
- Decoding, resizing and encoding, the quality and effort settings, and the
  output bytes. The `Codec` gives widths and success.
  - In gen-images a failed read or decode shows as a failed first conversion.
  - In optimize-images the library's refusal to overwrite its own input shows
    as a skipped file.
- Console output and its text: log lines, `path.relative`, KiB sizes.
- The process-level `catch` handlers for unexpected exceptions, other than
  the gen-images failures, which are modelled. This covers
  generate-variants' `run().catch` and the top-level awaits of
  optimize-images.
- Concurrency: the scripts await each step in turn, so runs are sequential.
- GenerateVariants.GlobDirectory: stated only for a normalised directory name
  other than `.`. For `.` see `GlobDotFindsNothing`.
- GenerateVariants: an unknown image width (`meta.width` undefined or 0) is
  modelled as 0. The `failOn: "none"` decoding option is not modelled.
- The rest of capture.js is not part of this model:
  - the browser and `puppeteer`, and page preparation, navigation, scrolling
    and menu opening;
  - the `readline` prompts, whose answers are parameters;
  - the clock, whose date parts are a parameter;
  - `new URL` parsing: host name and path are parameters, and a URL `new URL`
    rejects is not modelled;
  - `OUTDIR` joining.
- Capture: whether each page load succeeded is a parameter (`Loads`).
- Capture: `resp.status()` values are integers; a fractional number is not
  modelled.
- Capture: `toLowerCase` is ASCII only. The non-ASCII letters it would lower
  are dropped by the slug pattern anyway, except the few that lower to ASCII
  (KELVIN SIGN, and capital I with dot above), which are not modelled.
- GenerateVariants and ConvertImages: the `toLowerCase()` applied to file
  extensions and brace lists is ASCII only too. This is exact for these
  scripts. Every brace list a run parses is the fixed `png,jpg,jpeg,webp`:
  the greedy regex splits at the last `/**/*.{`, which the script appends
  itself. No accepted extension contains `k` or `i`, the only ASCII letters a
  non-ASCII character lowers to.
- Capture.TsRoundTrip: read back only for four-digit years. Any other year
  changes the stamp's length. `ts` itself is modelled for every non-negative
  year.
- ProjectSeo: `new Date(date).toISOString()` is a parameter. It gives the ISO
  text, or nothing when `Date` cannot read the date, which makes the builder
  throw. A `Date` object passed as `date` is not modelled; only strings are.
- ProjectSeo: the JSON shape of the record (`@context`, `@type`, nested
  objects) is kept as plain fields.
- capture-rkyhighlandgames.js, capture-inli10prints.js,
  src/content/config.ts and astro.config.mjs are not part of this model.

=== FILE: capture.dfy ===
/**
 The pure helpers of capture.js, the one-off screenshot script: the status
 check, `slugify`, the timestamp, URL scheme normalisation, the mode and
 flag selection, the base slug and the names of the screenshots taken.

 The browser, the page loads and the prompts are parameters: the answers
 read from the terminal, the host name and path of the parsed URL, the
 clock's date parts, and whether each page load succeeded.
 */
module Capture {
  import opened Wrappers
  import opened Strings
  import opened Seqs

  // -------------------------------------------------------------- status

  /** What `resp?.status?.()` yields: a number, or anything else (no response, no method, another type). */
  datatype StatusValue = Number(n: int) | NotNumber

  /** `statusOK`: the status is a number in [200, 400). */
  predicate StatusOK(s: StatusValue)
  {
    s.Number? && 200 <= s.n < 400
  }

  /** The accepted statuses are exactly the success and redirection classes, 2xx and 3xx. */
  lemma StatusClasses(s: StatusValue)
    ensures StatusOK(s) <==> s.Number? && s.n >= 0 && (s.n / 100 == 2 || s.n / 100 == 3)
  {
  }

  // ---------------------------------------------------------------- slug

  /** `[a-z0-9]`: what the slug keeps. */
  predicate IsSlugChar(c: char)
  {
    'a' <= c <= 'z' || '0' <= c <= '9'
  }

  /** Only `[a-z0-9-]`. */
  predicate SlugChars(s: String)
  {
    forall i :: 0 <= i < |s| ==> IsSlugChar(s[i]) || s[i] == '-'
  }

  /** No `--`. */
  predicate SingleDashes(s: String)
  {
    forall i :: 0 <= i < |s| - 1 ==> s[i] == '-' ==> s[i + 1] != '-'
  }

  /** A string the slug pattern cannot change: slug characters and single inner dashes. */
  predicate IsSlug(s: String)
  {
    SlugChars(s) && SingleDashes(s) && (s == [] || (s[0] != '-' && s[|s| - 1] != '-'))
  }

  /** Both properties hold of every suffix and every prefix. */
  lemma SuffixKeepsSlugChars(s: String, t: String)
    requires |t| <= |s| && t == s[|s| - |t|..] && SlugChars(s) && SingleDashes(s)
    ensures SlugChars(t) && SingleDashes(t)
  {
    assert forall k :: 0 <= k < |t| ==> t[k] == s[|s| - |t| + k];
  }

  lemma PrefixKeepsSlugChars(s: String, t: String)
    requires |t| <= |s| && t == s[..|t|] && SlugChars(s) && SingleDashes(s)
    ensures SlugChars(t) && SingleDashes(t)
  {
    assert forall k :: 0 <= k < |t| ==> t[k] == s[k];
  }

  /** The rest of `s` after its leading run of non-slug characters. */
  function DropSeparators(s: String): (r: String)
    ensures |r| <= |s| && r == s[|s| - |r|..]
    ensures r == [] || IsSlugChar(r[0])
    ensures forall i :: 0 <= i < |s| - |r| ==> !IsSlugChar(s[i])
  {
    if |s| > 0 && !IsSlugChar(s[0]) then
      var r := DropSeparators(s[1..]);
      assert forall i :: 1 <= i < |s| - |r| ==> s[i] == s[1..][i - 1];
      r
    else s
  }

  /** `.replace(/[^a-z0-9]+/g, "-")`: every maximal run of other characters becomes one `-`. */
  function Collapse(s: String): (r: String)
    ensures SlugChars(r) && SingleDashes(r)
    ensures r == [] <==> s == []
    ensures r != [] ==> (r[0] == '-' <==> !IsSlugChar(s[0]))
    decreases |s|
  {
    if s == [] then []
    else if IsSlugChar(s[0]) then
      var t := Collapse(s[1..]);
      ConsKeepsSlug(s[0], t);
      [s[0]] + t
    else
      var t := Collapse(DropSeparators(s[1..]));
      ConsKeepsSlug('-', t);
      "-" + t
  }

  /**
   Where the dashes go: text that ends in a slug character is replaced on
   its own, whatever follows it...
   */
  lemma {:induction false} CollapseAppend(a: String, b: String)
    requires a == [] || IsSlugChar(a[|a| - 1])
    ensures Collapse(a + b) == Collapse(a) + Collapse(b)
    decreases |a|
  {
    if a == [] {
      assert a + b == b;
    } else if IsSlugChar(a[0]) {
      CollapseAppend(a[1..], b);
      CollapseAppendStep(a[0], a[1..], b, a[1..]);
      assert a == [a[0]] + a[1..];
    } else {
      var d := DropSeparatorsKeepsEnd(a[1..]);
      CollapseAppend(d, b);
      DropSeparatorsAppend(a[1..], b);
      CollapseAppendStep(a[0], a[1..], b, d);
      assert a == [a[0]] + a[1..];
    }
  }

  /** The step of `CollapseAppend`: `t` is what `Collapse` recurses on after `a[0]`. */
  lemma CollapseAppendStep(c: char, rest: String, b: String, t: String)
    requires IsSlugChar(c) ==> t == rest
    requires !IsSlugChar(c) ==> t == DropSeparators(rest) && DropSeparators(rest + b) == t + b
    requires Collapse(t + b) == Collapse(t) + Collapse(b)
    ensures Collapse([c] + rest + b) == Collapse([c] + rest) + Collapse(b)
  {
    ConcatAssoc([c], rest, b);
    CollapseCons(c, rest + b);
    CollapseCons(c, rest);
    var head := if IsSlugChar(c) then [c] else "-";
    assert Collapse([c] + (rest + b)) == head + Collapse(t + b);
    assert Collapse([c] + rest) == head + Collapse(t);
    ConcatAssoc(head, Collapse(t), Collapse(b));
  }

  /** Past a leading separator, what is left still ends in the same slug character. */
  lemma DropSeparatorsKeepsEnd(rest: String) returns (d: String)
    requires rest != [] && IsSlugChar(rest[|rest| - 1])
    ensures d == DropSeparators(rest)
    ensures d != [] && IsSlugChar(d[|d| - 1]) && |d| <= |rest|
  {
    d := DropSeparators(rest);
    assert d[|d| - 1] == rest[|rest| - 1];
  }

  /** One step of `Collapse`, on a string written as its first character and the rest. */
  lemma CollapseCons(c: char, s: String)
    ensures IsSlugChar(c) ==> Collapse([c] + s) == [c] + Collapse(s)
    ensures !IsSlugChar(c) ==> Collapse([c] + s) == "-" + Collapse(DropSeparators(s))
  {
    assert ([c] + s)[1..] == s;
  }

  /** ...and a non-empty run of separators in front of a slug character becomes one `-`. */
  lemma CollapseRun(sep: String, b: String)
    requires sep != [] && forall i :: 0 <= i < |sep| ==> !IsSlugChar(sep[i])
    requires b == [] || IsSlugChar(b[0])
    ensures Collapse(sep + b) == "-" + Collapse(b)
  {
    assert (sep + b)[1..] == sep[1..] + b;
    DropAllSeparators(sep[1..], b);
  }

  /** Dropping leading separators stops inside `x` when `x` ends in a slug character. */
  lemma {:induction false} DropSeparatorsAppend(x: String, b: String)
    requires x != [] && IsSlugChar(x[|x| - 1])
    ensures DropSeparators(x + b) == DropSeparators(x) + b
  {
    if !IsSlugChar(x[0]) {
      assert (x + b)[1..] == x[1..] + b;
      DropSeparatorsAppend(x[1..], b);
    }
  }

  /** A run made only of separators is dropped entirely. */
  lemma {:induction false} DropAllSeparators(x: String, b: String)
    requires forall i :: 0 <= i < |x| ==> !IsSlugChar(x[i])
    requires b == [] || IsSlugChar(b[0])
    ensures DropSeparators(x + b) == b
  {
    if x == [] {
      assert x + b == b;
    } else {
      assert (x + b)[1..] == x[1..] + b;
      DropAllSeparators(x[1..], b);
    }
  }

  /** A slug character, or a dash not followed by another, in front of a slug-shaped string. */
  lemma ConsKeepsSlug(c: char, t: String)
    requires SlugChars(t) && SingleDashes(t)
    requires IsSlugChar(c) || (c == '-' && (t == [] || t[0] != '-'))
    ensures SlugChars([c] + t) && SingleDashes([c] + t)
  {
    var r := [c] + t;
    assert forall i :: 1 <= i < |r| ==> r[i] == t[i - 1];
  }

  /** `.replace(/^-+/, "")`. */
  function TrimLeadingDashes(s: String): (r: String)
    ensures |r| <= |s| && r == s[|s| - |r|..]
    ensures r == [] || r[0] != '-'
    ensures forall i :: 0 <= i < |s| - |r| ==> s[i] == '-'
  {
    if |s| > 0 && s[0] == '-' then TrimLeadingDashes(s[1..]) else s
  }

  /** `.replace(/-+$/, "")`. */
  function TrimTrailingDashes(s: String): (r: String)
    ensures |r| <= |s| && r == s[..|r|]
    ensures r == [] || r[|r| - 1] != '-'
    ensures forall i :: |r| <= i < |s| ==> s[i] == '-'
  {
    if |s| > 0 && s[|s| - 1] == '-' then TrimTrailingDashes(s[..|s| - 1]) else s
  }

  /** `slugify(str)`: `(str || "")`, lower-cased, runs collapsed to `-`, outer dashes removed. */
  function Slugify(str: Option<String>): String
  {
    TrimTrailingDashes(TrimLeadingDashes(Collapse(LowerAll(str.GetOr("")))))
  }

  /** The slug characters of `s`, in order. */
  function Letters(s: String): String
  {
    if s == [] then [] else (if IsSlugChar(s[0]) then [s[0]] else []) + Letters(s[1..])
  }

  lemma {:induction false} LettersAppend(a: String, b: String)
    ensures Letters(a + b) == Letters(a) + Letters(b)
  {
    if a != [] {
      var x := if IsSlugChar(a[0]) then [a[0]] else [];
      assert (a + b)[0] == a[0] && (a + b)[1..] == a[1..] + b;
      LettersAppend(a[1..], b);
      calc {
        Letters(a + b);
        x + Letters(a[1..] + b);
        x + (Letters(a[1..]) + Letters(b));
        (x + Letters(a[1..])) + Letters(b);
      }
    } else {
      assert a + b == b;
    }
  }

  lemma {:induction false} LettersNone(s: String)
    requires forall i :: 0 <= i < |s| ==> !IsSlugChar(s[i])
    ensures Letters(s) == []
  {
    if s != [] {
      LettersNone(s[1..]);
    }
  }

  lemma {:induction false} CollapseLetters(s: String)
    ensures Letters(Collapse(s)) == Letters(s)
    decreases |s|
  {
    if s != [] {
      var r := Collapse(s);
      if IsSlugChar(s[0]) {
        CollapseLetters(s[1..]);
        assert r[1..] == Collapse(s[1..]);
      } else {
        var rest := DropSeparators(s[1..]);
        CollapseLetters(rest);
        assert r[1..] == Collapse(rest);
        var t := s[1..];
        assert t == t[..|t| - |rest|] + rest;
        LettersAppend(t[..|t| - |rest|], rest);
        LettersNone(t[..|t| - |rest|]);
      }
    }
  }

  /** Removing dashes from either end keeps the slug characters. */
  lemma TrimDashesLetters(s: String)
    ensures Letters(TrimTrailingDashes(TrimLeadingDashes(s))) == Letters(s)
  {
    LeadingDashesLetters(s);
    TrailingDashesLetters(TrimLeadingDashes(s));
  }

  lemma LeadingDashesLetters(s: String)
    ensures Letters(TrimLeadingDashes(s)) == Letters(s)
  {
    var t := TrimLeadingDashes(s);
    var d := s[..|s| - |t|];
    assert s == d + t;
    LettersAppend(d, t);
    LettersNone(d);
  }

  lemma TrailingDashesLetters(t: String)
    ensures Letters(TrimTrailingDashes(t)) == Letters(t)
  {
    var u := TrimTrailingDashes(t);
    var d := t[|u|..];
    assert t == u + d;
    LettersAppend(u, d);
    LettersNone(d);
  }

  /** The slug keeps exactly the letters and digits of the lower-cased input, in order. */
  lemma SlugLetters(str: Option<String>)
    ensures Letters(Slugify(str)) == Letters(LowerAll(str.GetOr("")))
  {
    var c := Collapse(LowerAll(str.GetOr("")));
    CollapseLetters(LowerAll(str.GetOr("")));
    TrimDashesLetters(c);
  }

  /** Only `[a-z0-9-]`, no leading or trailing `-`, and no `--`. */
  lemma SlugShape(str: Option<String>)
    ensures IsSlug(Slugify(str))
  {
    var c := Collapse(LowerAll(str.GetOr("")));
    var t := TrimLeadingDashes(c);
    SuffixKeepsSlugChars(c, t);
    PrefixKeepsSlugChars(t, TrimTrailingDashes(t));
    TrimmedEnds(t);
  }

  /** Trimming trailing dashes keeps a first character that is not a dash. */
  lemma TrimmedEnds(t: String)
    requires t == [] || t[0] != '-'
    ensures var u := TrimTrailingDashes(t);
            u == [] || (u[0] != '-' && u[|u| - 1] != '-')
  {
  }

  /** A missing or empty input gives the empty slug. */
  lemma SlugOfNothing()
    ensures Slugify(None) == [] && Slugify(Some([])) == []
  {
  }

  /** A slug passes through the slug pattern unchanged. */
  lemma {:induction false} CollapseOfSlug(s: String)
    requires SlugChars(s) && SingleDashes(s)
    ensures Collapse(s) == s
    decreases |s|
  {
    if s != [] {
      var t := s[1..];
      SuffixKeepsSlugChars(s, t);
      CollapseOfSlug(t);
      if !IsSlugChar(s[0]) {
        assert t == [] || IsSlugChar(t[0]);
        assert DropSeparators(t) == t;
      }
    }
  }

  lemma LowerOfSlug(s: String)
    requires SlugChars(s)
    ensures LowerAll(s) == s
  {
  }

  /** `slugify` is idempotent. */
  lemma SlugIdempotent(str: Option<String>)
    ensures Slugify(Some(Slugify(str))) == Slugify(str)
  {
    var s := Slugify(str);
    SlugShape(str);
    LowerOfSlug(s);
    CollapseOfSlug(s);
  }

  // ----------------------------------------------------------- timestamp

  /** The clock's reading as `Date` reports it; `month` counts from 0. */
  datatype DateParts = DateParts(year: nat, month: nat, day: nat, hours: nat, minutes: nat, seconds: nat)

  /** The ranges `Date`'s getters keep to. */
  predicate ValidDate(d: DateParts)
  {
    d.month < 12 && 1 <= d.day <= 31 && d.hours < 24 && d.minutes < 60 && d.seconds < 60
  }

  /** `String(n).padStart(2, "0")`. */
  function Pad2(n: nat): String
  {
    if n < 10 then "0" + Decimal(n) else Decimal(n)
  }

  /** `YYYYMMDD`: the year as written, then month (from 1) and day, padded. */
  function DateStamp(d: DateParts): String
  {
    Decimal(d.year) + Pad2(d.month + 1) + Pad2(d.day)
  }

  /** `HHMMSS`. */
  function TimeStamp(d: DateParts): String
  {
    Pad2(d.hours) + Pad2(d.minutes) + Pad2(d.seconds)
  }

  /** `ts()`, as a function of the clock's date parts. */
  function Ts(d: DateParts): String
  {
    DateStamp(d) + "-" + TimeStamp(d)
  }

  /** Reads back a timestamp of a four-digit year: `YYYYMMDD-HHMMSS`. */
  function ParseTs(s: String): Option<DateParts>
  {
    if |s| == 15 && s[8] == '-' && AllDigits(s[..8]) && AllDigits(s[9..]) then
      var date, time := s[..8], s[9..];
      var month := ParseDecimal(date[4..6]);
      if month == 0 then None
      else Some(DateParts(ParseDecimal(date[..4]), month - 1, ParseDecimal(date[6..]),
                          ParseDecimal(time[..2]), ParseDecimal(time[2..4]), ParseDecimal(time[4..])))
    else None
  }

  /** A two-digit field pads to two digits and reads back as its value. */
  lemma Pad2Digits(n: nat)
    requires n < 100
    ensures |Pad2(n)| == 2 && AllDigits(Pad2(n)) && ParseDecimal(Pad2(n)) == n
  {
    if n < 10 {
      var p := Pad2(n);
      assert p == ['0', DigitChar(n)];
      assert p[..1] == ['0'] && p[..1][..0] == [];
      assert ParseDecimal(p[..1]) == 0;
      assert DigitValue(DigitChar(n)) == n;
    } else {
      DecimalLengthTwo(n);
      ParseDecimalOfDecimal(n);
    }
  }

  lemma DecimalOfYear(y: nat)
    requires 1000 <= y < 10000
    ensures |Decimal(y)| == 4 && AllDigits(Decimal(y)) && ParseDecimal(Decimal(y)) == y
  {
    DecimalLengthFour(y);
    ParseDecimalOfDecimal(y);
  }

  /** The three fields of a concatenation of digit strings, read back by position. */
  lemma ThreeFields(a: String, b: String, c: String)
    requires AllDigits(a) && AllDigits(b) && AllDigits(c)
    ensures var s := a + b + c;
            AllDigits(s) && s[..|a|] == a && s[|a|..|a| + |b|] == b && s[|a| + |b|..] == c
  {
    var s := a + b + c;
    assert forall i :: 0 <= i < |s| ==> s[i] == (if i < |a| then a[i] else if i < |a| + |b| then b[i - |a|] else c[i - |a| - |b|]);
  }

  lemma DateStampFields(d: DateParts)
    requires ValidDate(d) && 1000 <= d.year < 10000
    ensures var t := DateStamp(d);
            && |t| == 8 && AllDigits(t)
            && ParseDecimal(t[..4]) == d.year && ParseDecimal(t[4..6]) == d.month + 1 && ParseDecimal(t[6..]) == d.day
  {
    DecimalOfYear(d.year);
    Pad2Digits(d.month + 1);
    Pad2Digits(d.day);
    ThreeFields(Decimal(d.year), Pad2(d.month + 1), Pad2(d.day));
  }

  lemma TimeStampFields(d: DateParts)
    requires ValidDate(d)
    ensures var t := TimeStamp(d);
            && |t| == 6 && AllDigits(t)
            && ParseDecimal(t[..2]) == d.hours && ParseDecimal(t[2..4]) == d.minutes && ParseDecimal(t[4..]) == d.seconds
  {
    Pad2Digits(d.hours);
    Pad2Digits(d.minutes);
    Pad2Digits(d.seconds);
    ThreeFields(Pad2(d.hours), Pad2(d.minutes), Pad2(d.seconds));
  }

  lemma StampHalves(a: String, b: String)
    requires |a| == 8
    ensures var s := a + "-" + b;
            |s| == 9 + |b| && s[8] == '-' && s[..8] == a && s[9..] == b
  {
  }

  /** For a four-digit year the stamp is `YYYYMMDD-HHMMSS` and reads back as the date it was made from. */
  lemma TsRoundTrip(d: DateParts)
    requires ValidDate(d) && 1000 <= d.year < 10000
    ensures |Ts(d)| == 15
    ensures ParseTs(Ts(d)) == Some(d)
  {
    DateStampFields(d);
    TimeStampFields(d);
    StampHalves(DateStamp(d), TimeStamp(d));
  }

  // ----------------------------------------------------------------- URL

  /** `/^https?:\/\//i`. */
  predicate HasScheme(u: String)
  {
    StartsWithIgnoreCase(u, "http://") || StartsWithIgnoreCase(u, "https://")
  }

  /** A URL without an `http://` or `https://` scheme gets `https://` in front. */
  function NormaliseUrl(u: String): String
  {
    if HasScheme(u) then u else "https://" + u
  }

  /** The result always has a scheme, and it is the input or the input after `https://`. */
  lemma NormalisedHasScheme(u: String)
    ensures HasScheme(NormaliseUrl(u))
    ensures NormaliseUrl(u) == u || NormaliseUrl(u) == "https://" + u
    ensures HasScheme(u) ==> NormaliseUrl(u) == u
  {
    var v := "https://" + u;
    assert v[..8] == "https://";
  }

  lemma NormaliseIdempotent(u: String)
    ensures NormaliseUrl(NormaliseUrl(u)) == NormaliseUrl(u)
  {
    NormalisedHasScheme(u);
  }

  // --------------------------------------------------------------- flags

  const Desktop: String := "--desktop"
  const Mobile: String := "--mobile"
  const Menu: String := "--menu"
  const MobileMenu: String := "--mobile+menu"

  /** The mode a prompt answer selects, after `.trim().toLowerCase()`. */
  function ModeFlag(answer: String): String
  {
    var m := LowerAll(Trim(answer));
    if Contains(m, "mobile") && Contains(m, "menu") then MobileMenu
    else if m == "mobile" then Mobile
    else if m == "menu" then Menu
    else Desktop
  }

  /** Each of the four flags is chosen by exactly the answers the prompt describes. */
  lemma ModeCases(answer: String)
    ensures var m := LowerAll(Trim(answer));
            && (ModeFlag(answer) == MobileMenu <==> Contains(m, "mobile") && Contains(m, "menu"))
            && (ModeFlag(answer) == Mobile <==> m == "mobile")
            && (ModeFlag(answer) == Menu <==> m == "menu")
            && (ModeFlag(answer) == Desktop <==> !(Contains(m, "mobile") && Contains(m, "menu")) && m != "mobile" && m != "menu")
  {
    var m := LowerAll(Trim(answer));
    if m == "mobile" {
      NoMenuInMobile();
    }
    if m == "menu" {
      NoMobileInMenu();
    }
  }

  lemma NoMenuInMobile()
    ensures !Contains("mobile", "menu")
  {
    var s: String := "mobile";
    assert s[..4][1] != "menu"[1];
    assert !StartsWith(s[1..], "menu");
    assert !StartsWith(s[2..], "menu");
    assert s[3..][1..] == s[4..];
    assert |s[3..]| < 4;
    assert !StartsWith(s[3..], "menu");
  }

  lemma NoMobileInMenu()
    ensures !Contains("menu", "mobile")
  {
    var s: String := "menu";
    assert !StartsWith(s, "mobile");
  }

  /** `argv.filter(a => a.startsWith("--"))`: the flag arguments, in order. */
  function FlagArgs(args: seq<String>): (r: seq<String>)
    ensures |r| <= |args|
    ensures forall i :: 0 <= i < |r| ==> StartsWith(r[i], "--")
  {
    if args == [] then []
    else FlagArgs(args[..|args| - 1]) + (if StartsWith(args[|args| - 1], "--") then [args[|args| - 1]] else [])
  }

  /** `new Set(...)` of the filtered arguments. */
  function Flags(args: seq<String>): set<String>
  {
    set a | a in FlagArgs(args)
  }

  /** `argv.find(a => !a.startsWith("--"))`. */
  function FirstUrl(args: seq<String>): (r: Option<String>)
  {
    if args == [] then None
    else if !StartsWith(args[0], "--") then Some(args[0])
    else FirstUrl(args[1..])
  }

  /** The URL found is the first argument that is not a flag; there is none only when every argument is a flag. */
  lemma {:induction false} FirstUrlIsFirst(args: seq<String>)
    ensures FirstUrl(args).None? <==> forall i :: 0 <= i < |args| ==> StartsWith(args[i], "--")
    ensures FirstUrl(args).Some? ==>
              exists i :: 0 <= i < |args| && args[i] == FirstUrl(args).value && !StartsWith(args[i], "--")
                && forall j :: 0 <= j < i ==> StartsWith(args[j], "--")
  {
    if args != [] && StartsWith(args[0], "--") {
      var t := args[1..];
      FirstUrlIsFirst(t);
      assert forall i :: 0 <= i < |t| ==> t[i] == args[i + 1];
      if FirstUrl(t).Some? {
        var i :| 0 <= i < |t| && t[i] == FirstUrl(t).value && !StartsWith(t[i], "--")
                 && forall j :: 0 <= j < i ==> StartsWith(t[j], "--");
        assert forall j :: 0 <= j < i + 1 ==> StartsWith(args[j], "--") by {
          forall j | 0 <= j < i + 1 ensures StartsWith(args[j], "--") {
            if j > 0 {
              assert args[j] == t[j - 1];
            }
          }
        }
      }
    }
  }

  /** The URL and flags a run works with. */
  datatype Setup = Setup(url: String, flags: set<String>)

  /**
   Without a URL (none, or an empty one) the prompts supply the URL and,
   when no flag was given, the mode; with one, no flag means desktop.
   */
  function ChooseSetup(args: seq<String>, urlAnswer: String, modeAnswer: String): Setup
  {
    var flags := Flags(args);
    var found := FirstUrl(args);
    if found.None? || found.value == [] then
      Setup(NormaliseUrl(Trim(urlAnswer)), if flags == {} then {ModeFlag(modeAnswer)} else flags)
    else
      Setup(NormaliseUrl(found.value), if flags == {} then {Desktop} else flags)
  }

  predicate IsMode(f: String)
  {
    f == Desktop || f == Mobile || f == Menu || f == MobileMenu
  }

  /**
   The given flags are kept; only when there are none is exactly one mode
   added. The URL always has a scheme.
   */
  lemma SetupFlags(args: seq<String>, urlAnswer: String, modeAnswer: String)
    ensures var s := ChooseSetup(args, urlAnswer, modeAnswer);
            && HasScheme(s.url)
            && (Flags(args) != {} ==> s.flags == Flags(args))
            && (Flags(args) == {} ==> |s.flags| == 1 && forall f :: f in s.flags ==> IsMode(f))
  {
    SetupScheme(args, urlAnswer, modeAnswer);
    ModeIsMode(modeAnswer);
  }

  lemma SetupScheme(args: seq<String>, urlAnswer: String, modeAnswer: String)
    ensures HasScheme(ChooseSetup(args, urlAnswer, modeAnswer).url)
  {
    var found := FirstUrl(args);
    if found.None? || found.value == [] {
      NormalisedHasScheme(Trim(urlAnswer));
    } else {
      NormalisedHasScheme(found.value);
    }
  }

  lemma ModeIsMode(answer: String)
    ensures IsMode(ModeFlag(answer))
  {
  }

  /** A URL given with no flags means a desktop capture of that URL. */
  lemma UrlAloneIsDesktop(args: seq<String>, urlAnswer: String, modeAnswer: String)
    requires Flags(args) == {} && FirstUrl(args).Some? && FirstUrl(args).value != []
    ensures ChooseSetup(args, urlAnswer, modeAnswer) == Setup(NormaliseUrl(FirstUrl(args).value), {Desktop})
  {
  }

  /** Every flag comes from an argument that starts with `--`, and each such argument is one. */
  lemma {:induction false} FlagsMembers(args: seq<String>, a: String)
    ensures a in Flags(args) <==> a in args && StartsWith(a, "--")
  {
    if args != [] {
      var init := args[..|args| - 1];
      FlagsMembers(init, a);
      assert args == init + [args[|args| - 1]];
    }
  }

  // --------------------------------------------------------------- names

  /** `baseSlug`: host slug, then `-` and the path slug when it is not empty, then `-` and the stamp. */
  function BaseSlug(hostname: String, pathname: String, stamp: String): String
  {
    JoinSlug(Slugify(Some(hostname)), Slugify(Some(pathname)), stamp)
  }

  function JoinSlug(host: String, path: String, stamp: String): String
  {
    host + (if path != [] then "-" + path else []) + "-" + stamp
  }

  /** A stamp is digits and one dash, so a base slug is `[a-z0-9-]` only: a safe file name. */
  lemma TsSlugChars(d: DateParts)
    ensures SlugChars(Ts(d))
  {
    var a, b := DateStamp(d), TimeStamp(d);
    DigitsSlugChars(Decimal(d.year));
    Pad2SlugChars(d.month + 1);
    Pad2SlugChars(d.day);
    Pad2SlugChars(d.hours);
    Pad2SlugChars(d.minutes);
    Pad2SlugChars(d.seconds);
    ConcatSlugChars(Decimal(d.year), Pad2(d.month + 1));
    ConcatSlugChars(Decimal(d.year) + Pad2(d.month + 1), Pad2(d.day));
    ConcatSlugChars(Pad2(d.hours), Pad2(d.minutes));
    ConcatSlugChars(Pad2(d.hours) + Pad2(d.minutes), Pad2(d.seconds));
    ConcatSlugChars(a, "-");
    ConcatSlugChars(a + "-", b);
  }

  lemma DigitsSlugChars(s: String)
    requires AllDigits(s)
    ensures SlugChars(s)
  {
  }

  lemma Pad2SlugChars(n: nat)
    ensures SlugChars(Pad2(n))
  {
    if n < 10 {
      assert Pad2(n) == ['0', DigitChar(n)];
    }
  }

  lemma ConcatSlugChars(a: String, b: String)
    requires SlugChars(a) && SlugChars(b)
    ensures SlugChars(a + b)
  {
    assert forall i :: 0 <= i < |a + b| ==> (a + b)[i] == (if i < |a| then a[i] else b[i - |a|]);
  }

  /** `r` starts with `host`, ends with `-` and `stamp`, and uses only `[a-z0-9-]`. */
  predicate SlugLayout(r: String, host: String, stamp: String)
  {
    && StartsWith(r, host)
    && |r| > |stamp| && r[|r| - |stamp| - 1..] == "-" + stamp
    && SlugChars(r)
  }

  /**
   The base slug starts with the host slug and ends with `-` and the stamp;
   with a stamp of `ts()` (see `TsSlugChars`) it uses only `[a-z0-9-]`.
   */
  lemma BaseSlugShape(hostname: String, pathname: String, stamp: String)
    requires SlugChars(stamp)
    ensures SlugLayout(BaseSlug(hostname, pathname, stamp), Slugify(Some(hostname)), stamp)
  {
    var h, p := Slugify(Some(hostname)), Slugify(Some(pathname));
    assert SlugChars(h) by { SlugShape(Some(hostname)); }
    assert SlugChars(p) by { SlugShape(Some(pathname)); }
    JoinSlugShape(h, p, stamp);
  }

  lemma JoinSlugShape(host: String, path: String, stamp: String)
    requires SlugChars(host) && SlugChars(path) && SlugChars(stamp)
    ensures SlugLayout(JoinSlug(host, path, stamp), host, stamp)
  {
    var mid := if path != [] then "-" + path else [];
    var tail := "-" + stamp;
    assert JoinSlug(host, path, stamp) == host + (mid + tail);
    TwoParts(host, mid + tail);
    TwoParts(host + mid, tail);
    assert host + (mid + tail) == (host + mid) + tail;
    BaseSlugChars(host, path, mid, stamp);
  }

  lemma TwoParts(a: String, b: String)
    ensures (a + b)[..|a|] == a && (a + b)[|a|..] == b
  {
  }

  lemma BaseSlugChars(host: String, path: String, mid: String, stamp: String)
    requires SlugChars(host) && SlugChars(path) && SlugChars(stamp)
    requires mid == [] || mid == "-" + path
    ensures SlugChars(host + (mid + ("-" + stamp)))
  {
    ConcatSlugChars("-", path);
    ConcatSlugChars("-", stamp);
    ConcatSlugChars(mid, "-" + stamp);
    ConcatSlugChars(host, mid + ("-" + stamp));
  }

  /** Whether each page load (`gotoSmart`) succeeded. */
  datatype Loads = Loads(desktop: bool, mobile: bool, menu: bool)

  /** The menu-only capture: `--menu` without either mobile flag. */
  predicate MenuOnly(flags: set<String>)
  {
    Menu in flags && Mobile !in flags && MobileMenu !in flags
  }

  predicate MobileRun(flags: set<String>)
  {
    Mobile in flags || MobileMenu in flags
  }

  /** The screenshot file names a run saves, in order. */
  function Shots(flags: set<String>, base: String, loads: Loads): seq<String>
  {
    (if Desktop in flags && loads.desktop then [base + "-desktop.png"] else [])
    + (if MobileRun(flags) && loads.mobile then
         [base + "-mobile.png"] + (if MobileMenu in flags then [base + "-mobile-menu.png"] else [])
       else [])
    + (if MenuOnly(flags) && loads.menu then [base + "-mobile-menu.png"] else [])
  }

  /** Which names are saved, and under which flags and loads. */
  lemma ShotsMembers(flags: set<String>, base: String, loads: Loads)
    ensures var r := Shots(flags, base, loads);
            && (base + "-desktop.png" in r <==> Desktop in flags && loads.desktop)
            && (base + "-mobile.png" in r <==> MobileRun(flags) && loads.mobile)
            && (base + "-mobile-menu.png" in r <==>
                  (MobileMenu in flags && loads.mobile) || (MenuOnly(flags) && loads.menu))
  {
    NamesDiffer(base);
  }

  /** At most the three names, each once. */
  lemma ShotsBound(flags: set<String>, base: String, loads: Loads)
    ensures var r := Shots(flags, base, loads);
            && |r| <= 3
            && forall i :: 0 <= i < |r| ==> r[i] in {base + "-desktop.png", base + "-mobile.png", base + "-mobile-menu.png"}
  {
  }

  lemma NamesDiffer(base: String)
    ensures base + "-desktop.png" != base + "-mobile.png"
    ensures base + "-desktop.png" != base + "-mobile-menu.png"
    ensures base + "-mobile.png" != base + "-mobile-menu.png"
  {
    var a, b, c := base + "-desktop.png", base + "-mobile.png", base + "-mobile-menu.png";
    assert a[|base| + 1] == 'd' && b[|base| + 1] == 'm';
    assert |b| != |c| && |a| != |c|;
  }

  /** The two menu captures never both run, so no name is saved twice. */
  lemma ShotsDistinct(flags: set<String>, base: String, loads: Loads)
    ensures NoDuplicates(Shots(flags, base, loads))
  {
    NamesDiffer(base);
  }

  /** Flags that name no mode capture nothing. */
  lemma UnknownFlagsCaptureNothing(flags: set<String>, base: String, loads: Loads)
    requires forall f :: f in flags ==> !IsMode(f)
    ensures Shots(flags, base, loads) == []
  {
  }
}

=== FILE: clean_old_variants.dfy ===
/**
 scripts/clean-old-variants.mjs: walk `src/assets/images` and delete every
 file whose path matches the legacy-variant pattern.

 The walk is given as the sequence of paths it yields, and whether each
 `unlink` succeeds as a predicate. A failed `unlink` is swallowed, so the
 file is still logged and counted as removed. A missing root makes the
 first `readdir` reject; `main()` has no handler, so Node reports the
 unhandled rejection and exits with 1.
 */
module CleanOldVariants {
  import opened Strings
  import opened VariantNames

  /** The walked paths the pattern matches, in walk order. */
  function WeirdFiles(files: seq<String>): (r: seq<String>)
    ensures |r| <= |files|
  {
    if files == [] then []
    else
      var r := WeirdFiles(files[..|files| - 1]);
      if IsWeirdVariant(files[|files| - 1]) then r + [files[|files| - 1]] else r
  }

  /** The matched paths whose `unlink` succeeds. */
  function Deleted(files: seq<String>, unlinks: String -> bool): (r: seq<String>)
    ensures |r| <= |files|
  {
    if files == [] then []
    else
      var r := Deleted(files[..|files| - 1], unlinks);
      var f := files[|files| - 1];
      if IsWeirdVariant(f) && unlinks(f) then r + [f] else r
  }

  /** The walked paths still present afterwards. */
  function Remaining(files: seq<String>, unlinks: String -> bool): (r: seq<String>)
    ensures |r| <= |files|
  {
    if files == [] then []
    else
      var r := Remaining(files[..|files| - 1], unlinks);
      var f := files[|files| - 1];
      if IsWeirdVariant(f) && unlinks(f) then r else r + [f]
  }

  /** What a finished cleanup did: its counter, the paths it logged and those it really deleted. */
  datatype Cleanup = Cleanup(removed: nat, logged: seq<String>, deleted: seq<String>)

  datatype Outcome = RootMissing | Cleaned(cleanup: Cleanup)

  function ExitCode(o: Outcome): (code: nat)
    ensures code == 0 <==> o.Cleaned?
    ensures code == 1 <==> o.RootMissing?
  {
    if o.RootMissing? then 1 else 0
  }

  /** The loop of `main`: log and count every match, whether or not its deletion succeeds. */
  method Clean(files: seq<String>, unlinks: String -> bool) returns (c: Cleanup)
    ensures c.logged == WeirdFiles(files)
    ensures c.removed == |WeirdFiles(files)|
    ensures c.deleted == Deleted(files, unlinks)
  {
    c := Cleanup(0, [], []);
    var i := 0;
    while i < |files|
      invariant i <= |files|
      invariant c.logged == WeirdFiles(files[..i])
      invariant c.removed == |c.logged|
      invariant c.deleted == Deleted(files[..i], unlinks)
    {
      var fp := files[i];
      assert files[..i + 1][..i] == files[..i];
      if IsWeirdVariant(fp) {
        var gone := if unlinks(fp) then c.deleted + [fp] else c.deleted;
        c := Cleanup(c.removed + 1, c.logged + [fp], gone);
      }
      i := i + 1;
    }
    assert files[..i] == files;
  }

  /** `main`: a missing root ends the run before anything is removed. */
  method Run(rootExists: bool, files: seq<String>, unlinks: String -> bool) returns (o: Outcome)
    ensures rootExists <==> o.Cleaned?
    ensures o.Cleaned? ==> o.cleanup.removed == |WeirdFiles(files)|
  {
    if !rootExists {
      return RootMissing;
    }
    var c := Clean(files, unlinks);
    o := Cleaned(c);
  }

  /** A path is logged exactly when it was walked and matches the pattern. */
  lemma {:induction false} WeirdFilesMembers(files: seq<String>, f: String)
    ensures f in WeirdFiles(files) <==> f in files && IsWeirdVariant(f)
  {
    if files != [] {
      WeirdFilesMembers(files[..|files| - 1], f);
      assert files == files[..|files| - 1] + [files[|files| - 1]];
    }
  }

  /**
   Every walked path is either deleted or remains, and the matched paths
   that remain are exactly those whose `unlink` failed.
   */
  lemma {:induction false} RemainingMembers(files: seq<String>, unlinks: String -> bool, f: String)
    ensures f in Deleted(files, unlinks) <==> f in files && IsWeirdVariant(f) && unlinks(f)
    ensures f in Remaining(files, unlinks) <==> f in files && !(IsWeirdVariant(f) && unlinks(f))
  {
    if files != [] {
      RemainingMembers(files[..|files| - 1], unlinks, f);
      assert files == files[..|files| - 1] + [files[|files| - 1]];
    }
  }

  /** The counter counts attempts: failed deletions are counted as removed too. */
  lemma {:induction false} RemovedCountsAttempts(files: seq<String>, unlinks: String -> bool)
    ensures |Deleted(files, unlinks)| <= |WeirdFiles(files)|
    ensures (forall i :: 0 <= i < |files| ==> unlinks(files[i])) ==>
              Deleted(files, unlinks) == WeirdFiles(files)
  {
    if files != [] {
      RemovedCountsAttempts(files[..|files| - 1], unlinks);
    }
  }

  /** When every deletion succeeds, a second cleanup over what remains removes nothing. */
  lemma {:induction false} CleanIdempotent(files: seq<String>, unlinks: String -> bool)
    requires forall i :: 0 <= i < |files| ==> unlinks(files[i])
    ensures WeirdFiles(Remaining(files, unlinks)) == []
  {
    if files != [] {
      var init := files[..|files| - 1];
      assert forall i :: 0 <= i < |init| ==> unlinks(init[i]) by {
        assert forall i :: 0 <= i < |init| ==> init[i] == files[i];
      }
      CleanIdempotent(init, unlinks);
      var f := files[|files| - 1];
      if !IsWeirdVariant(f) {
        assert Remaining(files, unlinks) == Remaining(init, unlinks) + [f];
        assert Remaining(files, unlinks)[..|Remaining(files, unlinks)| - 1] == Remaining(init, unlinks);
      }
    }
  }

  /** Only `.webp` files are ever deleted: no PNG or JPEG original is touched. */
  lemma OnlyWebpDeleted(files: seq<String>, unlinks: String -> bool, f: String)
    requires f in Deleted(files, unlinks)
    ensures EndsWithIgnoreCase(f, ".webp")
  {
    RemainingMembers(files, unlinks, f);
  }

  /**
   A plain variant `stem-<digits>.webp` survives the cleanup unless its stem
   ends with a width marker, as `stem-900w-768.webp` does.
   */
  lemma PlainVariantSurvives(files: seq<String>, unlinks: String -> bool, stem: String, d: String)
    requires IsNumeral(d) && !EndsWithWidthMarker(stem)
    requires stem + "-" + d + ".webp" in files
    ensures stem + "-" + d + ".webp" in Remaining(files, unlinks)
  {
    PlainVariantWeird(stem, d);
    RemainingMembers(files, unlinks, stem + "-" + d + ".webp");
  }
}

=== FILE: convert_images.dfy ===
/**
 scripts/convert-images.mjs: walk `src/assets/images` and write a WebP
 copy beside every PNG or JPEG file whose WebP name does not exist yet.

 The walk is given as the sequence of non-directory paths it reaches, in
 order; the image library is a `Codec`. A failed conversion is logged and
 the walk goes on. A missing root stops the script with exit code 1.
 */
module ConvertImages {
  import opened Strings
  import opened Seqs
  import opened Paths
  import opened Transcoding
  import opened ImageEndings

  /** `exts.has(path.extname(name).toLowerCase())` for the set `.png`, `.jpg`, `.jpeg`. */
  predicate IsConvertible(p: String)
  {
    var e := LowerAll(ExtName(p));
    e == ".png" || e == ".jpg" || e == ".jpeg"
  }

  /** `p.replace(/\.(png|jpe?g)$/i, ".webp")` on the whole path. */
  function WebpPath(p: String): String
  {
    var k := SourceEnding(p);
    if k == 0 then p else p[..|p| - k] + ".webp"
  }

  /** The state of the walk: the paths that exist, the WebP files written and the inputs that failed. */
  datatype Progress = Progress(existing: set<String>, written: seq<String>, failed: seq<String>)

  /** One walked file: convert it when it qualifies and its WebP name is free. */
  function Step(p: Progress, file: String, codec: Codec): Progress
  {
    if !IsConvertible(file) then p
    else
      var out := WebpPath(file);
      if out in p.existing then p
      else if codec.encodes(file, out) then p.(existing := p.existing + {out}, written := p.written + [out])
      else p.(failed := p.failed + [file])
  }

  function Walk(p: Progress, files: seq<String>, codec: Codec): Progress
  {
    if files == [] then p
    else Step(Walk(p, files[..|files| - 1], codec), files[|files| - 1], codec)
  }

  datatype Outcome = MissingRoot | Done(progress: Progress)

  function Run(rootExists: bool, existing: set<String>, files: seq<String>, codec: Codec): Outcome
  {
    if !rootExists then MissingRoot else Done(Walk(Progress(existing, [], []), files, codec))
  }

  function ExitCode(o: Outcome): (code: nat)
    ensures code == 1 <==> o.MissingRoot?
    ensures code == 0 <==> o.Done?
  {
    if o.MissingRoot? then 1 else 0
  }

  // --------------------------------------------------------------- names

  /** A path is its directory prefix, its stem and its extension, in that order. */
  lemma PathEndsWithExt(p: String)
    ensures p[|p| - |ExtName(p)|..] == ExtName(p)
    ensures p[..|p| - |ExtName(p)|] == DirPrefix(p) + StemName(p)
  {
    assert DirPrefix(p) + (StemName(p) + ExtName(p)) == p by {
      StemNameShape(p);
      PathShape(p);
    }
    ThreeParts(p, DirPrefix(p), StemName(p), ExtName(p));
  }

  lemma ThreeParts(p: String, d: String, s: String, e: String)
    requires d + (s + e) == p
    ensures p[|p| - |e|..] == e && p[..|p| - |e|] == d + s
  {
    assert p == (d + s) + e;
  }

  /** A string that ends with `e` ends with its lower-case form, ignoring case. */
  lemma EndsWithLowered(s: String, e: String)
    requires |e| <= |s| && s[|s| - |e|..] == e
    ensures EndsWithIgnoreCase(s, LowerAll(e))
  {
    var lit := LowerAll(e);
    assert forall i :: 0 <= i < |lit| ==> Lower(lit[i]) == lit[i];
  }

  /** A file that qualifies has a non-empty stem: `.png` alone is a dot file without extension. */
  lemma ConvertibleStem(p: String)
    requires IsConvertible(p)
    ensures StemName(p) != []
  {
    ExtensionShape(BaseName(p));
  }

  /** A file that qualifies ends with its own extension, which the rewrite recognises. */
  lemma ConvertibleEnding(p: String)
    requires IsConvertible(p)
    ensures SourceEnding(p) == |ExtName(p)|
    ensures p[..|p| - |ExtName(p)|] == DirPrefix(p) + StemName(p)
    ensures StemName(p) != []
  {
    PathEndsWithExt(p);
    EndsWithLowered(p, ExtName(p));
    SourceEndingsExclusive(p);
    ConvertibleStem(p);
  }

  /** The WebP name keeps the directory and the stem, and ends with `.webp`. */
  lemma WebpPathForm(p: String)
    requires IsConvertible(p)
    ensures WebpPath(p) == DirPrefix(p) + StemName(p) + ".webp"
  {
    ConvertibleEnding(p);
    var e := ExtName(p);
    assert |e| != 0 by {
      assert |LowerAll(e)| == |e|;
    }
    ReplaceEnding(p, |e|);
  }

  /** A path with a source ending has that ending replaced. */
  lemma ReplaceEnding(p: String, k: nat)
    requires k == SourceEnding(p) && k != 0
    ensures WebpPath(p) == p[..|p| - k] + ".webp"
  {
  }

  /** The output never coincides with its input: every input ends in `g`, every output in `p`. */
  lemma WebpPathDiffers(p: String)
    requires IsConvertible(p)
    ensures WebpPath(p) != p
  {
    ConvertibleEnding(p);
    var e := ExtName(p);
    assert Lower(p[|p| - 1]) == Lower(e[|e| - 1]) == 'g' by {
      assert p[|p| - |e|..] == e;
      assert LowerAll(e)[|e| - 1] == 'g';
    }
  }

  /** An output is a `.webp` file, which the walk never converts again. */
  lemma WebpNotConvertible(p: String)
    requires IsConvertible(p)
    ensures !IsConvertible(WebpPath(p))
  {
    WebpBaseName(p);
    ConvertibleStem(p);
    ExtNameOfBase(WebpPath(p), StemName(p), ".webp");
    WebpExtension(WebpPath(p));
  }

  lemma WebpExtension(q: String)
    requires ExtName(q) == ".webp"
    ensures !IsConvertible(q)
  {
    assert LowerAll(".webp") == ".webp";
  }

  /** The WebP name's base name is the input's stem with `.webp`. */
  lemma WebpBaseName(p: String)
    requires IsConvertible(p)
    ensures BaseName(WebpPath(p)) == StemName(p) + ".webp"
  {
    WebpPathForm(p);
    var stem := StemName(p);
    assert '/' !in stem by { StemNameShape(p); }
    NoSlashWebp(stem);
    SiblingOfStem(WebpPath(p), p, stem + ".webp");
  }

  lemma NoSlashWebp(stem: String)
    requires '/' !in stem
    ensures '/' !in stem + ".webp"
  {
  }

  lemma SiblingOfStem(q: String, p: String, name: String)
    requires q == DirPrefix(p) + name && '/' !in name
    ensures BaseName(q) == name
  {
    SiblingParts(p, name);
  }

  /** `x.png` and `x.jpg` share the WebP name `x.webp`. */
  lemma PngAndJpgCollide(x: String)
    ensures WebpPath(x + ".png") == x + ".webp"
    ensures WebpPath(x + ".jpg") == x + ".webp"
  {
    EndsWithOwnSuffix(x, [], ".png");
    EndsWithOwnSuffix(x, [], ".jpg");
    assert x + ([] + ".png") == x + ".png";
    assert x + ([] + ".jpg") == x + ".jpg";
    assert (x + ".png")[..|x|] == x;
    assert (x + ".jpg")[..|x|] == x;
  }

  // ---------------------------------------------------------------- walk

  /**
   Relative to the paths that existed beforehand: the paths that exist are
   those plus the files written, and every file written is new and written
   once.
   */
  ghost predicate Fresh(before: set<String>, p: Progress)
  {
    && (forall x :: x in p.existing <==> x in before || x in p.written)
    && (forall i :: 0 <= i < |p.written| ==> p.written[i] !in before)
    && NoDuplicates(p.written)
  }

  lemma {:induction false} WalkFresh(existing: set<String>, files: seq<String>, codec: Codec)
    ensures Fresh(existing, Walk(Progress(existing, [], []), files, codec))
  {
    if files != [] {
      WalkFresh(existing, files[..|files| - 1], codec);
      var p := Walk(Progress(existing, [], []), files[..|files| - 1], codec);
      StepFresh(existing, p, files[|files| - 1], codec);
    }
  }

  lemma StepFresh(before: set<String>, p: Progress, file: String, codec: Codec)
    requires Fresh(before, p)
    ensures Fresh(before, Step(p, file, codec))
  {
    var q := Step(p, file, codec);
    if q.written != p.written {
      NoDuplicatesSnoc(p.written, WebpPath(file));
    }
  }

  /** A step writes nothing, or the WebP name of a file that qualifies. */
  lemma StepWrites(p: Progress, file: String, codec: Codec)
    ensures var q := Step(p, file, codec);
            q.written == p.written || (IsConvertible(file) && q.written == p.written + [WebpPath(file)])
  {
  }

  /** `out` is the WebP name of one of `files` that qualifies. */
  ghost predicate WrittenFrom(out: String, files: seq<String>)
  {
    exists j :: 0 <= j < |files| && IsConvertible(files[j]) && out == WebpPath(files[j])
  }

  /** The files written from position `from` on all come from `files`. */
  ghost predicate AllWrittenFrom(written: seq<String>, from: nat, files: seq<String>)
  {
    forall i :: from <= i < |written| ==> WrittenFrom(written[i], files)
  }

  /** Every file written is the WebP name of a walked file that qualifies. */
  lemma {:induction false} WalkWritesWebp(p: Progress, files: seq<String>, codec: Codec)
    ensures var r := Walk(p, files, codec);
            |r.written| >= |p.written| && r.written[..|p.written|] == p.written && AllWrittenFrom(r.written, |p.written|, files)
  {
    if files != [] {
      var init := files[..|files| - 1];
      var file := files[|files| - 1];
      WalkWritesWebp(p, init, codec);
      var q := Walk(p, init, codec);
      StepWrites(q, file, codec);
      FrontLast(files);
      WritesSnoc(p.written, q.written, Step(q, file, codec).written, init, file);
    }
  }

  lemma WritesSnoc(base: seq<String>, mid: seq<String>, last: seq<String>, init: seq<String>, file: String)
    requires |mid| >= |base| && mid[..|base|] == base && AllWrittenFrom(mid, |base|, init)
    requires last == mid || (IsConvertible(file) && last == mid + [WebpPath(file)])
    ensures |last| >= |base| && last[..|base|] == base && AllWrittenFrom(last, |base|, init + [file])
  {
    var files := init + [file];
    assert last[..|mid|] == mid;
    forall i | |base| <= i < |last|
      ensures WrittenFrom(last[i], files)
    {
      if i < |mid| {
        assert WrittenFrom(mid[i], init);
        var j :| 0 <= j < |init| && IsConvertible(init[j]) && mid[i] == WebpPath(init[j]);
        assert files[j] == init[j] && last[i] == mid[i];
      } else {
        assert last[i] == WebpPath(files[|init|]);
      }
    }
  }

  /** No file written is itself a PNG or JPEG file, so no output is ever converted again. */
  lemma OutputsNotConvertible(existing: set<String>, files: seq<String>, codec: Codec)
    ensures var r := Walk(Progress(existing, [], []), files, codec);
            forall i :: 0 <= i < |r.written| ==> !IsConvertible(r.written[i])
  {
    var r := Walk(Progress(existing, [], []), files, codec);
    WalkWritesWebp(Progress(existing, [], []), files, codec);
    forall i | 0 <= i < |r.written|
      ensures !IsConvertible(r.written[i])
    {
      assert AllWrittenFrom(r.written, 0, files);
      assert WrittenFrom(r.written[i], files);
      var j :| 0 <= j < |files| && IsConvertible(files[j]) && r.written[i] == WebpPath(files[j]);
      WebpNotConvertible(files[j]);
    }
  }

  /** Number of the files that qualify. */
  function ConvertibleCount(files: seq<String>): (n: nat)
    ensures n <= |files|
  {
    if files == [] then 0
    else ConvertibleCount(files[..|files| - 1]) + (if IsConvertible(files[|files| - 1]) then 1 else 0)
  }

  /**
   Every write and every failure belongs to a different file that qualifies,
   so together they never outnumber those files; a file that does not qualify
   adds to neither.
   */
  lemma {:induction false} WalkCounts(p: Progress, files: seq<String>, codec: Codec)
    ensures var r := Walk(p, files, codec);
            (|r.written| - |p.written|) + (|r.failed| - |p.failed|) <= ConvertibleCount(files)
            && |r.written| >= |p.written| && |r.failed| >= |p.failed|
  {
    if files != [] {
      WalkCounts(p, files[..|files| - 1], codec);
    }
  }

  /** The conversion of `file` can add nothing: it does not qualify, its output exists, or it fails. */
  predicate Settled(existing: set<String>, file: String, codec: Codec)
  {
    !IsConvertible(file) || WebpPath(file) in existing || !codec.encodes(file, WebpPath(file))
  }

  predicate AllSettled(existing: set<String>, files: seq<String>, codec: Codec)
  {
    forall i :: 0 <= i < |files| ==> Settled(existing, files[i], codec)
  }

  /** After a walk every file it visited is settled; paths are only ever added. */
  lemma {:induction false} WalkSettles(p: Progress, files: seq<String>, codec: Codec)
    ensures p.existing <= Walk(p, files, codec).existing
    ensures AllSettled(Walk(p, files, codec).existing, files, codec)
  {
    if files != [] {
      var init := files[..|files| - 1];
      var file := files[|files| - 1];
      WalkSettles(p, init, codec);
      var q := Walk(p, init, codec);
      StepSettles(q, file, codec);
      assert files == init + [file];
      AllSettledSnoc(q.existing, Step(q, file, codec).existing, init, file, codec);
    }
  }

  lemma StepSettles(p: Progress, file: String, codec: Codec)
    ensures var q := Step(p, file, codec);
            p.existing <= q.existing && Settled(q.existing, file, codec)
  {
  }

  lemma AllSettledSnoc(before: set<String>, after: set<String>, init: seq<String>, file: String, codec: Codec)
    requires before <= after && AllSettled(before, init, codec) && Settled(after, file, codec)
    ensures AllSettled(after, init + [file], codec)
  {
    var files := init + [file];
    forall i | 0 <= i < |files|
      ensures Settled(after, files[i], codec)
    {
      if i < |init| {
        assert files[i] == init[i];
      }
    }
  }

  /** Over settled files the walk changes nothing. */
  lemma {:induction false} SettledWritesNothing(p: Progress, files: seq<String>, codec: Codec)
    requires AllSettled(p.existing, files, codec)
    ensures Walk(p, files, codec).existing == p.existing
    ensures Walk(p, files, codec).written == p.written
  {
    if files != [] {
      var init := files[..|files| - 1];
      assert AllSettled(p.existing, init, codec) by {
        forall i | 0 <= i < |init|
          ensures Settled(p.existing, init[i], codec)
        {
          assert init[i] == files[i];
        }
      }
      SettledWritesNothing(p, init, codec);
    }
  }

  /** Running the script again over the same files writes nothing. */
  lemma Rerun(existing: set<String>, files: seq<String>, codec: Codec)
    ensures var first := Walk(Progress(existing, [], []), files, codec);
            var second := Walk(Progress(first.existing, [], []), files, codec);
            second.written == [] && second.existing == first.existing
  {
    var first := Walk(Progress(existing, [], []), files, codec);
    WalkSettles(Progress(existing, [], []), files, codec);
    SettledWritesNothing(Progress(first.existing, [], []), files, codec);
  }

  /**
   `x.png` followed by `x.jpg`: the second finds `x.webp` written by the
   first and is skipped, so the JPEG is never converted.
   */
  lemma CollisionWritesOnce(x: String, existing: set<String>, codec: Codec)
    requires IsConvertible(x + ".png") && IsConvertible(x + ".jpg")
    requires x + ".webp" !in existing && codec.encodes(x + ".png", x + ".webp")
    ensures Walk(Progress(existing, [], []), [x + ".png", x + ".jpg"], codec).written == [x + ".webp"]
  {
    PngAndJpgCollide(x);
    var p0 := Progress(existing, [], []);
    WalkTwo(p0, x + ".png", x + ".jpg", codec);
    StepConverts(p0, x + ".png", codec);
    StepSkipsExisting(Step(p0, x + ".png", codec), x + ".jpg", codec);
  }

  lemma WalkTwo(p: Progress, a: String, b: String, codec: Codec)
    ensures Walk(p, [a, b], codec) == Step(Step(p, a, codec), b, codec)
  {
    var files := [a, b];
    assert files[..1] == [a] && [a][..0] == [];
    assert Walk(p, [a], codec) == Step(Walk(p, [], codec), a, codec);
    assert Walk(p, files, codec) == Step(Walk(p, [a], codec), b, codec);
  }

  /** A file that qualifies, with a free WebP name that converts, is written and recorded. */
  lemma StepConverts(p: Progress, file: String, codec: Codec)
    requires IsConvertible(file) && WebpPath(file) !in p.existing && codec.encodes(file, WebpPath(file))
    ensures Step(p, file, codec) == p.(existing := p.existing + {WebpPath(file)}, written := p.written + [WebpPath(file)])
  {
  }

  /** A file whose WebP name exists is skipped with no write. */
  lemma StepSkipsExisting(p: Progress, file: String, codec: Codec)
    requires WebpPath(file) in p.existing
    ensures Step(p, file, codec) == p
  {
  }

  /**
   A missing root is the only failure of the script. A failed conversion is
   logged and the walk goes on: afterwards every file is settled, and every
   logged failure is a walked file that qualified and did not convert.
   */
  lemma RunExit(rootExists: bool, existing: set<String>, files: seq<String>, codec: Codec)
    ensures ExitCode(Run(rootExists, existing, files, codec)) == 1 <==> !rootExists
    ensures rootExists ==>
              var r := Run(rootExists, existing, files, codec).progress;
              && existing <= r.existing
              && AllSettled(r.existing, files, codec)
              && forall f :: f in r.failed ==> f in files && IsConvertible(f) && !codec.encodes(f, WebpPath(f))
  {
    if rootExists {
      WalkSettles(Progress(existing, [], []), files, codec);
      WalkFailures(Progress(existing, [], []), files, codec);
    }
  }

  /** Every failure a walk adds is a walked file that qualified and did not convert. */
  lemma {:induction false} WalkFailures(p: Progress, files: seq<String>, codec: Codec)
    ensures forall f :: f in Walk(p, files, codec).failed && f !in p.failed ==>
              f in files && IsConvertible(f) && !codec.encodes(f, WebpPath(f))
  {
    if files != [] {
      var init := files[..|files| - 1];
      WalkFailures(p, init, codec);
      forall f | f in init
        ensures f in files
      {
        var k :| 0 <= k < |init| && init[k] == f;
        assert files[k] == f;
      }
    }
  }
}

=== FILE: gen_images.dfy ===
/**
 scripts/gen-images.mjs: walk the image tree and, for every original
 ("source") image, write a 768-pixel and a 1200-pixel WebP beside it.

 The walk is given as the sequence of file paths it yields; the image
 library is a `Codec`. Any failure while reading, resizing or writing is
 thrown out of `main`, so the run stops at that file and exits with 1.
 */
module GenImages {
  import opened Wrappers
  import opened Strings
  import opened Paths
  import opened Transcoding
  import opened VariantNames

  const SmallWidth: nat := 768
  const LargeWidth: nat := 1200

  /** `-(768|1200)\.webp$` with `/i`: already one of the two target variants. */
  predicate IsTargetVariant(fp: String)
  {
    EndsWithIgnoreCase(fp, "-768.webp") || EndsWithIgnoreCase(fp, "-1200.webp")
  }

  /** `\.(webp|png|jpe?g)$` with `/i`. */
  predicate HasImageExtension(fp: String)
  {
    || EndsWithIgnoreCase(fp, ".webp") || EndsWithIgnoreCase(fp, ".png")
    || EndsWithIgnoreCase(fp, ".jpg") || EndsWithIgnoreCase(fp, ".jpeg")
  }

  /** An original image to generate from: an image that is neither kind of variant. */
  predicate IsSource(fp: String)
  {
    HasImageExtension(fp) && !IsTargetVariant(fp) && !IsWeirdVariant(fp)
  }

  /**
   A name ending `-900w-768.webp` is both a target and a legacy variant,
   so the two predicates overlap, and such a name is not a source.
   */
  lemma OverlappingVariant(stem: String)
    ensures IsTargetVariant(stem + "-900w-768.webp")
    ensures IsWeirdVariant(stem + "-900w-768.webp")
    ensures !IsSource(stem + "-900w-768.webp")
  {
    OverlapIsWeird(stem);
    EndsWithOwnSuffix(stem, "-900w", "-768.webp");
    assert stem + ("-900w" + "-768.webp") == stem + "-900w-768.webp";
  }

  /** The result of `split(fp)`. */
  datatype SplitPath = SplitPath(dir: String, name: String, ext: String, base: String)

  /** `split(fp)`: the directory, the base name, and the base name cut at its final extension. */
  function Split(fp: String): SplitPath
  {
    SplitPath(DirPrefix(fp), StemName(fp), ExtName(fp), BaseName(fp))
  }

  /**
   `dir` runs up to the last separator and `base` is the rest; `name + ext`
   is `base`, where `ext` starts at the base name's last `.`.
   */
  lemma SplitParts(fp: String)
    ensures Split(fp).dir + Split(fp).base == fp && '/' !in Split(fp).base
    ensures Split(fp).dir == [] || Split(fp).dir[|Split(fp).dir| - 1] == '/'
    ensures Split(fp).name + Split(fp).ext == Split(fp).base
  {
    PathShape(fp);
    StemNameShape(fp);
  }

  /**
   A non-empty `ext` is the final extension: it starts with a `.` that is
   not the first character of the base name and holds no other `.`. It is
   empty only for `..` and for base names with no `.` after their first
   character, and then `name` is the whole base name.
   */
  lemma SplitExtension(fp: String)
    ensures var r := Split(fp);
            r.ext != [] ==> r.name != [] && r.ext[0] == '.' && forall i :: 0 < i < |r.ext| ==> r.ext[i] != '.'
    ensures var r := Split(fp);
            r.ext == [] ==> r.name == r.base && (r.base == ".." || forall i :: 0 < i < |r.base| ==> r.base[i] != '.')
  {
    var b := BaseName(fp);
    var k := ExtStart(b);
    ExtensionShape(b);
    assert forall i :: 0 <= i < |b| - k ==> b[k..][i] == b[k + i];
  }

  /** `path.join(dir, `${name}${suffix}`)`: a file beside `fp` named after its stem. */
  function OutputName(fp: String, suffix: String): String
  {
    Sibling(fp, Split(fp).name + suffix)
  }

  function Out768(fp: String): String { OutputName(fp, "-768.webp") }

  function Out1200(fp: String): String { OutputName(fp, "-1200.webp") }

  /** An output keeps the source's directory and is named after its stem. */
  lemma OutputBesideSource(fp: String, suffix: String)
    requires '/' !in suffix
    ensures DirPrefix(OutputName(fp, suffix)) == DirPrefix(fp)
    ensures BaseName(OutputName(fp, suffix)) == StemName(fp) + suffix
  {
    StemNameShape(fp);
    SiblingParts(fp, StemName(fp) + suffix);
  }

  /** Both outputs are target variants, so neither is the source itself nor a source on a later run. */
  lemma OutputsAreTargets(fp: String)
    ensures IsTargetVariant(Out768(fp)) && IsTargetVariant(Out1200(fp))
    ensures !IsSource(Out768(fp)) && !IsSource(Out1200(fp))
    ensures IsSource(fp) ==> fp != Out768(fp) && fp != Out1200(fp)
  {
    EndsWithOwnSuffix(DirPrefix(fp), StemName(fp), "-768.webp");
    EndsWithOwnSuffix(DirPrefix(fp), StemName(fp), "-1200.webp");
  }

  /** What `main` has counted and done so far. */
  datatype Tally = Tally(made: nat, skipped: nat, read: seq<String>, written: seq<Write>)

  datatype Outcome =
    | MissingRoot
    | Finished(tally: Tally)
    | Crashed(tally: Tally, at: String)

  /** `process.exit(1)` for a missing tree or an uncaught error; a finished run exits with 0. */
  function ExitCode(o: Outcome): (code: nat)
    ensures code == 0 <==> o.Finished?
    ensures code == 1 <==> !o.Finished?
  {
    if o.Finished? then 0 else 1
  }

  /** One turn of the loop in `main`. */
  function Visit(t: Tally, fp: String, codec: Codec): Outcome
  {
    if !IsSource(fp) then Finished(t.(skipped := t.skipped + 1))
    else
      var t1 := t.(read := t.read + [fp]);
      if !codec.encodes(fp, Out768(fp)) then Crashed(t1, fp)
      else
        var small := t1.(written := t1.written + [Write(Out768(fp), ResizedWidth(codec.width(fp), SmallWidth))]);
        if !codec.encodes(fp, Out1200(fp)) then Crashed(small, fp)
        else
          Finished(small.(made := small.made + 2,
                          written := small.written + [Write(Out1200(fp), ResizedWidth(codec.width(fp), LargeWidth))]))
  }

  /** The loop over the walked files; the first error ends it. */
  function Walk(files: seq<String>, codec: Codec): Outcome
  {
    if files == [] then Finished(Tally(0, 0, [], []))
    else
      match Walk(files[..|files| - 1], codec)
      case Finished(t) => Visit(t, files[|files| - 1], codec)
      case other => other
  }

  /** `main()`: `rootExists` is whether `src/assets/images` is accessible. */
  function Run(rootExists: bool, files: seq<String>, codec: Codec): Outcome
  {
    if !rootExists then MissingRoot else Walk(files, codec)
  }

  // Reference definitions of what a run over a list of files should do.

  function Sources(files: seq<String>): (r: seq<String>)
    ensures |r| <= |files|
  {
    if files == [] then []
    else Sources(files[..|files| - 1]) + (if IsSource(files[|files| - 1]) then [files[|files| - 1]] else [])
  }

  /** The two writes for a source, resized without enlargement. */
  function WritesFor(fp: String, codec: Codec): (w: seq<Write>)
    ensures |w| == 2 && w[0].path == Out768(fp) && w[1].path == Out1200(fp)
    ensures w[0].width <= SmallWidth && w[0].width <= codec.width(fp)
    ensures w[0].width == SmallWidth || w[0].width == codec.width(fp)
    ensures w[1].width <= LargeWidth && w[1].width <= codec.width(fp)
    ensures w[1].width == LargeWidth || w[1].width == codec.width(fp)
  {
    [Write(Out768(fp), ResizedWidth(codec.width(fp), SmallWidth)),
     Write(Out1200(fp), ResizedWidth(codec.width(fp), LargeWidth))]
  }

  function PlannedWrites(files: seq<String>, codec: Codec): seq<Write>
  {
    if files == [] then []
    else
      PlannedWrites(files[..|files| - 1], codec)
      + (if IsSource(files[|files| - 1]) then WritesFor(files[|files| - 1], codec) else [])
  }

  /** Both conversions of `fp` succeed. */
  predicate Encodes(fp: String, codec: Codec)
  {
    codec.encodes(fp, Out768(fp)) && codec.encodes(fp, Out1200(fp))
  }

  /** Every source among `files` converts to both sizes. */
  predicate AllEncode(files: seq<String>, codec: Codec)
  {
    files == [] ||
    (AllEncode(files[..|files| - 1], codec) && (IsSource(files[|files| - 1]) ==> Encodes(files[|files| - 1], codec)))
  }

  /** The walk finishes exactly when every source converts. */
  lemma {:induction false} WalkFinishes(files: seq<String>, codec: Codec)
    ensures Walk(files, codec).Finished? <==> AllEncode(files, codec)
  {
    if files != [] {
      WalkFinishes(files[..|files| - 1], codec);
    }
  }

  /**
   A finished walk has made two variants per source, skipped every other
   file, read exactly the sources and written their outputs in order.
   */
  lemma {:induction false} WalkTally(files: seq<String>, codec: Codec)
    ensures Walk(files, codec).Finished? ==>
              Walk(files, codec).tally
                == Tally(2 * |Sources(files)|, |files| - |Sources(files)|, Sources(files), PlannedWrites(files, codec))
  {
    if files != [] {
      var init, fp := files[..|files| - 1], files[|files| - 1];
      WalkTally(init, codec);
      var o := Walk(init, codec);
      if o.Finished? {
        VisitTally(o.tally, fp, codec);
      }
    }
  }

  /** A finished visit counts, reads and writes exactly what its file calls for. */
  lemma VisitTally(t: Tally, fp: String, codec: Codec)
    ensures Visit(t, fp, codec).Finished? ==>
              Visit(t, fp, codec).tally
                == if IsSource(fp) then Tally(t.made + 2, t.skipped, t.read + [fp], t.written + WritesFor(fp, codec))
                   else Tally(t.made, t.skipped + 1, t.read, t.written)
  {
    if IsSource(fp) && Visit(t, fp, codec).Finished? {
      var w := WritesFor(fp, codec);
      assert t.written + [w[0]] + [w[1]] == t.written + w;
    }
  }

  /** A walk that does not finish stopped at a source among the walked files. */
  lemma {:induction false} WalkCrash(files: seq<String>, codec: Codec)
    ensures !Walk(files, codec).MissingRoot?
    ensures Walk(files, codec).Crashed? ==> IsSource(Walk(files, codec).at) && Walk(files, codec).at in files
  {
    if files != [] {
      var init, fp := files[..|files| - 1], files[|files| - 1];
      WalkCrash(init, codec);
      var o := Walk(init, codec);
      if o.Finished? {
        VisitCrash(o.tally, fp, codec);
      } else {
        assert o.at in init;
      }
    }
  }

  /** A visit either finishes or stops at its own file, which is a source. */
  lemma VisitCrash(t: Tally, fp: String, codec: Codec)
    ensures !Visit(t, fp, codec).MissingRoot?
    ensures Visit(t, fp, codec).Crashed? ==> IsSource(fp) && Visit(t, fp, codec).at == fp
  {
  }

  /** The counters of a finished run: `made = 2 * sources` and `made / 2 + skipped = files walked`. */
  lemma FinishedCounts(files: seq<String>, codec: Codec)
    requires Walk(files, codec).Finished?
    ensures Walk(files, codec).tally.made == 2 * |Sources(files)|
    ensures Walk(files, codec).tally.made / 2 + Walk(files, codec).tally.skipped == |files|
  {
    WalkTally(files, codec);
  }

  /** Every path written is a target variant and never a source; every path read is a source. */
  predicate TallyTargets(t: Tally)
  {
    && (forall i :: 0 <= i < |t.written| ==> IsTargetVariant(t.written[i].path) && !IsSource(t.written[i].path))
    && (forall i :: 0 <= i < |t.read| ==> IsSource(t.read[i]))
  }

  /** Every path a run wrote, finished or not, is a target variant and never a source. */
  lemma {:induction false} WrittenAreTargets(files: seq<String>, codec: Codec)
    ensures Walk(files, codec).Finished? || Walk(files, codec).Crashed?
    ensures TallyTargets(Walk(files, codec).tally)
  {
    if files != [] {
      WrittenAreTargets(files[..|files| - 1], codec);
      var o := Walk(files[..|files| - 1], codec);
      if o.Finished? {
        VisitTargets(o.tally, files[|files| - 1], codec);
      }
    }
  }

  lemma VisitTargets(t: Tally, fp: String, codec: Codec)
    requires TallyTargets(t)
    ensures Visit(t, fp, codec).Finished? || Visit(t, fp, codec).Crashed?
    ensures TallyTargets(Visit(t, fp, codec).tally)
  {
    if IsSource(fp) {
      var t1 := t.(read := t.read + [fp]);
      assert TallyTargets(t1);
      OutputsAreTargets(fp);
      var small := t1.(written := t1.written + [Write(Out768(fp), ResizedWidth(codec.width(fp), SmallWidth))]);
      TargetSnoc(t1, small.written[|small.written| - 1]);
      TargetSnoc(small, Write(Out1200(fp), ResizedWidth(codec.width(fp), LargeWidth)));
    }
  }

  lemma TargetSnoc(t: Tally, w: Write)
    requires TallyTargets(t) && IsTargetVariant(w.path) && !IsSource(w.path)
    ensures TallyTargets(t.(written := t.written + [w]))
    ensures TallyTargets(t.(made := t.made + 2, written := t.written + [w]))
  {
  }

  /**
   Walking more files that are not sources (for example the variants a
   finished run just wrote) only raises `skipped`: nothing more is read or
   written.
   */
  lemma {:induction false} WalkNonSources(files: seq<String>, extra: seq<String>, codec: Codec)
    requires forall i :: 0 <= i < |extra| ==> !IsSource(extra[i])
    ensures Walk(files + extra, codec) ==
              match Walk(files, codec)
              case Finished(t) => Finished(t.(skipped := t.skipped + |extra|))
              case other => other
    decreases |extra|
  {
    if extra == [] {
      assert files + extra == files;
    } else {
      var e' := extra[..|extra| - 1];
      assert (files + extra)[..|files + extra| - 1] == files + e';
      WalkNonSources(files, e', codec);
    }
  }

  /**
   Outputs are overwritten, never skipped: a second run over the same tree
   plus the files the first run wrote makes the same variants again and
   writes the same paths.
   */
  lemma Rerun(files: seq<String>, codec: Codec)
    requires Walk(files, codec).Finished?
    ensures var written := WrittenPaths(Walk(files, codec).tally.written);
            && Walk(files + written, codec).Finished?
            && Walk(files + written, codec).tally.made == Walk(files, codec).tally.made
            && Walk(files + written, codec).tally.written == Walk(files, codec).tally.written
            && Walk(files + written, codec).tally.skipped == Walk(files, codec).tally.skipped + |written|
  {
    var written := WrittenPaths(Walk(files, codec).tally.written);
    WrittenAreTargets(files, codec);
    WalkNonSources(files, written, codec);
  }

  /** Appending one file to a list, in the terms of the reference definitions. */
  lemma SourcesSnoc(files: seq<String>, fp: String)
    ensures Sources(files + [fp]) == Sources(files) + (if IsSource(fp) then [fp] else [])
  {
    assert (files + [fp])[..|files|] == files;
  }

  lemma Snoc(files: seq<String>, fp: String, codec: Codec)
    ensures Sources(files + [fp]) == Sources(files) + (if IsSource(fp) then [fp] else [])
    ensures AllEncode(files + [fp], codec) <==> AllEncode(files, codec) && (IsSource(fp) ==> Encodes(fp, codec))
    ensures PlannedWrites(files + [fp], codec) == PlannedWrites(files, codec) + (if IsSource(fp) then WritesFor(fp, codec) else [])
  {
    assert (files + [fp])[..|files|] == files;
  }

  /** Keeping the sources of a list of sources changes nothing. */
  lemma {:induction false} SourcesOfSources(files: seq<String>)
    ensures Sources(Sources(files)) == Sources(files)
  {
    if files != [] {
      var init, fp := files[..|files| - 1], files[|files| - 1];
      SourcesOfSources(init);
      if IsSource(fp) {
        assert Sources(files) == Sources(init) + [fp];
        SourcesSnoc(Sources(init), fp);
        assert Sources(Sources(init) + [fp]) == Sources(init) + [fp];
      } else {
        assert Sources(files) == Sources(init) + [] == Sources(init);
      }
    }
  }

  /**
   Only the sources matter: whether every file converts and what is
   written depend on `files` only through its sources, in order.
   */
  lemma {:induction false} SourcesDetermine(files: seq<String>, codec: Codec)
    ensures AllEncode(files, codec) <==> AllEncode(Sources(files), codec)
    ensures PlannedWrites(files, codec) == PlannedWrites(Sources(files), codec)
  {
    if files != [] {
      var init, fp := files[..|files| - 1], files[|files| - 1];
      SourcesDetermine(init, codec);
      if IsSource(fp) {
        assert Sources(files) == Sources(init) + [fp];
        Snoc(Sources(init), fp, codec);
        assert AllEncode(Sources(files), codec) <==> AllEncode(Sources(init), codec) && Encodes(fp, codec);
        assert PlannedWrites(Sources(files), codec) == PlannedWrites(Sources(init), codec) + WritesFor(fp, codec);
      } else {
        assert Sources(files) == Sources(init) + [] == Sources(init);
        assert PlannedWrites(files, codec) == PlannedWrites(init, codec) + [] == PlannedWrites(init, codec);
      }
    }
  }

  /**
   Any second run whose sources are the first run's, in the same order,
   whatever other files lie among them, finishes too and makes, reads and
   writes exactly the same; only the number of skipped files differs.
   */
  lemma RerunSameSources(files: seq<String>, files2: seq<String>, codec: Codec)
    requires Walk(files, codec).Finished? && Sources(files2) == Sources(files)
    ensures Walk(files2, codec).Finished?
    ensures Walk(files2, codec).tally.made == Walk(files, codec).tally.made
    ensures Walk(files2, codec).tally.read == Walk(files, codec).tally.read
    ensures Walk(files2, codec).tally.written == Walk(files, codec).tally.written
    ensures Walk(files2, codec).tally.skipped == |files2| - |Sources(files)|
  {
    WalkFinishes(files, codec);
    WalkFinishes(files2, codec);
    SourcesDetermine(files, codec);
    SourcesDetermine(files2, codec);
    WalkTally(files, codec);
    WalkTally(files2, codec);
  }
}

=== FILE: generate_variants.dfy ===
/**
 scripts/generate-variants.mjs: for each selected image, write a 768- and a
 1200-pixel WebP variant beside it unless a file of that name already
 exists, skipping inputs whose names already look like variants.

 The file system is a `Tree`: the kind of every existing path and, for a
 directory, the files the recursive walk yields under it. The image library
 is a `Codec`; a conversion that fails is caught per size and reported with
 a warning, and the run goes on.
 */
module GenerateVariants {
  import opened Wrappers
  import opened Strings
  import opened Seqs
  import opened Paths
  import opened Transcoding

  const SmallSize: nat := 768
  const LargeSize: nat := 1200

  /** The extensions every listing accepts, whatever its patterns say. */
  const DefaultExts: seq<String> := [".png", ".jpg", ".jpeg", ".webp"]

  /** `GLOBS_DEFAULT`: `public/images/**/*.{png,jpg,jpeg,webp}` and the same under `src/assets/images`. */
  const DefaultPatterns: seq<String> :=
    [DirPattern("public/images", DefaultList), DirPattern("src/assets/images", DefaultList)]

  const DefaultList: String := "png,jpg,jpeg,webp"

  // ---------------------------------------------------------------- names

  /**
   Length of the ending `\.(png|jpe?g|webp)$` matches (with `/i`) at the end
   of `b`, or 0 when it does not match. At most one of the four endings can
   end a name, so the order of the tests does not matter.
   */
  function VariantEnding(b: String): (k: nat)
    ensures k <= |b|
  {
    if EndsWithIgnoreCase(b, ".png") || EndsWithIgnoreCase(b, ".jpg") then 4
    else if EndsWithIgnoreCase(b, ".jpeg") || EndsWithIgnoreCase(b, ".webp") then 5
    else 0
  }

  predicate HasVariantEnding(b: String)
  {
    VariantEnding(b) != 0
  }

  /** The name of the variant of base name `b` at `size`: `b.replace(/\.(png|jpe?g|webp)$/i, "-<size>.webp")`. */
  function VariantBase(b: String, size: nat): String
  {
    var k := VariantEnding(b);
    if k == 0 then b else b[..|b| - k] + VariantTail(size)
  }

  /** What replaces the recognised ending: `-<size>.webp`. */
  function VariantTail(size: nat): String
  {
    "-" + Decimal(size) + ".webp"
  }

  /** `variantPath`: the variant's base name, in the input's directory. */
  function VariantPath(file: String, size: nat): String
  {
    Sibling(file, VariantBase(BaseName(file), size))
  }

  /**
   The input filter `-\d+\.webp$` with `/i`: the name already looks like a
   variant, so the file is not converted again.
   */
  predicate IsGeneratedName(fp: String)
  {
    EndsWithIgnoreCase(fp, ".webp") && EndsWithDashNumeral(fp[..|fp| - 5])
  }

  /** No name ends with two of the four recognised endings. */
  lemma EndingsExclusive(b: String)
    ensures !(EndsWithIgnoreCase(b, ".png") && EndsWithIgnoreCase(b, ".jpg"))
    ensures EndsWithIgnoreCase(b, ".jpeg") || EndsWithIgnoreCase(b, ".webp") ==>
              !EndsWithIgnoreCase(b, ".png") && !EndsWithIgnoreCase(b, ".jpg")
    ensures !(EndsWithIgnoreCase(b, ".jpeg") && EndsWithIgnoreCase(b, ".webp"))
  {
    EndingChar(b, ".png", 3);
    EndingChar(b, ".jpg", 3);
    EndingChar(b, ".png", 4);
    EndingChar(b, ".jpg", 4);
    EndingChar(b, ".jpeg", 4);
    EndingChar(b, ".webp", 4);
    EndingChar(b, ".jpeg", 1);
    EndingChar(b, ".webp", 1);
  }

  /** A name that ends with `e`, ignoring case, has `e`'s characters at the same distances from its end. */
  lemma EndingChar(b: String, e: String, k: nat)
    requires 0 < k <= |e|
    ensures EndsWithIgnoreCase(b, e) ==> k <= |b| && Lower(b[|b| - k]) == Lower(e[|e| - k])
  {
    if EndsWithIgnoreCase(b, e) {
      assert b[|b| - |e|..][|e| - k] == b[|b| - k];
    }
  }

  /**
   A name with a recognised ending keeps everything before that ending, gets
   `-<size>.webp` in its place, and the result passes the input filter.
   */
  lemma VariantBaseShape(b: String, size: nat)
    requires HasVariantEnding(b)
    ensures VariantBase(b, size) == b[..|b| - VariantEnding(b)] + VariantTail(size)
    ensures IsGeneratedName(VariantBase(b, size))
  {
    GeneratedNameSuffix(b[..|b| - VariantEnding(b)], size);
  }

  /** A variant name stays within the input's directory. */
  lemma VariantBaseNoSlash(b: String, size: nat)
    requires '/' !in b
    ensures '/' !in VariantBase(b, size)
  {
    var k := VariantEnding(b);
    if k != 0 {
      var stem := b[..|b| - k];
      var d := Decimal(size);
      NotInPrefix(b, |b| - k, '/');
      NotInNumeral(d, '/');
      assert VariantBase(b, size) == stem + ("-" + d) + ".webp";
    }
  }

  lemma NotInPrefix(s: String, n: nat, c: char)
    requires n <= |s| && c !in s
    ensures c !in s[..n]
  {
    assert forall i :: 0 <= i < n ==> s[..n][i] == s[i];
  }

  lemma NotInNumeral(d: String, c: char)
    requires IsNumeral(d) && !IsDigit(c)
    ensures c !in d
  {
  }

  /** A name without a recognised ending is left as it is. */
  lemma VariantBaseUnchanged(b: String, size: nat)
    requires !HasVariantEnding(b)
    ensures VariantBase(b, size) == b
  {
  }

  /** `variantPath` writes into the input's own directory, under the variant name of its base name. */
  lemma VariantPathParts(file: String, size: nat)
    ensures DirPrefix(VariantPath(file, size)) == DirPrefix(file)
    ensures BaseName(VariantPath(file, size)) == VariantBase(BaseName(file), size)
  {
    PathShape(file);
    VariantBaseNoSlash(BaseName(file), size);
    SiblingParts(file, VariantBase(BaseName(file), size));
  }

  /** A variant path always passes the input filter, so a variant is never itself converted. */
  lemma VariantPathGenerated(file: String, size: nat)
    requires HasVariantEnding(BaseName(file))
    ensures IsGeneratedName(VariantPath(file, size))
  {
    var b := BaseName(file);
    var stem := b[..|b| - VariantEnding(b)];
    VariantBaseShape(b, size);
    assert VariantPath(file, size) == (DirPrefix(file) + stem) + VariantTail(size);
    GeneratedNameSuffix(DirPrefix(file) + stem, size);
  }

  /** For a file without a recognised ending, `variantPath` gives back the input's own path. */
  lemma VariantPathUnchanged(file: String, size: nat)
    requires !HasVariantEnding(BaseName(file))
    ensures VariantPath(file, size) == file
  {
    PathShape(file);
  }

  /** Any `x-<digits>.webp` passes the input filter. */
  lemma GeneratedNameSuffix(x: String, size: nat)
    ensures IsGeneratedName(x + VariantTail(size))
  {
    var d := Decimal(size);
    var v := x + VariantTail(size);
    assert v[..|v| - 5] == x + "-" + d;
    assert v[|v| - 5..] == ".webp";
    DashNumeral(x, d);
  }

  /** The two variants of one input never share a path. */
  lemma VariantsDiffer(file: String)
    requires HasVariantEnding(BaseName(file))
    ensures VariantPath(file, SmallSize) != VariantPath(file, LargeSize)
  {
    VariantPathParts(file, SmallSize);
    VariantPathParts(file, LargeSize);
    var b := BaseName(file);
    VariantBaseShape(b, SmallSize);
    VariantBaseShape(b, LargeSize);
    TailLengths();
    assert |VariantBase(b, LargeSize)| == |VariantBase(b, SmallSize)| + 1;
  }

  lemma TailLengths()
    ensures |VariantTail(SmallSize)| == 9 && |VariantTail(LargeSize)| == 10
  {
    assert Decimal(768) == "768";
    assert Decimal(1200) == "1200";
  }

  /**
   `meta.width && meta.width < size ? meta.width : size`: the width asked
   of the resize, where an unknown width (0) asks for `size`.
   */
  function ClampWidth(native: nat, size: nat): (w: nat)
    ensures w <= size && (native != 0 ==> w <= native)
    ensures 0 < native < size ==> w == native
    ensures native == 0 || native >= size ==> w == size
    ensures native != 0 ==> ResizedWidth(native, w) == w
  {
    if native != 0 && native < size then native else size
  }

  // ------------------------------------------------------------- patterns

  /** The literal `/**/*.{` of the pattern regex starts at index `j` of `p`. */
  predicate MarkerAt(p: String, j: nat)
  {
    j + 7 <= |p| && p[j..j + 7] == "/**/*.{"
  }

  /** A marker ends with the `{` that opens the extension list. */
  lemma MarkerBrace(p: String, j: nat)
    ensures MarkerAt(p, j) ==> p[j + 6] == '{'
  {
    if MarkerAt(p, j) {
      assert p[j + 6] == p[j..j + 7][6];
    }
  }

  /**
   `^(.*)\/\*\*\/\*\.\{(.*)\}$` matches `p` with its first group ending at
   `j`: the marker is at `j`, the pattern ends with `}`, and neither group
   holds a line terminator (which `.` does not match).
   */
  predicate SplitsAt(p: String, j: nat)
  {
    j + 8 <= |p| && MarkerAt(p, j) && p[|p| - 1] == '}' && !HasLineTerminator(p)
  }

  /** The last marker at or before index `j`. */
  function LastMarker(p: String, j: int): (r: Option<nat>)
    ensures r.Some? ==> r.value <= j
    decreases j + 1
  {
    if j < 0 then None else if MarkerAt(p, j) then Some(j) else LastMarker(p, j - 1)
  }

  lemma {:induction false} LastMarkerShape(p: String, j: int)
    ensures LastMarker(p, j).Some? ==> MarkerAt(p, LastMarker(p, j).value)
    ensures forall k: nat :: k <= j && MarkerAt(p, k) ==>
              LastMarker(p, j).Some? && k <= LastMarker(p, j).value
    decreases j + 1
  {
    if j >= 0 && !MarkerAt(p, j) {
      LastMarkerShape(p, j - 1);
    }
  }

  /** A directory pattern: the root to walk and the text between the braces. */
  datatype GlobDir = GlobDir(root: String, exts: String)

  /** The match of the pattern regex: the first group is greedy, so the last marker is taken. */
  function ParsePattern(p: String): Option<GlobDir>
  {
    if |p| < 8 || p[|p| - 1] != '}' || HasLineTerminator(p) then None
    else match LastMarker(p, |p| - 8)
      case None => None
      case Some(j) => Some(GlobDir(p[..j], p[j + 7..|p| - 1]))
  }

  /**
   `ParsePattern` matches exactly when the regex can, and then splits at the
   last possible marker, giving back the parts the pattern is made of.
   */
  lemma ParsePatternGreedy(p: String)
    ensures ParsePattern(p).Some? <==> exists j: nat :: SplitsAt(p, j)
    ensures ParsePattern(p).Some? ==> SplitsAt(p, |ParsePattern(p).value.root|)
    ensures ParsePattern(p).Some? ==> p == DirPattern(ParsePattern(p).value.root, ParsePattern(p).value.exts)
    ensures ParsePattern(p).Some? ==> forall j: nat :: SplitsAt(p, j) ==> j <= |ParsePattern(p).value.root|
  {
    if |p| >= 8 {
      LastMarkerShape(p, |p| - 8);
    }
    if ParsePattern(p).Some? {
      var j := LastMarker(p, |p| - 8).value;
      assert ParsePattern(p).value.root == p[..j];
      assert MarkerAt(p, j);
      assert j + 8 <= |p|;
      assert SplitsAt(p, j);
      assert p[j..j + 7] == "/**/*.{";
      assert [p[|p| - 1]] == "}";
      assert p == p[..j] + p[j..j + 7] + p[j + 7..|p| - 1] + [p[|p| - 1]];
    }
  }

  /** The pattern `<root>/**/*.{<exts>}`. */
  function DirPattern(root: String, exts: String): String
  {
    root + "/**/*.{" + exts + "}"
  }

  /** A pattern built from a root and a brace list without `{` parses back into them. */
  lemma ParseDirPattern(root: String, exts: String)
    requires !HasLineTerminator(root) && !HasLineTerminator(exts) && '{' !in exts
    ensures ParsePattern(DirPattern(root, exts)) == Some(GlobDir(root, exts))
  {
    var p := DirPattern(root, exts);
    var n := |root|;
    DirPatternParts(root, exts);
    DirPatternNoLaterMarker(root, exts);
    ParsePatternGreedy(p);
    var g := ParsePattern(p).value;
    assert |g.root| == n;
    assert g.root == p[..n];
    assert g.exts == p[n + 7..|p| - 1];
  }

  lemma DirPatternParts(root: String, exts: String)
    requires !HasLineTerminator(root) && !HasLineTerminator(exts)
    ensures var p := DirPattern(root, exts);
            && SplitsAt(p, |root|) && p[..|root|] == root && p[|root| + 7..|p| - 1] == exts
  {
    var p := DirPattern(root, exts);
    var n := |root|;
    assert p[n..n + 7] == "/**/*.{";
    forall i | 0 <= i < |p|
      ensures !IsLineTerminator(p[i])
    {
      if i < n {
        assert p[i] == root[i];
      } else if n + 7 <= i < |p| - 1 {
        assert p[i] == exts[i - n - 7];
      }
    }
  }

  lemma DirPatternNoLaterMarker(root: String, exts: String)
    requires '{' !in exts
    ensures forall j: nat :: |root| < j ==> !MarkerAt(DirPattern(root, exts), j)
  {
    var p := DirPattern(root, exts);
    var n := |root|;
    forall i | n + 7 <= i < |p| - 1
      ensures p[i] != '{'
    {
      assert p[i] == exts[i - n - 7];
    }
    forall j: nat | n < j && MarkerAt(p, j)
      ensures j + 8 > |p|
    {
      assert p[j..j + 7][6] == p[j + 6];
    }
    forall j: nat | n < j && j + 7 <= |p| && j + 8 > |p|
      ensures !MarkerAt(p, j)
    {
      assert p[j..j + 7][6] == p[|p| - 1] == '}';
    }
  }

  /** `m[2].split(",").map(s => "." + s.trim().toLowerCase())`. */
  function ExtList(list: String): (r: seq<String>)
    ensures |r| == |Split(list, ',')|
  {
    var pieces := Split(list, ',');
    seq(|pieces|, i requires 0 <= i < |pieces| => "." + LowerAll(Trim(pieces[i])))
  }

  /** Both default patterns are directory patterns over the four default extensions. */
  lemma DefaultPatternsParse()
    ensures ParsePattern(DefaultPatterns[0]) == Some(GlobDir("public/images", DefaultList))
    ensures ParsePattern(DefaultPatterns[1]) == Some(GlobDir("src/assets/images", DefaultList))
  {
    NoLineTerminatorIn("public/images");
    NoLineTerminatorIn("src/assets/images");
    NoLineTerminatorIn(DefaultList);
    ParseDirPattern("public/images", DefaultList);
    ParseDirPattern("src/assets/images", DefaultList);
  }

  /** The default brace list names exactly the four default extensions. */
  lemma DefaultListExts()
    ensures ExtList(DefaultList) == DefaultExts
  {
    ExtListOfFour(DefaultList, "png", "jpg", "jpeg", "webp");
    DotWord("png", ".png");
    DotWord("jpg", ".jpg");
    DotWord("jpeg", ".jpeg");
    DotWord("webp", ".webp");
  }

  /** A list of four lower-case words separated by bare commas gives the four words after a dot. */
  lemma ExtListOfFour(list: String, a: String, b: String, c: String, d: String)
    requires list == a + [','] + (b + [','] + (c + [','] + d))
    requires Word(a) && Word(b) && Word(c) && Word(d)
    ensures ExtList(list) == ["." + a, "." + b, "." + c, "." + d]
  {
    WordNoComma(a);
    WordNoComma(b);
    WordNoComma(c);
    WordNoComma(d);
    SplitFour(list, a, b, c, d);
    ExtListOfWords(list, [a, b, c, d]);
    DottedFour(ExtList(list), [a, b, c, d]);
  }

  /** Four strings, each a dotted word, make up the dotted list. */
  lemma DottedFour(e: seq<String>, ws: seq<String>)
    requires |e| == 4 && |ws| == 4
    requires forall i :: 0 <= i < 4 ==> e[i] == "." + ws[i]
    ensures e == ["." + ws[0], "." + ws[1], "." + ws[2], "." + ws[3]]
  {
  }

  lemma WordNoComma(p: String)
    requires Word(p)
    ensures ',' !in p
  {
  }

  /** Splitting four comma-free pieces joined by commas gives the pieces back. */
  lemma SplitFour(list: String, a: String, b: String, c: String, d: String)
    requires list == a + [','] + (b + [','] + (c + [','] + d))
    requires ',' !in a && ',' !in b && ',' !in c && ',' !in d
    ensures Split(list, ',') == [a, b, c, d]
  {
    var cd := c + [','] + d;
    var bcd := b + [','] + cd;
    SplitNoSep(d, ',');
    SplitAt(c, d, ',');
    SplitAt(b, cd, ',');
    SplitAt(a, bcd, ',');
  }

  /** A list whose pieces are words lists each word after a dot. */
  lemma ExtListOfWords(list: String, ws: seq<String>)
    requires Split(list, ',') == ws
    requires forall i :: 0 <= i < |ws| ==> Word(ws[i])
    ensures |ExtList(list)| == |ws|
    ensures forall i :: 0 <= i < |ws| ==> ExtList(list)[i] == "." + ws[i]
  {
    forall i | 0 <= i < |ws|
      ensures ExtList(list)[i] == "." + ws[i]
    {
      PlainExt(ws[i]);
    }
  }

  lemma DotWord(w: String, e: String)
    requires |e| == |w| + 1 && e[0] == '.' && e[1..] == w
    ensures "." + w == e
  {
  }

  /** Lower-case letters only, at least one. */
  predicate Word(p: String)
  {
    p != [] && forall i :: 0 <= i < |p| ==> 'a' <= p[i] <= 'z'
  }

  /** A word becomes itself after a dot. */
  lemma PlainExt(p: String)
    requires Word(p)
    ensures "." + LowerAll(Trim(p)) == "." + p
    ensures ',' !in p
  {
    TrimPlain(p);
    LowerPlain(p);
  }

  lemma NoLineTerminatorIn(s: String)
    requires forall i :: 0 <= i < |s| ==> ' ' <= s[i] <= '~'
    ensures !HasLineTerminator(s)
  {
  }

  // -------------------------------------------------------------- listing

  datatype Kind = File | Directory | Other

  /**
   The file system as the scripts see it: the kind of every existing path,
   and for a directory the files `walk` yields under it, at any depth.
   */
  datatype Tree = Tree(kind: map<String, Kind>, walk: String -> seq<String>)

  /** `walk` only yields existing regular files. */
  ghost predicate WellFormed(tree: Tree)
  {
    forall d, f :: d in tree.kind && tree.kind[d] == Directory && f in tree.walk(d) ==>
      f in tree.kind && tree.kind[f] == File
  }

  /** The root a pattern names: the regex's first group, or the pattern itself. */
  function RootOf(pattern: String): String
  {
    match ParsePattern(pattern)
    case Some(g) => g.root
    case None => pattern
  }

  /** The extensions a pattern adds to the shared set. */
  function PatternExts(pattern: String): seq<String>
  {
    match ParsePattern(pattern)
    case Some(g) => ExtList(g.exts)
    case None => []
  }

  /** The `roots` set, in insertion order. */
  function Roots(patterns: seq<String>): seq<String>
  {
    Dedup(seq(|patterns|, i requires 0 <= i < |patterns| => RootOf(patterns[i])))
  }

  /** The `exts` set: the defaults, then every directory pattern's brace list. */
  function AcceptedExts(patterns: seq<String>): seq<String>
  {
    DefaultExts + Flatten(seq(|patterns|, i requires 0 <= i < |patterns| => PatternExts(patterns[i])))
  }

  /** `exts.has(path.extname(f).toLowerCase())`. */
  predicate Accepted(f: String, exts: seq<String>)
  {
    LowerAll(ExtName(f)) in exts
  }

  function KeepAccepted(files: seq<String>, exts: seq<String>): seq<String>
  {
    if files == [] then []
    else
      var r := KeepAccepted(files[..|files| - 1], exts);
      if Accepted(files[|files| - 1], exts) then r + [files[|files| - 1]] else r
  }

  lemma {:induction false} KeepAcceptedMembers(files: seq<String>, exts: seq<String>, f: String)
    ensures f in KeepAccepted(files, exts) <==> f in files && Accepted(f, exts)
  {
    if files != [] {
      KeepAcceptedMembers(files[..|files| - 1], exts, f);
      assert files == files[..|files| - 1] + [files[|files| - 1]];
    }
  }

  /**
   What one root contributes: a missing root nothing, a file itself, a
   directory the walked files with an accepted extension, anything else
   nothing.
   */
  function FilesUnder(tree: Tree, root: String, exts: seq<String>): seq<String>
  {
    if root !in tree.kind then []
    else match tree.kind[root]
      case File => [root]
      case Directory => KeepAccepted(tree.walk(root), exts)
      case Other => []
  }

  /** `listFilesByPatterns`: each root's files, roots in first-seen order. */
  function ListFiles(patterns: seq<String>, tree: Tree): seq<String>
  {
    var roots := Roots(patterns);
    var exts := AcceptedExts(patterns);
    Flatten(seq(|roots|, i requires 0 <= i < |roots| => FilesUnder(tree, roots[i], exts)))
  }

  /** A root's contribution, element by element. */
  lemma FilesUnderMembers(tree: Tree, root: String, exts: seq<String>, f: String)
    ensures f in FilesUnder(tree, root, exts) <==>
              && root in tree.kind
              && (|| (tree.kind[root] == File && f == root)
                  || (tree.kind[root] == Directory && f in tree.walk(root) && Accepted(f, exts)))
  {
    if root in tree.kind && tree.kind[root] == Directory {
      KeepAcceptedMembers(tree.walk(root), exts, f);
    }
  }

  /**
   A file is listed exactly when some pattern's root contributes it, under
   the extension set shared by all patterns.
   */
  lemma ListFilesMembers(patterns: seq<String>, tree: Tree, f: String)
    ensures f in ListFiles(patterns, tree) <==>
              exists i :: 0 <= i < |patterns| && f in FilesUnder(tree, RootOf(patterns[i]), AcceptedExts(patterns))
  {
    var named := seq(|patterns|, i requires 0 <= i < |patterns| => RootOf(patterns[i]));
    var roots := Roots(patterns);
    var exts := AcceptedExts(patterns);
    var parts := seq(|roots|, i requires 0 <= i < |roots| => FilesUnder(tree, roots[i], exts));
    assert ListFiles(patterns, tree) == Flatten(parts);
    if f in Flatten(parts) {
      var k :| 0 <= k < |parts| && f in parts[k];
      DedupElements(named, roots[k]);
      var i :| 0 <= i < |named| && named[i] == roots[k];
      assert f in FilesUnder(tree, RootOf(patterns[i]), exts);
    }
    if exists i :: 0 <= i < |patterns| && f in FilesUnder(tree, RootOf(patterns[i]), exts) {
      var i :| 0 <= i < |patterns| && f in FilesUnder(tree, RootOf(patterns[i]), exts);
      DedupElements(named, named[i]);
      var k :| 0 <= k < |roots| && roots[k] == named[i];
      assert f in parts[k];
    }
  }

  /**
   The shared extension set holds the four defaults and every extension a
   directory pattern lists, and nothing else.
   */
  lemma AcceptedExtsMembers(patterns: seq<String>, e: String)
    ensures e in AcceptedExts(patterns) <==>
              e in DefaultExts || exists i :: 0 <= i < |patterns| && e in PatternExts(patterns[i])
  {
    var lists := seq(|patterns|, i requires 0 <= i < |patterns| => PatternExts(patterns[i]));
    assert AcceptedExts(patterns) == DefaultExts + Flatten(lists);
    if e in Flatten(lists) {
      var i :| 0 <= i < |lists| && e in lists[i];
      assert e in PatternExts(patterns[i]);
    }
    if exists i :: 0 <= i < |patterns| && e in PatternExts(patterns[i]) {
      var i :| 0 <= i < |patterns| && e in PatternExts(patterns[i]);
      assert e in lists[i];
    }
  }

  /** In a well-formed tree every listed path is an existing file. */
  lemma ListedFileExists(patterns: seq<String>, tree: Tree, f: String)
    requires WellFormed(tree) && f in ListFiles(patterns, tree)
    ensures f in tree.kind && tree.kind[f] == File
  {
    ListFilesMembers(patterns, tree, f);
    var i :| 0 <= i < |patterns| && f in FilesUnder(tree, RootOf(patterns[i]), AcceptedExts(patterns));
    RootFileExists(tree, RootOf(patterns[i]), AcceptedExts(patterns), f);
  }

  lemma RootFileExists(tree: Tree, root: String, exts: seq<String>, f: String)
    requires WellFormed(tree) && f in FilesUnder(tree, root, exts)
    ensures f in tree.kind && tree.kind[f] == File
  {
    FilesUnderMembers(tree, root, exts, f);
  }

  // ------------------------------------------------------------ arguments

  /** `args[i]`, or nothing (`undefined`) past the end. */
  function ArgAt(args: seq<String>, i: nat): Option<String>
  {
    if i < |args| then Some(args[i]) else None
  }

  /** The index of the last occurrence of `flag` among the first `n` arguments. */
  function LastIndex(args: seq<String>, flag: String, n: nat): (r: Option<nat>)
    requires n <= |args|
    ensures r.Some? ==> r.value < n
  {
    if n == 0 then None
    else if args[n - 1] == flag then Some(n - 1)
    else LastIndex(args, flag, n - 1)
  }

  lemma {:induction false} LastIndexShape(args: seq<String>, flag: String, n: nat)
    requires n <= |args|
    ensures LastIndex(args, flag, n).None? ==> forall j :: 0 <= j < n ==> args[j] != flag
    ensures LastIndex(args, flag, n).Some? ==>
              var k := LastIndex(args, flag, n).value;
              args[k] == flag && forall j :: k < j < n ==> args[j] != flag
  {
    if n > 0 && args[n - 1] != flag {
      LastIndexShape(args, flag, n - 1);
    }
  }

  /** The word after the last occurrence of `flag`, if there is one and it has a successor. */
  function FlagValue(args: seq<String>, flag: String): Option<String>
  {
    match LastIndex(args, flag, |args|)
    case Some(k) => ArgAt(args, k + 1)
    case None => None
  }

  /**
   The argument loop of `run`: every occurrence of `--file` or `--glob`
   overwrites the value with the following word, so the last occurrence wins.
   */
  method ParseArgs(args: seq<String>) returns (singleFile: Option<String>, customGlob: Option<String>)
    ensures singleFile == FlagValue(args, "--file")
    ensures customGlob == FlagValue(args, "--glob")
  {
    singleFile, customGlob := None, None;
    var i := 0;
    while i < |args|
      invariant i <= |args|
      invariant singleFile == (match LastIndex(args, "--file", i) case Some(k) => ArgAt(args, k + 1) case None => None)
      invariant customGlob == (match LastIndex(args, "--glob", i) case Some(k) => ArgAt(args, k + 1) case None => None)
    {
      if args[i] == "--file" {
        singleFile := ArgAt(args, i + 1);
      }
      if args[i] == "--glob" {
        customGlob := ArgAt(args, i + 1);
      }
      i := i + 1;
    }
  }

  // ------------------------------------------------------------ selection

  /** What `path.join(".", "/**/*.{png,jpg,jpeg,webp}")` normalises to. */
  const DotGlob: String := "**/*.{png,jpg,jpeg,webp}"

  /**
   `path.join(dir, "/**/*.{png,jpg,jpeg,webp}")` for a normalised `dir`:
   the separators collapse, and a leading `./` disappears, so `.` and `./`
   both lose the `/**/*.{` marker.
   */
  function GlobPattern(dir: String): String
    requires dir != []
  {
    if dir == "." || dir == "./" then DotGlob
    else if dir[|dir| - 1] == '/' then DirPattern(dir[..|dir| - 1], DefaultList)
    else DirPattern(dir, DefaultList)
  }

  datatype Selection = MissingFile(path: String) | Targets(files: seq<String>)

  /** How `run` picks its inputs from `--file`, `--glob` and the defaults. */
  function SelectTargets(singleFile: Option<String>, customGlob: Option<String>, tree: Tree): Selection
  {
    if Truthy(singleFile) then
      if singleFile.value in tree.kind then Targets([singleFile.value]) else MissingFile(singleFile.value)
    else if Truthy(customGlob) && customGlob.value in tree.kind then
      if tree.kind[customGlob.value] == File then Targets([customGlob.value])
      else Targets(ListFiles([GlobPattern(customGlob.value)], tree))
    else Targets(ListFiles(DefaultPatterns, tree))
  }

  // ----------------------------------------------------------- processing

  /**
   The state of the conversion loop: the paths that exist, the two counters
   it prints, the warnings it logged and the variants it wrote.
   */
  datatype Progress = Progress(existing: set<String>, created: nat, skipped: nat, warnings: nat, writes: seq<Write>)

  function Start(existing: set<String>): Progress
  {
    Progress(existing, 0, 0, 0, [])
  }

  /**
   One `makeVariant(input, size)` and the counter update around it: an
   existing output is skipped; otherwise the input is converted, and a
   failure is caught and logged.
   */
  function SizeStep(p: Progress, input: String, size: nat, codec: Codec): Progress
  {
    var out := VariantPath(input, size);
    if out in p.existing then p.(skipped := p.skipped + 1)
    else if !codec.encodes(input, out) then p.(warnings := p.warnings + 1)
    else
      var native := codec.width(input);
      p.(existing := p.existing + {out}, created := p.created + 1,
         writes := p.writes + [Write(out, ResizedWidth(native, ClampWidth(native, size)))])
  }

  /** One target: filtered out when it already looks like a variant, else both sizes in order. */
  function FileStep(p: Progress, input: String, codec: Codec): Progress
  {
    if IsGeneratedName(input) then p
    else SizeStep(SizeStep(p, input, SmallSize, codec), input, LargeSize, codec)
  }

  function Process(p: Progress, files: seq<String>, codec: Codec): Progress
  {
    if files == [] then p
    else FileStep(Process(p, files[..|files| - 1], codec), files[|files| - 1], codec)
  }

  /** The targets the loop converts: those the name filter lets through. */
  function Candidates(files: seq<String>): (r: seq<String>)
    ensures |r| <= |files|
  {
    if files == [] then []
    else
      var r := Candidates(files[..|files| - 1]);
      if IsGeneratedName(files[|files| - 1]) then r else r + [files[|files| - 1]]
  }

  /**
   Every attempt is counted exactly once, as created, skipped or warned
   about; each candidate makes two attempts, and each creation one write.
   */
  lemma {:induction false} ProcessCounts(existing: set<String>, files: seq<String>, codec: Codec)
    ensures var r := Process(Start(existing), files, codec);
            && r.created == |r.writes|
            && r.created + r.skipped + r.warnings == 2 * |Candidates(files)|
  {
    if files != [] {
      ProcessCounts(existing, files[..|files| - 1], codec);
      FileStepCounts(Process(Start(existing), files[..|files| - 1], codec), files[|files| - 1], codec);
    }
  }

  lemma FileStepCounts(p: Progress, input: String, codec: Codec)
    requires p.created == |p.writes|
    ensures var q := FileStep(p, input, codec);
            && q.created == |q.writes|
            && q.created + q.skipped + q.warnings
               == p.created + p.skipped + p.warnings + (if IsGeneratedName(input) then 0 else 2)
  {
    if !IsGeneratedName(input) {
      SizeStepCounts(p, input, SmallSize, codec);
      SizeStepCounts(SizeStep(p, input, SmallSize, codec), input, LargeSize, codec);
    }
  }

  lemma SizeStepCounts(p: Progress, input: String, size: nat, codec: Codec)
    requires p.created == |p.writes|
    ensures var q := SizeStep(p, input, size, codec);
            && q.created == |q.writes|
            && q.created + q.skipped + q.warnings == p.created + p.skipped + p.warnings + 1
  {
  }

  /**
   What the loop keeps true of the paths: a path exists afterwards exactly
   when it existed before or was written, nothing that existed is
   overwritten, and no path is written twice.
   */
  ghost predicate Fresh(before: set<String>, p: Progress)
  {
    && (forall x :: x in p.existing <==> x in before || x in WrittenPaths(p.writes))
    && (forall i :: 0 <= i < |p.writes| ==> p.writes[i].path !in before)
    && NoDuplicates(WrittenPaths(p.writes))
  }

  lemma {:induction false} ProcessFresh(existing: set<String>, files: seq<String>, codec: Codec)
    ensures Fresh(existing, Process(Start(existing), files, codec))
  {
    if files != [] {
      ProcessFresh(existing, files[..|files| - 1], codec);
      var p := Process(Start(existing), files[..|files| - 1], codec);
      var input := files[|files| - 1];
      if !IsGeneratedName(input) {
        SizeStepFresh(existing, p, input, SmallSize, codec);
        SizeStepFresh(existing, SizeStep(p, input, SmallSize, codec), input, LargeSize, codec);
      }
    }
  }

  lemma SizeStepFresh(before: set<String>, p: Progress, input: String, size: nat, codec: Codec)
    requires Fresh(before, p)
    ensures Fresh(before, SizeStep(p, input, size, codec))
  {
    var q := SizeStep(p, input, size, codec);
    var out := VariantPath(input, size);
    if q.writes != p.writes {
      var w := q.writes[|q.writes| - 1];
      assert q.writes == p.writes + [w] && w.path == out;
      WrittenPathsSnoc(p.writes, w);
      NoDuplicatesSnoc(WrittenPaths(p.writes), out);
    }
  }

  /**
   An attempt at `input` and `size` can create nothing more: its output
   exists, or the conversion fails.
   */
  predicate Settled(existing: set<String>, input: String, size: nat, codec: Codec)
  {
    VariantPath(input, size) in existing || !codec.encodes(input, VariantPath(input, size))
  }

  predicate AllSettled(existing: set<String>, files: seq<String>, codec: Codec)
  {
    forall i :: 0 <= i < |files| && !IsGeneratedName(files[i]) ==>
      Settled(existing, files[i], SmallSize, codec) && Settled(existing, files[i], LargeSize, codec)
  }

  /** After a run, every attempt it made is settled; paths are only ever added. */
  lemma {:induction false} ProcessSettles(p: Progress, files: seq<String>, codec: Codec)
    ensures p.existing <= Process(p, files, codec).existing
    ensures AllSettled(Process(p, files, codec).existing, files, codec)
  {
    if files != [] {
      var init := files[..|files| - 1];
      var input := files[|files| - 1];
      ProcessSettles(p, init, codec);
      var q := Process(p, init, codec);
      FileStepSettles(q, input, codec);
      assert files == init + [input];
      AllSettledSnoc(q.existing, FileStep(q, input, codec).existing, init, input, codec);
    }
  }

  lemma FileStepSettles(p: Progress, input: String, codec: Codec)
    ensures var q := FileStep(p, input, codec);
            && p.existing <= q.existing
            && (!IsGeneratedName(input) ==>
                  Settled(q.existing, input, SmallSize, codec) && Settled(q.existing, input, LargeSize, codec))
  {
  }

  lemma AllSettledSnoc(before: set<String>, after: set<String>, init: seq<String>, input: String, codec: Codec)
    requires before <= after && AllSettled(before, init, codec)
    requires !IsGeneratedName(input) ==>
               Settled(after, input, SmallSize, codec) && Settled(after, input, LargeSize, codec)
    ensures AllSettled(after, init + [input], codec)
  {
    var files := init + [input];
    forall i | 0 <= i < |files| && !IsGeneratedName(files[i])
      ensures Settled(after, files[i], SmallSize, codec) && Settled(after, files[i], LargeSize, codec)
    {
      if i < |init| {
        assert files[i] == init[i];
      }
    }
  }

  /** Over settled attempts the loop only skips or warns: nothing is created or written. */
  lemma {:induction false} SettledCreatesNothing(p: Progress, files: seq<String>, codec: Codec)
    requires AllSettled(p.existing, files, codec)
    ensures var r := Process(p, files, codec);
            r.existing == p.existing && r.created == p.created && r.writes == p.writes
  {
    if files != [] {
      var init := files[..|files| - 1];
      assert AllSettled(p.existing, init, codec) by {
        forall i | 0 <= i < |init| && !IsGeneratedName(init[i])
          ensures Settled(p.existing, init[i], SmallSize, codec) && Settled(p.existing, init[i], LargeSize, codec)
        {
          assert init[i] == files[i];
        }
      }
      SettledCreatesNothing(p, init, codec);
    }
  }

  /** An output that already exists is counted as skipped; nothing is converted or written. */
  lemma ExistingOutputSkipped(p: Progress, input: String, size: nat, codec: Codec)
    requires VariantPath(input, size) in p.existing
    ensures var q := SizeStep(p, input, size, codec);
            && q.skipped == p.skipped + 1
            && q.existing == p.existing && q.created == p.created
            && q.warnings == p.warnings && q.writes == p.writes
  {
  }

  /** Running the loop a second time over the same targets creates nothing. */
  lemma Rerun(existing: set<String>, files: seq<String>, codec: Codec)
    ensures var first := Process(Start(existing), files, codec);
            var second := Process(Start(first.existing), files, codec);
            second.created == 0 && second.writes == [] && second.existing == first.existing
  {
    var first := Process(Start(existing), files, codec);
    ProcessSettles(Start(existing), files, codec);
    SettledCreatesNothing(Start(first.existing), files, codec);
  }

  /**
   When every target exists beforehand, every variant written passes the
   input filter: a file without a recognised ending would map onto itself,
   which exists, so it is skipped rather than converted.
   */
  lemma {:induction false} WritesAreGenerated(p: Progress, files: seq<String>, codec: Codec)
    requires forall i :: 0 <= i < |files| ==> files[i] in p.existing
    requires forall i :: 0 <= i < |p.writes| ==> IsGeneratedName(p.writes[i].path)
    ensures var r := Process(p, files, codec);
            forall i :: 0 <= i < |r.writes| ==> IsGeneratedName(r.writes[i].path)
  {
    if files != [] {
      var init := files[..|files| - 1];
      assert forall i :: 0 <= i < |init| ==> init[i] in p.existing by {
        assert forall i :: 0 <= i < |init| ==> init[i] == files[i];
      }
      WritesAreGenerated(p, init, codec);
      var q := Process(p, init, codec);
      ProcessSettles(p, init, codec);
      var input := files[|files| - 1];
      if !IsGeneratedName(input) {
        SizeStepGenerated(q, input, SmallSize, codec);
        SizeStepGenerated(SizeStep(q, input, SmallSize, codec), input, LargeSize, codec);
      }
    }
  }

  lemma SizeStepGenerated(p: Progress, input: String, size: nat, codec: Codec)
    requires input in p.existing
    requires forall i :: 0 <= i < |p.writes| ==> IsGeneratedName(p.writes[i].path)
    ensures var q := SizeStep(p, input, size, codec);
            && input in q.existing
            && forall i :: 0 <= i < |q.writes| ==> IsGeneratedName(q.writes[i].path)
  {
    var q := SizeStep(p, input, size, codec);
    if q.writes != p.writes {
      if HasVariantEnding(BaseName(input)) {
        VariantPathGenerated(input, size);
      } else {
        VariantPathUnchanged(input, size);
      }
    }
  }

  /**
   A created variant is never wider than its size, nor than the input when
   the input's width is known; with a known width it is the smaller of the two.
   */
  lemma VariantWidth(p: Progress, input: String, size: nat, codec: Codec)
    ensures var q := SizeStep(p, input, size, codec);
            var native := codec.width(input);
            q.writes != p.writes ==>
              && q.writes == p.writes + [q.writes[|q.writes| - 1]]
              && q.writes[|q.writes| - 1].path == VariantPath(input, size)
              && q.writes[|q.writes| - 1].width <= size
              && (native != 0 ==> q.writes[|q.writes| - 1].width == if native < size then native else size)
  {
  }

  // ------------------------------------------------------------------ run

  datatype Report = FileNotFound(path: String) | NoImages | Converted(progress: Progress)

  /** `run`: select the targets, then convert them; the existing paths are the tree's. */
  function Run(args: seq<String>, tree: Tree, codec: Codec): Report
  {
    match SelectTargets(FlagValue(args, "--file"), FlagValue(args, "--glob"), tree)
    case MissingFile(path) => FileNotFound(path)
    case Targets(files) =>
      if files == [] then NoImages else Converted(Process(Start(tree.kind.Keys), files, codec))
  }

  /** Only a missing `--file` target exits with 1; every other run ends normally. */
  function ExitCode(r: Report): (code: nat)
    ensures code == 1 <==> r.FileNotFound?
    ensures code == 0 <==> !r.FileNotFound?
  {
    if r.FileNotFound? then 1 else 0
  }

  /**
   `--file` takes priority: when it is given a non-empty value the run looks
   at that path alone, whatever `--glob` says, and fails exactly when the
   path does not exist.
   */
  lemma FileFlagWins(args: seq<String>, tree: Tree, codec: Codec)
    requires Truthy(FlagValue(args, "--file"))
    ensures var f := FlagValue(args, "--file").value;
            Run(args, tree, codec) == if f in tree.kind then Converted(Process(Start(tree.kind.Keys), [f], codec))
                                      else FileNotFound(f)
    ensures ExitCode(Run(args, tree, codec)) == 1 <==> FlagValue(args, "--file").value !in tree.kind
  {
  }

  /** Without a usable `--file`, a `--glob` path that does not exist falls back to the defaults. */
  lemma MissingGlobFallsBack(file: Option<String>, glob: Option<String>, tree: Tree)
    requires !Truthy(file) && glob.Some? && glob.value !in tree.kind
    ensures SelectTargets(file, glob, tree) == SelectTargets(None, None, tree)
    ensures SelectTargets(file, glob, tree) == Targets(ListFiles(DefaultPatterns, tree))
  {
  }

  /** A single pattern lists what its root contributes, under the defaults and its own extensions. */
  lemma ListSingle(p: String, tree: Tree)
    ensures ListFiles([p], tree) == FilesUnder(tree, RootOf(p), DefaultExts + PatternExts(p))
  {
    var named := seq(1, i requires 0 <= i < 1 => RootOf([p][i]));
    assert named == [RootOf(p)];
    assert named[..0] == [];
    var extParts := seq(1, i requires 0 <= i < 1 => PatternExts([p][i]));
    assert extParts == [PatternExts(p)];
    assert extParts[..0] == [];
    var exts := AcceptedExts([p]);
    assert Roots([p]) == [RootOf(p)];
    assert Flatten(extParts) == PatternExts(p);
    var parts := seq(1, i requires 0 <= i < 1 => FilesUnder(tree, Roots([p])[i], exts));
    assert parts == [FilesUnder(tree, RootOf(p), exts)];
    assert parts[..0] == [];
    assert Flatten(parts) == parts[0];
  }

  /**
   `--glob <dir>` for a directory lists the files walked under `dir` whose
   extension is one of the defaults.
   */
  lemma GlobDirectory(dir: String, tree: Tree, f: String)
    requires dir != [] && dir != "." && dir[|dir| - 1] != '/' && !HasLineTerminator(dir)
    ensures ListFiles([GlobPattern(dir)], tree) == FilesUnder(tree, dir, DefaultExts + DefaultExts)
    ensures f in ListFiles([GlobPattern(dir)], tree) <==> f in FilesUnder(tree, dir, DefaultExts)
  {
    NoLineTerminatorIn(DefaultList);
    ParseDirPattern(dir, DefaultList);
    ListSingle(GlobPattern(dir), tree);
    DefaultListExts();
    FilesUnderMembers(tree, dir, DefaultExts + DefaultExts, f);
    FilesUnderMembers(tree, dir, DefaultExts, f);
  }

  /** The marker of a directory pattern does not occur in `DotGlob`, so it is a literal root. */
  lemma DotGlobIsLiteral()
    ensures ParsePattern(DotGlob) == None
    ensures RootOf(DotGlob) == DotGlob && PatternExts(DotGlob) == []
  {
    // The only `{` of `DotGlob` is at index 5, too early to end a marker.
    forall j: nat | j + 8 <= |DotGlob|
      ensures !MarkerAt(DotGlob, j)
    {
      MarkerBrace(DotGlob, j);
      assert DotGlob[j + 6] != '{';
    }
    ParsePatternGreedy(DotGlob);
  }

  /**
   `--glob .` finds nothing: `path.join` drops the leading `./`, the result
   no longer holds the `/**/*.{` marker, so it is taken as a literal root
   that does not exist, and the run prints "No images found." even when
   the current directory holds images.
   */
  lemma GlobDotFindsNothing(args: seq<String>, tree: Tree, codec: Codec)
    requires !Truthy(FlagValue(args, "--file")) && FlagValue(args, "--glob") == Some(".")
    requires "." in tree.kind && tree.kind["."] == Directory && DotGlob !in tree.kind
    ensures Run(args, tree, codec) == NoImages
  {
    DotGlobIsLiteral();
    ListSingle(GlobPattern("."), tree);
  }

  /** In a well-formed tree every selected target exists. */
  lemma TargetsExist(file: Option<String>, glob: Option<String>, tree: Tree)
    requires WellFormed(tree)
    ensures SelectTargets(file, glob, tree).Targets? ==>
              forall i :: 0 <= i < |SelectTargets(file, glob, tree).files| ==>
                SelectTargets(file, glob, tree).files[i] in tree.kind
  {
    var s := SelectTargets(file, glob, tree);
    if s.Targets? {
      forall i | 0 <= i < |s.files|
        ensures s.files[i] in tree.kind
      {
        var f := s.files[i];
        if !Truthy(file) && Truthy(glob) && glob.value in tree.kind && tree.kind[glob.value] != File {
          ListedFileExists([GlobPattern(glob.value)], tree, f);
        } else if !Truthy(file) && !(Truthy(glob) && glob.value in tree.kind) {
          ListedFileExists(DefaultPatterns, tree, f);
        }
      }
    }
  }

  /**
   A converting run counts every attempt once, writes only paths that did
   not exist, writes no path twice, and (in a well-formed tree) writes only
   names the input filter will skip next time.
   */
  lemma RunConverts(args: seq<String>, tree: Tree, codec: Codec)
    requires Run(args, tree, codec).Converted?
    ensures var r := Run(args, tree, codec).progress;
            && r.created == |r.writes|
            && (forall i :: 0 <= i < |r.writes| ==> r.writes[i].path !in tree.kind)
            && NoDuplicates(WrittenPaths(r.writes))
            && (WellFormed(tree) ==> forall i :: 0 <= i < |r.writes| ==> IsGeneratedName(r.writes[i].path))
  {
    var file, glob := FlagValue(args, "--file"), FlagValue(args, "--glob");
    var files := SelectTargets(file, glob, tree).files;
    ProcessCounts(tree.kind.Keys, files, codec);
    ProcessFresh(tree.kind.Keys, files, codec);
    if WellFormed(tree) {
      TargetsExist(file, glob, tree);
      WritesAreGenerated(Start(tree.kind.Keys), files, codec);
    }
  }
}

=== FILE: image_endings.dfy ===
/**
 The PNG/JPEG ending that scripts/optimize-images.mjs and
 scripts/convert-images.mjs rewrite: `\.(png|jpe?g)$` with `/i` (the
 first script writes it `\.(png|jpg|jpeg)$`, the same language).
 */
module ImageEndings {
  import opened Strings

  /** Length of the ending `\.(png|jpg|jpeg)$` matches (with `/i`) at the end of `b`, or 0. */
  function SourceEnding(b: String): (k: nat)
    ensures k <= |b|
  {
    if EndsWithIgnoreCase(b, ".png") || EndsWithIgnoreCase(b, ".jpg") then 4
    else if EndsWithIgnoreCase(b, ".jpeg") then 5
    else 0
  }

  /** A name carries at most one of the three endings, so the order of the tests does not matter. */
  lemma SourceEndingsExclusive(b: String)
    ensures !(EndsWithIgnoreCase(b, ".png") && EndsWithIgnoreCase(b, ".jpg"))
    ensures EndsWithIgnoreCase(b, ".jpeg") ==> !EndsWithIgnoreCase(b, ".png") && !EndsWithIgnoreCase(b, ".jpg")
  {
    if EndsWithIgnoreCase(b, ".png") {
      assert Lower(b[|b| - 3]) == 'p';
    }
    if EndsWithIgnoreCase(b, ".jpeg") {
      assert Lower(b[|b| - 4]) == 'j';
    }
  }
}

=== FILE: naming_pipeline.dfy ===
/**
 How the scripts' file names interact. scripts/optimize-images.mjs writes
 `<stem>-900w.webp`; the input filter of scripts/generate-variants.mjs
 (`-\d+\.webp$`) does not recognise that name, so the next run makes
 `<stem>-900w-768.webp` and `<stem>-900w-1200.webp` from it; and those are
 legacy-variant names, which scripts/gen-images.mjs refuses as sources and
 scripts/clean-old-variants.mjs deletes.
 */
module NamingPipeline {
  import opened Strings
  import opened Paths
  import opened ImageEndings
  import opened VariantNames
  import OI = OptimizeImages
  import GV = GenerateVariants
  import GI = GenImages
  import CO = CleanOldVariants

  /** The output path of optimize-images without its `-900w.webp`. */
  function OptimizedStem(file: String): String
  {
    var b := BaseName(file);
    DirPrefix(file) + b[..|b| - SourceEnding(b)]
  }

  /** optimize-images turns a PNG or JPEG into `<stem>-900w.webp` beside it. */
  lemma OptimizedName(file: String)
    requires SourceEnding(BaseName(file)) != 0
    ensures OI.OutputPath(file) == OptimizedStem(file) + "-900w" + ".webp"
  {
    OI.OutputIsLegacy(file);
  }

  /** The generate-variants input filter lets the optimize output through. */
  lemma OptimizedPassesFilter(file: String)
    requires SourceEnding(BaseName(file)) != 0
    ensures !GV.IsGeneratedName(OI.OutputPath(file))
  {
    OptimizedName(file);
    var x := OptimizedStem(file);
    var fp := OI.OutputPath(file);
    assert fp[..|fp| - 5] == x + "-900w";
    assert TrailingDigitCount(x + "-900w") == 0;
  }

  /** The variant generate-variants makes from `<stem>-900w.webp`. */
  lemma OptimizedVariantName(file: String, size: nat)
    requires SourceEnding(BaseName(file)) != 0
    ensures GV.VariantPath(OI.OutputPath(file), size) == OptimizedStem(file) + "-900w" + GV.VariantTail(size)
  {
    var b := BaseName(file);
    var stem := b[..|b| - SourceEnding(b)];
    OI.OutputParts(file);
    VariantOfOutput(OI.OutputPath(file), DirPrefix(file), stem, size);
  }

  lemma VariantOfOutput(out: String, dir: String, stem: String, size: nat)
    requires DirPrefix(out) == dir && BaseName(out) == stem + OI.WidthSuffix
    ensures GV.VariantPath(out, size) == (dir + stem) + "-900w" + GV.VariantTail(size)
  {
    var n := stem + "-900w";
    MarkedBase(stem);
    VariantOfWebp(n, size);
  }

  lemma MarkedBase(stem: String)
    ensures stem + OI.WidthSuffix == (stem + "-900w") + ".webp"
  {
  }

  /** A `.webp` base name has its ending replaced. */
  lemma VariantOfWebp(n: String, size: nat)
    ensures GV.VariantBase(n + ".webp", size) == n + GV.VariantTail(size)
  {
    WebpEnding(n);
    assert (n + ".webp")[..|n|] == n;
  }

  lemma WebpEnding(x: String)
    ensures GV.VariantEnding(x + ".webp") == 5
  {
    EndsWithOwnSuffix(x, [], ".webp");
    assert x + ([] + ".webp") == x + ".webp";
    GV.EndingsExclusive(x + ".webp");
  }

  /** That variant is a legacy-variant name, whatever its size. */
  lemma OptimizedVariantIsLegacy(file: String, size: nat)
    requires SourceEnding(BaseName(file)) != 0
    ensures IsWeirdVariant(GV.VariantPath(OI.OutputPath(file), size))
  {
    OptimizedVariantName(file, size);
    MarkedVariantIsLegacy(OptimizedStem(file), size);
  }

  lemma MarkedVariantIsLegacy(x: String, size: nat)
    ensures IsWeirdVariant(x + "-900w" + GV.VariantTail(size))
  {
    var m := x + "-900w";
    WidthMarker(x);
    PlainVariantWeird(m, Decimal(size));
    TailSplit(m, size);
  }

  lemma WidthMarker(x: String)
    ensures EndsWithWidthMarker(x + "-900w")
  {
    var m := x + "-900w";
    DashNumeral(x, "900");
    assert m[..|m| - 1] == x + "-" + "900";
  }

  lemma TailSplit(m: String, size: nat)
    ensures m + GV.VariantTail(size) == m + "-" + Decimal(size) + ".webp"
  {
  }

  lemma SmallTail()
    ensures GV.VariantTail(GV.SmallSize) == "-768.webp"
  {
    assert Decimal(768) == "768";
  }

  /**
   The small variant made from an optimize output is both a target name and
   a legacy name for gen-images, so gen-images never treats it as a source.
   */
  lemma SmallVariantOverlaps(file: String)
    requires SourceEnding(BaseName(file)) != 0
    ensures var v := GV.VariantPath(OI.OutputPath(file), GV.SmallSize);
            GI.IsTargetVariant(v) && IsWeirdVariant(v) && !GI.IsSource(v)
  {
    OptimizedVariantName(file, GV.SmallSize);
    SmallMarkedOverlaps(OptimizedStem(file));
  }

  lemma SmallMarkedOverlaps(x: String)
    ensures var v := x + "-900w" + GV.VariantTail(GV.SmallSize);
            GI.IsTargetVariant(v) && IsWeirdVariant(v) && !GI.IsSource(v)
  {
    SmallTail();
    GI.OverlappingVariant(x);
    assert x + "-900w" + "-768.webp" == x + "-900w-768.webp";
  }

  /**
   A cleanup that walks the variants made from optimize outputs deletes
   them, unless the deletion itself fails.
   */
  lemma CleanupDeletesThem(file: String, size: nat, files: seq<String>, unlinks: String -> bool)
    requires SourceEnding(BaseName(file)) != 0
    requires GV.VariantPath(OI.OutputPath(file), size) in files
    ensures var v := GV.VariantPath(OI.OutputPath(file), size);
            v in CO.WeirdFiles(files) && (unlinks(v) ==> v !in CO.Remaining(files, unlinks))
  {
    var v := GV.VariantPath(OI.OutputPath(file), size);
    OptimizedVariantIsLegacy(file, size);
    CO.WeirdFilesMembers(files, v);
    CO.RemainingMembers(files, unlinks, v);
  }

  /**
   The optimize output itself is a legacy name, so the cleanup deletes it
   too, and gen-images never takes it as a source.
   */
  lemma OptimizedIsCleaned(file: String, files: seq<String>, unlinks: String -> bool)
    requires SourceEnding(BaseName(file)) != 0
    requires OI.OutputPath(file) in files
    ensures !GI.IsSource(OI.OutputPath(file))
    ensures OI.OutputPath(file) in CO.WeirdFiles(files)
  {
    OI.OutputIsLegacy(file);
    CO.WeirdFilesMembers(files, OI.OutputPath(file));
  }

  /** The cleanup never deletes a file gen-images would take as a source. */
  lemma CleanupSparesSources(files: seq<String>, unlinks: String -> bool, f: String)
    requires f in CO.Deleted(files, unlinks)
    ensures !GI.IsSource(f)
  {
    CO.RemainingMembers(files, unlinks, f);
  }

  /** A name ending `-900w-768.webp` is deleted although gen-images also counts it as a target. */
  lemma OverlapDeleted(stem: String, files: seq<String>, unlinks: String -> bool)
    requires stem + "-900w-768.webp" in files && unlinks(stem + "-900w-768.webp")
    ensures GI.IsTargetVariant(stem + "-900w-768.webp")
    ensures stem + "-900w-768.webp" in CO.Deleted(files, unlinks)
  {
    GI.OverlappingVariant(stem);
    CO.RemainingMembers(files, unlinks, stem + "-900w-768.webp");
  }
}

=== FILE: optimize_images.dfy ===
/**
 scripts/optimize-images.mjs: for every file the command-line patterns
 match, write a WebP at most 900 pixels wide beside it, named
 `<stem>-900w.webp`.

 The glob library is a function from a pattern to the files it matches.
 Every per-file failure is caught and logged, and the loop goes on; there
 is no existence check, so an earlier output is overwritten.
 */
module OptimizeImages {
  import opened Wrappers
  import opened Strings
  import opened Seqs
  import opened Paths
  import opened Transcoding
  import opened VariantNames
  import opened ImageEndings

  const MaxWidth: nat := 900

  /** What replaces the matched ending. */
  const WidthSuffix: String := "-900w.webp"

  /** `path.basename(file).replace(/\.(png|jpg|jpeg)$/i, "-900w.webp")`. */
  function OutputBase(b: String): String
  {
    var k := SourceEnding(b);
    if k == 0 then b else b[..|b| - k] + WidthSuffix
  }

  /** `path.join(path.dirname(file), ...)`: the output beside the input. */
  function OutputPath(file: String): String
  {
    Sibling(file, OutputBase(BaseName(file)))
  }

  /** What one iteration does: write the output, or log a skip. */
  datatype Item = Wrote(write: Write) | Skip(file: String)

  /**
   One file: the image library refuses to write over its own input, so a
   file without a PNG or JPEG ending, whose output path is itself, is
   skipped with a warning, like any other failed conversion.
   */
  function Optimize(file: String, codec: Codec): Item
  {
    var out := OutputPath(file);
    if out == file || !codec.encodes(file, out) then Skip(file)
    else Wrote(Write(out, ResizedWidth(codec.width(file), MaxWidth)))
  }

  function OptimizeAll(files: seq<String>, codec: Codec): (r: seq<Item>)
    ensures |r| == |files|
    ensures forall i :: 0 <= i < |files| ==> r[i] == Optimize(files[i], codec)
  {
    seq(|files|, i requires 0 <= i < |files| => Optimize(files[i], codec))
  }

  datatype Outcome = Usage | NoMatches | Done(items: seq<Item>)

  /** The script: no pattern is a usage error; no match ends the run early. */
  function Run(patterns: seq<String>, matches: String -> seq<String>, codec: Codec): Outcome
  {
    if patterns == [] then Usage
    else
      var files := Flatten(seq(|patterns|, i requires 0 <= i < |patterns| => matches(patterns[i])));
      if files == [] then NoMatches else Done(OptimizeAll(files, codec))
  }

  /** `process.exit(1)` only for the usage error. */
  function ExitCode(o: Outcome): (code: nat)
    ensures code == 1 <==> o.Usage?
    ensures code == 0 <==> !o.Usage?
  {
    if o.Usage? then 1 else 0
  }

  /**
   No pattern is the usage error; patterns that all match nothing end the
   run early; otherwise there is at least one item.
   */
  lemma RunOutcome(patterns: seq<String>, matches: String -> seq<String>, codec: Codec)
    ensures Run(patterns, matches, codec).Usage? <==> patterns == []
    ensures Run(patterns, matches, codec).NoMatches? <==>
              patterns != [] && forall i :: 0 <= i < |patterns| ==> matches(patterns[i]) == []
    ensures Run(patterns, matches, codec).Done? ==> |Run(patterns, matches, codec).items| > 0
  {
    if patterns != [] {
      var lists := seq(|patterns|, i requires 0 <= i < |patterns| => matches(patterns[i]));
      FlattenEmpty(lists);
      assert forall i :: 0 <= i < |patterns| ==> lists[i] == matches(patterns[i]);
    }
  }

  /** Every file any pattern matched is processed by a run that gets that far. */
  lemma RunCovers(patterns: seq<String>, matches: String -> seq<String>, codec: Codec, i: nat, f: String)
    requires Run(patterns, matches, codec).Done?
    requires i < |patterns| && f in matches(patterns[i])
    ensures Optimize(f, codec) in Run(patterns, matches, codec).items
  {
    var lists := seq(|patterns|, i requires 0 <= i < |patterns| => matches(patterns[i]));
    assert lists[i] == matches(patterns[i]);
    FlattenHas(lists, i, f);
    OptimizeAllHas(Flatten(lists), codec, f);
  }

  lemma OptimizeAllHas(files: seq<String>, codec: Codec, f: String)
    requires f in files
    ensures Optimize(f, codec) in OptimizeAll(files, codec)
  {
    var k :| 0 <= k < |files| && files[k] == f;
    assert OptimizeAll(files, codec)[k] == Optimize(f, codec);
  }

  /** The output lands in the input's own directory, under the rewritten base name. */
  lemma OutputParts(file: String)
    ensures DirPrefix(OutputPath(file)) == DirPrefix(file)
    ensures BaseName(OutputPath(file)) == OutputBase(BaseName(file))
  {
    PathShape(file);
    OutputBaseNoSlash(BaseName(file));
    SiblingParts(file, OutputBase(BaseName(file)));
  }

  /** A PNG or JPEG input gets `<stem>-900w.webp`, which is a legacy variant name. */
  lemma OutputIsLegacy(file: String)
    requires SourceEnding(BaseName(file)) != 0
    ensures var b := BaseName(file);
            OutputPath(file) == (DirPrefix(file) + b[..|b| - SourceEnding(b)]) + WidthSuffix
    ensures IsWeirdVariant(OutputPath(file))
  {
    var b := BaseName(file);
    var x := DirPrefix(file) + b[..|b| - SourceEnding(b)];
    assert OutputPath(file) == x + WidthSuffix;
    WidthSuffixIsLegacy(x);
  }

  lemma WidthSuffixIsLegacy(x: String)
    ensures IsWeirdVariant(x + WidthSuffix)
  {
    WeirdNameIsWeird(x, "900", 'w', None, ".webp");
    assert WeirdName(x, "900", 'w', None, ".webp") == x + WidthSuffix;
  }

  /** Any other input maps onto itself. */
  lemma OutputUnchanged(file: String)
    requires SourceEnding(BaseName(file)) == 0
    ensures OutputPath(file) == file
  {
    PathShape(file);
  }

  lemma OutputBaseNoSlash(b: String)
    requires '/' !in b
    ensures '/' !in OutputBase(b)
  {
    var k := SourceEnding(b);
    if k != 0 {
      var stem := b[..|b| - k];
      assert forall i :: 0 <= i < |stem| ==> stem[i] == b[i];
      assert '/' !in stem;
    }
  }

  /**
   Every listed file gives one line: a write or a warning. A write is never
   the input itself, lands on that input's output path, and is at most 900
   pixels wide and never wider than the input.
   */
  lemma OptimizeItems(files: seq<String>, codec: Codec)
    ensures var items := OptimizeAll(files, codec);
            forall i :: 0 <= i < |files| && items[i].Wrote? ==>
              && items[i].write.path == OutputPath(files[i])
              && items[i].write.path != files[i]
              && SourceEnding(BaseName(files[i])) != 0
              && items[i].write.width == ResizedWidth(codec.width(files[i]), MaxWidth)
              && items[i].write.width <= MaxWidth
              && items[i].write.width <= codec.width(files[i])
  {
    forall i | 0 <= i < |files| && OptimizeAll(files, codec)[i].Wrote?
      ensures SourceEnding(BaseName(files[i])) != 0
    {
      if SourceEnding(BaseName(files[i])) == 0 {
        OutputUnchanged(files[i]);
      }
    }
  }

  /** The run writes only legacy-variant names. */
  lemma OutputsAreLegacy(patterns: seq<String>, matches: String -> seq<String>, codec: Codec)
    requires Run(patterns, matches, codec).Done?
    ensures var items := Run(patterns, matches, codec).items;
            forall i :: 0 <= i < |items| && items[i].Wrote? ==> IsWeirdVariant(items[i].write.path)
  {
    var files := Flatten(seq(|patterns|, i requires 0 <= i < |patterns| => matches(patterns[i])));
    OptimizeItems(files, codec);
    forall i | 0 <= i < |files| && OptimizeAll(files, codec)[i].Wrote?
      ensures IsWeirdVariant(OptimizeAll(files, codec)[i].write.path)
    {
      OutputIsLegacy(files[i]);
    }
  }
}

=== FILE: paths.dfy ===
/**
 POSIX path helpers in the shape Node's `path` module gives them for a
 normalised path (no trailing separator, no `.`/`..` segments, no doubled
 separators). A path's directory is kept as a prefix that includes its
 trailing `/`, so that `path.join(path.dirname(p), name)` is
 `DirPrefix(p) + name`.

 Each helper is a slice of its argument at a computed index; the
 `...Shape` lemmas state what the index means.
 */
module Paths {
  import opened Wrappers
  import opened Strings

  /** The index just after the last `/` of `p` (0 when there is none). */
  function SegmentStart(p: String): (k: nat)
    ensures k <= |p|
  {
    if p == [] || p[|p| - 1] == '/' then |p| else SegmentStart(p[..|p| - 1])
  }

  lemma {:induction false} SegmentStartShape(p: String)
    ensures forall i :: SegmentStart(p) <= i < |p| ==> p[i] != '/'
    ensures SegmentStart(p) > 0 ==> p[SegmentStart(p) - 1] == '/'
  {
    if p != [] && p[|p| - 1] != '/' {
      SegmentStartShape(p[..|p| - 1]);
    }
  }

  /** `path.basename(p)`: the last path segment. */
  function BaseName(p: String): String
  {
    p[SegmentStart(p)..]
  }

  /** Everything before the base name, the separator included (`""` when there is none). */
  function DirPrefix(p: String): String
  {
    p[..SegmentStart(p)]
  }

  /** The base name has no separator, and the directory prefix before it ends with one. */
  lemma PathShape(p: String)
    ensures DirPrefix(p) + BaseName(p) == p
    ensures '/' !in BaseName(p)
    ensures DirPrefix(p) == [] || DirPrefix(p)[|DirPrefix(p)| - 1] == '/'
  {
    SegmentStartShape(p);
    var k := SegmentStart(p);
    assert forall i :: 0 <= i < |p| - k ==> p[k..][i] == p[k + i];
  }

  /** `path.join(path.dirname(p), name)`: a file named `name` beside `p`. */
  function Sibling(p: String, name: String): String
  {
    DirPrefix(p) + name
  }

  lemma {:induction false} SegmentStartAfterPrefix(d: String, name: String)
    requires d == [] || d[|d| - 1] == '/'
    requires '/' !in name
    ensures SegmentStart(d + name) == |d|
    decreases |name|
  {
    if name == [] {
      assert d + name == d;
    } else {
      var n' := name[..|name| - 1];
      assert (d + name)[..|d + name| - 1] == d + n';
      SegmentStartAfterPrefix(d, n');
    }
  }

  /** A sibling lives in the same directory and has exactly the given name. */
  lemma SiblingParts(p: String, name: String)
    requires '/' !in name
    ensures BaseName(Sibling(p, name)) == name
    ensures DirPrefix(Sibling(p, name)) == DirPrefix(p)
  {
    PathShape(p);
    SegmentStartAfterPrefix(DirPrefix(p), name);
  }

  /** Index of the last `.` in `s`. */
  function LastDot(s: String): (k: Option<nat>)
    ensures k.Some? ==> k.value < |s|
  {
    if s == [] then None
    else if s[|s| - 1] == '.' then Some(|s| - 1)
    else LastDot(s[..|s| - 1])
  }

  lemma {:induction false} LastDotShape(s: String)
    ensures LastDot(s).Some? ==> s[LastDot(s).value] == '.'
    ensures LastDot(s).Some? ==> forall i :: LastDot(s).value < i < |s| ==> s[i] != '.'
    ensures LastDot(s).None? ==> forall i :: 0 <= i < |s| ==> s[i] != '.'
  {
    if s != [] && s[|s| - 1] != '.' {
      LastDotShape(s[..|s| - 1]);
    }
  }

  /**
   Where the extension of a base name `b` starts: at its last `.`, or at
   the end when `b` has no `.`, when its only `.` is its first character,
   or when it is `..`.
   */
  function ExtStart(b: String): (k: nat)
    ensures k <= |b|
  {
    if b == ".." then |b|
    else
      match LastDot(b)
      case None => |b|
      case Some(k) => if k == 0 then |b| else k
  }

  /** The extension of a base name. */
  function Extension(b: String): String
  {
    b[ExtStart(b)..]
  }

  /**
   A non-empty extension starts with the last `.`, which is not the first
   character, and contains no other; it is empty only for `..` and for
   base names with no `.` after their first character.
   */
  lemma ExtensionShape(b: String)
    ensures ExtStart(b) < |b| ==> 0 < ExtStart(b) && b[ExtStart(b)] == '.'
    ensures forall i :: ExtStart(b) < i < |b| ==> b[i] != '.'
    ensures ExtStart(b) == |b| ==> b == ".." || forall i :: 0 < i < |b| ==> b[i] != '.'
  {
    LastDotShape(b);
  }

  /** `path.extname(p)`. */
  function ExtName(p: String): String
  {
    Extension(BaseName(p))
  }

  /** `path.basename(p, path.extname(p))`: the base name without its extension. */
  function StemName(p: String): String
  {
    BaseName(p)[..ExtStart(BaseName(p))]
  }

  lemma StemNameShape(p: String)
    ensures StemName(p) + ExtName(p) == BaseName(p)
    ensures '/' !in StemName(p)
  {
    var b := BaseName(p);
    var k := ExtStart(b);
    assert b[..k] + b[k..] == b;
    PathShape(p);
    assert forall i :: 0 <= i < k ==> b[..k][i] == b[i];
  }

  /**
   When the base name ends with `.x` (`x` non-empty, without `.`) and something
   precedes that dot, the extension is exactly `.x`.
   */
  lemma ExtNameOfEnding(p: String, n: nat)
    requires 1 < n < |BaseName(p)|
    requires p[|p| - n] == '.'
    requires forall i :: |p| - n < i < |p| ==> p[i] != '.'
    ensures ExtName(p) == p[|p| - n..]
  {
    var b := BaseName(p);
    assert forall i :: 0 <= i < |b| ==> b[i] == p[SegmentStart(p) + i];
    ExtensionOfEnding(b, n);
  }

  lemma ExtensionOfEnding(b: String, n: nat)
    requires 1 < n < |b|
    requires b[|b| - n] == '.'
    requires forall i :: |b| - n < i < |b| ==> b[i] != '.'
    ensures ExtStart(b) == |b| - n
  {
    LastDotShape(b);
    assert LastDot(b) == Some(|b| - n);
  }

  /** A base name made of a non-empty stem and `.x` (`x` without `.`) has extension `.x`. */
  lemma ExtNameOfBase(p: String, stem: String, ext: String)
    requires BaseName(p) == stem + ext && stem != []
    requires 1 < |ext| && ext[0] == '.' && forall i :: 0 < i < |ext| ==> ext[i] != '.'
    ensures ExtName(p) == ext
  {
    var b := BaseName(p);
    assert forall i :: 0 <= i < |ext| ==> b[|stem| + i] == ext[i];
    ExtensionOfEnding(b, |ext|);
    assert b[|stem|..] == ext;
  }
}

=== FILE: project_seo.dfy ===
/**
 src/lib/projectSEO.ts: the page metadata of one portfolio project — its
 canonical URL, absolute hero image, breadcrumb trail and `CreativeWork`
 structured-data record.

 The date conversion `new Date(date).toISOString()` is a parameter: it
 gives the ISO text, or nothing for a date `Date` cannot read, in which
 case `toISOString` throws and no metadata is built.
 */
module ProjectSeo {
  import opened Wrappers
  import opened Strings
  import opened Seqs

  const DefaultOrigin: String := "https://mattblethen.com"

  /** The keywords every project carries, after the caller's own. */
  const FixedKeywords: seq<String> := ["Shopify 2.0", "Liquid", "Metafields", "Performance", "Klaviyo"]

  /** The builder's argument; `None` is an omitted optional field. */
  datatype ProjectInput = ProjectInput(
    title: String, summary: String, hero: String, client: Option<String>, date: Option<String>,
    slug: String, origin: Option<String>, keywords: Option<seq<String>>)

  datatype Crumb = Crumb(name: String, url: String)

  datatype Person = Person(kind: String, name: String, url: String)

  /** The `CreativeWork` record; `producer` is the organisation's name, when there is one. */
  datatype Schema = Schema(
    context: String, kind: String, name: String, headline: String, description: String,
    image: String, url: String, datePublished: Option<String>, creator: Person,
    producer: Option<String>, keywords: seq<String>)

  datatype Seo = Seo(breadcrumbs: seq<Crumb>, schema: Schema, imageAbs: String, url: String)

  function CanonicalPath(slug: String): String
  {
    "/projects/" + slug + "/"
  }

  /** `hero?.startsWith("http") ? hero : origin + hero`. */
  function ImageAbs(origin: String, hero: String): String
  {
    if StartsWith(hero, "http") then hero else origin + hero
  }

  /** `.slice(0, 10)`. */
  function Take(s: String, n: nat): (r: String)
    ensures |r| <= |s| && r == s[..|r|]
    ensures |r| == if |s| <= n then |s| else n
  {
    if |s| <= n then s else s[..n]
  }

  /** `Array.from(new Set([...keywords, ...fixed]))`. */
  function Keywords(given: seq<String>): seq<String>
  {
    Dedup(given + FixedKeywords)
  }

  /**
   `buildProjectSEO`. `None` is the `RangeError` `toISOString` throws for a
   date that cannot be read.
   */
  function BuildProjectSeo(input: ProjectInput, isoDate: String -> Option<String>): Option<Seo>
  {
    var origin := input.origin.GetOr(DefaultOrigin);
    var canonical := CanonicalPath(input.slug);
    var url := origin + canonical;
    var image := ImageAbs(origin, input.hero);
    var crumbs := [Crumb("Home", "/"), Crumb("Projects", "/projects/"), Crumb(input.title, canonical)];
    var published: Option<Option<String>> :=
      if !Truthy(input.date) then Some(None)
      else if isoDate(input.date.value).None? then None
      else Some(Some(Take(isoDate(input.date.value).value, 10)));
    if published.None? then None
    else
      var producer := if Truthy(input.client) then Some(input.client.value) else None;
      Some(Seo(crumbs,
               Schema("https://schema.org", "CreativeWork", input.title, input.title, input.summary,
                      image, url, published.value, Person("Person", "Matt Blethen", origin),
                      producer, Keywords(input.keywords.GetOr([]))),
               image, url))
  }

  // --------------------------------------------------------------- lemmas

  /** The metadata is built unless a date is given that `Date` cannot read. */
  lemma BuildFails(input: ProjectInput, isoDate: String -> Option<String>)
    ensures BuildProjectSeo(input, isoDate).None? <==> Truthy(input.date) && isoDate(input.date.value).None?
  {
  }

  /**
   The page URL is the origin followed by the canonical path, which is the
   last breadcrumb's link; the schema repeats the URL and the image.
   */
  lemma UrlAndCrumbs(input: ProjectInput, isoDate: String -> Option<String>)
    requires BuildProjectSeo(input, isoDate).Some?
    ensures var seo := BuildProjectSeo(input, isoDate).value;
            var origin := input.origin.GetOr(DefaultOrigin);
            && |seo.breadcrumbs| == 3
            && seo.breadcrumbs[0] == Crumb("Home", "/")
            && seo.breadcrumbs[1] == Crumb("Projects", "/projects/")
            && seo.breadcrumbs[2].name == input.title
            && seo.url == origin + seo.breadcrumbs[2].url
            && StartsWith(seo.breadcrumbs[2].url, seo.breadcrumbs[1].url)
            && seo.schema.url == seo.url && seo.schema.image == seo.imageAbs
  {
    var c := CanonicalPath(input.slug);
    assert c[..10] == "/projects/";
  }

  /** Without an origin the site's own origin is used. */
  lemma DefaultOriginUsed(input: ProjectInput, isoDate: String -> Option<String>)
    requires input.origin.None? && BuildProjectSeo(input, isoDate).Some?
    ensures BuildProjectSeo(input, isoDate).value.url == DefaultOrigin + CanonicalPath(input.slug)
    ensures BuildProjectSeo(input, isoDate).value.schema.creator.url == DefaultOrigin
  {
  }

  /** An `http…` hero is kept; any other is taken relative to the origin, so the image is absolute when the origin is. */
  lemma ImageIsAbsolute(origin: String, hero: String)
    ensures StartsWith(hero, "http") ==> ImageAbs(origin, hero) == hero
    ensures !StartsWith(hero, "http") ==> ImageAbs(origin, hero) == origin + hero
    ensures StartsWith(origin, "http") ==> StartsWith(ImageAbs(origin, hero), "http")
  {
    if !StartsWith(hero, "http") && StartsWith(origin, "http") {
      assert (origin + hero)[..4] == origin[..4];
    }
  }

  /** The remaining schema fields. */
  lemma SchemaFields(input: ProjectInput, isoDate: String -> Option<String>)
    requires BuildProjectSeo(input, isoDate).Some?
    ensures var s := BuildProjectSeo(input, isoDate).value.schema;
            && s.name == input.title && s.headline == input.title
            && s.description == input.summary
            && s.creator == Person("Person", "Matt Blethen", input.origin.GetOr(DefaultOrigin))
            && (s.producer.Some? <==> Truthy(input.client))
            && (s.producer.Some? ==> s.producer == input.client)
            && (s.datePublished.None? <==> !Truthy(input.date))
            && (s.datePublished.Some? ==> |s.datePublished.value| <= 10)
  {
  }

  /** A published date is the first ten characters of the ISO text: its `YYYY-MM-DD` part. */
  lemma DatePublished(input: ProjectInput, isoDate: String -> Option<String>)
    requires BuildProjectSeo(input, isoDate).Some? && Truthy(input.date)
    ensures var v := BuildProjectSeo(input, isoDate).value.schema.datePublished;
            var iso := isoDate(input.date.value);
            && iso.Some? && v.Some?
            && |v.value| == (if |iso.value| < 10 then |iso.value| else 10)
            && v.value == iso.value[..|v.value|]
  {
  }

  lemma FixedDistinct()
    ensures NoDuplicates(FixedKeywords)
  {
  }

  /**
   The keywords are the caller's, de-duplicated in first-occurrence order,
   then the fixed ones the caller did not give, in their own order.
   */
  lemma KeywordsOrder(given: seq<String>)
    ensures Keywords(given) == Dedup(given) + Without(FixedKeywords, given)
  {
    DedupAppend(given, FixedKeywords);
    FixedDistinct();
    WithoutOfDistinct(FixedKeywords, given);
    DedupOfDistinct(Without(FixedKeywords, given));
  }

  /** No keyword repeats; a keyword is listed exactly when the caller gave it or it is fixed. */
  lemma KeywordsMembers(given: seq<String>, k: String)
    ensures NoDuplicates(Keywords(given))
    ensures k in Keywords(given) <==> k in given || k in FixedKeywords
  {
    DedupOrder(given + FixedKeywords);
    DedupElements(given + FixedKeywords, k);
  }

  /** Caller keywords without repeats come first, unchanged. */
  lemma KeywordsKeepCaller(given: seq<String>)
    requires NoDuplicates(given)
    ensures |given| <= |Keywords(given)| && Keywords(given)[..|given|] == given
  {
    KeywordsOrder(given);
    DedupOfDistinct(given);
  }
}

=== FILE: seqs.dfy ===
/**
 Sequence helpers. `Dedup` is the element order of a JavaScript `Set`
 built from a sequence: insertion order, each value kept at its first
 occurrence.
 */
module Seqs {

  predicate NoDuplicates<T(==)>(s: seq<T>)
  {
    forall i, j :: 0 <= i < j < |s| ==> s[i] != s[j]
  }

  /** A non-empty sequence is its front followed by its last element. */
  lemma FrontLast<T>(s: seq<T>)
    requires s != []
    ensures s == s[..|s| - 1] + [s[|s| - 1]]
  {
  }

  lemma NoDuplicatesSnoc<T>(s: seq<T>, x: T)
    requires NoDuplicates(s) && x !in s
    ensures NoDuplicates(s + [x])
  {
  }

  /** Index of the first occurrence of `x` in `s`. */
  function FirstIndex<T(==)>(s: seq<T>, x: T): (k: nat)
    requires x in s
    ensures k < |s| && s[k] == x
    ensures forall j :: 0 <= j < k ==> s[j] != x
  {
    if s[0] == x then 0 else FirstIndex(s[1..], x) + 1
  }

  /** `s` without the elements that occur in `drop`. */
  function Without<T(==)>(s: seq<T>, drop: seq<T>): (r: seq<T>)
    ensures |r| <= |s|
    ensures forall i :: 0 <= i < |r| ==> r[i] in s && r[i] !in drop
  {
    if s == [] then []
    else
      var r := Without(s[..|s| - 1], drop);
      if s[|s| - 1] in drop then r else r + [s[|s| - 1]]
  }

  lemma {:induction false} WithoutElements<T>(s: seq<T>, drop: seq<T>, x: T)
    ensures x in Without(s, drop) <==> x in s && x !in drop
  {
    if s != [] {
      WithoutElements(s[..|s| - 1], drop, x);
      assert s == s[..|s| - 1] + [s[|s| - 1]];
    }
  }

  /** `Array.from(new Set(s))`: insert each element unless it is already present. */
  function Dedup<T(==)>(s: seq<T>): (r: seq<T>)
    ensures |r| <= |s|
    ensures forall i :: 0 <= i < |r| ==> r[i] in s
  {
    if s == [] then []
    else
      var d := Dedup(s[..|s| - 1]);
      if s[|s| - 1] in d then d else d + [s[|s| - 1]]
  }

  /** `Dedup` keeps exactly the elements of its input. */
  lemma {:induction false} DedupElements<T>(s: seq<T>, x: T)
    ensures x in Dedup(s) <==> x in s
  {
    if s != [] {
      DedupElements(s[..|s| - 1], x);
      assert s == s[..|s| - 1] + [s[|s| - 1]];
    }
  }

  /**
   `Dedup` is the unique duplicate-free sequence of the same elements listed
   in the order of their first occurrence in the input.
   */
  lemma {:induction false} DedupOrder<T>(s: seq<T>)
    ensures NoDuplicates(Dedup(s))
    ensures forall i, j :: 0 <= i < j < |Dedup(s)| ==>
              FirstIndex(s, Dedup(s)[i]) < FirstIndex(s, Dedup(s)[j])
  {
    if s != [] {
      var p := s[..|s| - 1];
      var y := s[|s| - 1];
      var d := Dedup(p);
      DedupOrder(p);
      assert s == p + [y];
      forall x | x in p
        ensures FirstIndex(s, x) == FirstIndex(p, x)
      {
        FirstIndexPrefix(p, y, x);
      }
      if y !in d {
        DedupElements(p, y);
        FirstIndexLast(p, y);
        var r := d + [y];
        assert Dedup(s) == r;
        forall i, j | 0 <= i < j < |r|
          ensures FirstIndex(s, r[i]) < FirstIndex(s, r[j])
        {
          assert r[i] in p;
          if j < |d| {
            assert r[j] in p;
          }
        }
      }
    }
  }

  lemma {:induction false} FirstIndexPrefix<T>(p: seq<T>, y: T, x: T)
    requires x in p
    ensures FirstIndex(p + [y], x) == FirstIndex(p, x)
  {
    if p[0] != x {
      assert (p + [y])[1..] == p[1..] + [y];
      FirstIndexPrefix(p[1..], y, x);
    }
  }

  lemma FirstIndexLast<T>(p: seq<T>, y: T)
    requires y !in p
    ensures FirstIndex(p + [y], y) == |p|
  {
    assert forall j :: 0 <= j < |p| ==> (p + [y])[j] == p[j];
  }

  /** A duplicate-free sequence is its own de-duplication. */
  lemma {:induction false} DedupOfDistinct<T>(s: seq<T>)
    requires NoDuplicates(s)
    ensures Dedup(s) == s
  {
    if s != [] {
      var p := s[..|s| - 1];
      assert NoDuplicates(p);
      DedupOfDistinct(p);
      assert s[|s| - 1] !in p;
      assert s == p + [s[|s| - 1]];
    }
  }

  /** De-duplicating `a + b` lists `a`'s distinct elements, then those of `b` not in `a`. */
  lemma {:induction false} DedupAppend<T>(a: seq<T>, b: seq<T>)
    ensures Dedup(a + b) == Dedup(a) + Dedup(Without(b, a))
    decreases |b|
  {
    if b == [] {
      assert a + b == a;
    } else {
      DedupAppend(a, b[..|b| - 1]);
      DedupAppendStep(a, b);
    }
  }

  lemma {:induction false} DedupAppendStep<T>(a: seq<T>, b: seq<T>)
    requires b != []
    requires Dedup(a + b[..|b| - 1]) == Dedup(a) + Dedup(Without(b[..|b| - 1], a))
    ensures Dedup(a + b) == Dedup(a) + Dedup(Without(b, a))
  {
    var b', y := b[..|b| - 1], b[|b| - 1];
    DedupAppendUnfold(a, b);
    DedupAppendLast(a, b);
    InDedupAppend(a, b', y);
    if y !in a && y !in b' {
      ConcatAssoc(Dedup(a), Dedup(Without(b', a)), [y]);
    }
  }

  lemma InDedupAppend<T>(a: seq<T>, b: seq<T>, y: T)
    ensures y in Dedup(a + b) <==> y in a || y in b
  {
    DedupElements(a + b, y);
  }

  lemma ConcatAssoc<T>(a: seq<T>, b: seq<T>, c: seq<T>)
    ensures (a + b) + c == a + (b + c)
  {
  }

  lemma DedupAppendUnfold<T>(a: seq<T>, b: seq<T>)
    requires b != []
    ensures var b', y := b[..|b| - 1], b[|b| - 1];
            Dedup(a + b) == if y in Dedup(a + b') then Dedup(a + b') else Dedup(a + b') + [y]
  {
    assert (a + b)[..|a + b| - 1] == a + b[..|b| - 1];
  }

  /** The last element of `b` adds to `Dedup(Without(b, a))` exactly when it occurs in neither `a` nor earlier in `b`. */
  lemma DedupAppendLast<T>(a: seq<T>, b: seq<T>)
    requires b != []
    ensures var b', y := b[..|b| - 1], b[|b| - 1];
            Dedup(Without(b, a)) == if y in a || y in b' then Dedup(Without(b', a)) else Dedup(Without(b', a)) + [y]
  {
    var b', y := b[..|b| - 1], b[|b| - 1];
    var w' := Without(b', a);
    if y !in a {
      WithoutElements(b', a, y);
      DedupElements(w', y);
      DedupSnoc(w', y);
    }
  }

  /** One step of `Dedup`: the last element is appended unless already present. */
  lemma {:induction false} DedupSnoc<T>(s: seq<T>, y: T)
    ensures Dedup(s + [y]) == if y in Dedup(s) then Dedup(s) else Dedup(s) + [y]
  {
    assert (s + [y])[..|s + [y]| - 1] == s;
  }

  lemma {:induction false} WithoutOfDistinct<T>(s: seq<T>, drop: seq<T>)
    requires NoDuplicates(s)
    ensures NoDuplicates(Without(s, drop))
  {
    if s != [] {
      var p := s[..|s| - 1];
      assert NoDuplicates(p);
      WithoutOfDistinct(p, drop);
    }
  }

  /** Concatenation of a sequence of sequences. */
  function Flatten<T(!new)>(ss: seq<seq<T>>): (r: seq<T>)
    ensures forall x :: x in r <==> exists i :: 0 <= i < |ss| && x in ss[i]
  {
    if ss == [] then []
    else
      var r := Flatten(ss[..|ss| - 1]);
      assert forall i :: 0 <= i < |ss| - 1 ==> ss[..|ss| - 1][i] == ss[i];
      r + ss[|ss| - 1]
  }

  /** A concatenation is empty exactly when every part is. */
  lemma {:induction false} FlattenEmpty<T(!new)>(ss: seq<seq<T>>)
    ensures Flatten(ss) == [] <==> forall i :: 0 <= i < |ss| ==> ss[i] == []
  {
    if ss != [] {
      FlattenEmpty(ss[..|ss| - 1]);
      assert forall i :: 0 <= i < |ss| - 1 ==> ss[..|ss| - 1][i] == ss[i];
    }
  }

  lemma FlattenHas<T(!new)>(ss: seq<seq<T>>, i: nat, x: T)
    requires i < |ss| && x in ss[i]
    ensures x in Flatten(ss)
  {
  }
}

=== FILE: strings.dfy ===
/**
 Character and string helpers shared by the script models.

 Strings are sequences of characters. Case folding is ASCII only: the
 scripts' case-insensitive patterns (`/i` without `/u`) only ever compare
 ASCII letters, and a non-ASCII character never folds onto an ASCII one in
 that mode.
 */
module Strings {

  type String = seq<char>

  predicate IsDigit(c: char) { '0' <= c <= '9' }

  predicate IsLowerLetter(c: char) { 'a' <= c <= 'z' }

  predicate AllDigits(s: String)
  {
    forall i :: 0 <= i < |s| ==> IsDigit(s[i])
  }

  /** One or more decimal digits: the regular-expression atom `\d+`. */
  predicate IsNumeral(s: String)
  {
    |s| > 0 && AllDigits(s)
  }

  /** ASCII lower-casing of one character. */
  function Lower(c: char): (r: char)
    ensures !('A' <= r <= 'Z')
    ensures 'a' <= c <= 'z' || !('A' <= c <= 'Z') ==> r == c
  {
    if 'A' <= c <= 'Z' then (c as int + 32) as char else c
  }

  function LowerAll(s: String): (r: String)
    ensures |r| == |s|
    ensures forall i :: 0 <= i < |s| ==> r[i] == Lower(s[i])
  {
    seq(|s|, i requires 0 <= i < |s| => Lower(s[i]))
  }

  /** Equality up to ASCII case. */
  predicate EqualsIgnoreCase(a: String, b: String)
  {
    |a| == |b| && forall i :: 0 <= i < |a| ==> Lower(a[i]) == Lower(b[i])
  }

  /** `s` ends with `suffix`, ignoring ASCII case: a pattern `suffix$` with `/i`. */
  predicate EndsWithIgnoreCase(s: String, suffix: String)
  {
    |suffix| <= |s| && EqualsIgnoreCase(s[|s| - |suffix|..], suffix)
  }

  lemma EndsWithOwnSuffix(x: String, y: String, suffix: String)
    ensures EndsWithIgnoreCase(x + (y + suffix), suffix)
  {
    assert (x + (y + suffix))[|x| + |y|..] == suffix;
  }

  /** `s` starts with `prefix`, ignoring ASCII case: a pattern `^prefix` with `/i`. */
  predicate StartsWithIgnoreCase(s: String, prefix: String)
  {
    |prefix| <= |s| && EqualsIgnoreCase(s[..|prefix|], prefix)
  }

  /** JavaScript `s.startsWith(prefix)`. */
  predicate StartsWith(s: String, prefix: String)
  {
    |prefix| <= |s| && s[..|prefix|] == prefix
  }

  /** JavaScript `s.includes(sub)`. */
  predicate Contains(s: String, sub: String)
    decreases |s|
  {
    StartsWith(s, sub) || (|s| > 0 && Contains(s[1..], sub))
  }

  lemma {:induction false} ContainsAt(s: String, sub: String, i: nat)
    requires i + |sub| <= |s| && s[i..i + |sub|] == sub
    ensures Contains(s, sub)
    decreases i
  {
    if i == 0 {
      assert s[..|sub|] == sub;
    } else {
      assert s[1..][i - 1..i - 1 + |sub|] == s[i..i + |sub|];
      ContainsAt(s[1..], sub, i - 1);
    }
  }

  /** Length of the longest run of digits that ends `s`. */
  function TrailingDigitCount(s: String): (k: nat)
    ensures k <= |s|
    ensures forall i :: |s| - k <= i < |s| ==> IsDigit(s[i])
    ensures k < |s| ==> !IsDigit(s[|s| - k - 1])
  {
    if |s| > 0 && IsDigit(s[|s| - 1]) then TrailingDigitCount(s[..|s| - 1]) + 1 else 0
  }

  /** `s` ends with a dash followed by one or more digits: the pattern `-\d+$`. */
  predicate EndsWithDashNumeral(s: String)
  {
    var k := TrailingDigitCount(s);
    0 < k < |s| && s[|s| - k - 1] == '-'
  }

  /** Digits placed after a non-digit are exactly the trailing digit run. */
  lemma {:induction false} TrailingDigitsAfter(p: String, d: String)
    requires |p| > 0 && !IsDigit(p[|p| - 1])
    requires AllDigits(d)
    ensures TrailingDigitCount(p + d) == |d|
    decreases |d|
  {
    if d == [] {
      assert p + d == p;
    } else {
      var d' := d[..|d| - 1];
      assert (p + d)[..|p + d| - 1] == p + d';
      TrailingDigitsAfter(p, d');
    }
  }

  /** `x + "-" + d` ends with a dash numeral whose digits are exactly `d`. */
  lemma DashNumeral(x: String, d: String)
    requires IsNumeral(d)
    ensures TrailingDigitCount(x + "-" + d) == |d|
    ensures EndsWithDashNumeral(x + "-" + d)
    ensures (x + "-" + d)[..|x + "-" + d| - |d| - 1] == x
  {
    TrailingDigitsAfter(x + "-", d);
    var s := x + "-" + d;
    assert s[|s| - |d| - 1] == '-';
  }

  /** Every string ending with a dash numeral splits as `x + "-" + digits`. */
  lemma DashNumeralParts(s: String)
    requires EndsWithDashNumeral(s)
    ensures s == s[..|s| - TrailingDigitCount(s) - 1] + "-" + s[|s| - TrailingDigitCount(s)..]
  {
    var k := TrailingDigitCount(s);
    SplitAround(s, |s| - k - 1);
  }

  lemma SplitAround(s: String, a: nat)
    requires a < |s|
    ensures s == s[..a] + [s[a]] + s[a + 1..]
  {
    assert s[a..] == [s[a]] + s[a + 1..];
    assert s == s[..a] + s[a..];
  }

  lemma DashNumeralDigits(s: String)
    requires EndsWithDashNumeral(s)
    ensures IsNumeral(s[|s| - TrailingDigitCount(s)..])
  {
    var k := TrailingDigitCount(s);
    var d := s[|s| - k..];
    assert forall i :: 0 <= i < |d| ==> d[i] == s[|s| - k + i];
  }

  function DigitChar(n: nat): (c: char)
    requires n < 10
    ensures IsDigit(c)
  {
    ('0' as int + n) as char
  }

  function DigitValue(c: char): (n: nat)
    requires IsDigit(c)
    ensures n < 10 && DigitChar(n) == c
  {
    c as int - '0' as int
  }

  /** JavaScript `String(n)` for a non-negative integer. */
  function Decimal(n: nat): (r: String)
    ensures IsNumeral(r)
    ensures |r| > 1 ==> r[0] != '0'
    decreases n
  {
    if n < 10 then [DigitChar(n)]
    else
      var h := Decimal(n / 10);
      assert (h + [DigitChar(n % 10)])[0] == h[0];
      h + [DigitChar(n % 10)]
  }

  /** The value of a string of decimal digits. */
  function ParseDecimal(s: String): nat
    requires AllDigits(s)
  {
    if s == [] then 0
    else ParseDecimal(s[..|s| - 1]) * 10 + DigitValue(s[|s| - 1])
  }

  lemma {:induction false} ParseDecimalOfDecimal(n: nat)
    ensures ParseDecimal(Decimal(n)) == n
    decreases n
  {
    if n >= 10 {
      var s := Decimal(n);
      assert s[..|s| - 1] == Decimal(n / 10);
      ParseDecimalOfDecimal(n / 10);
    }
  }

  lemma DecimalLengthTwo(n: nat)
    requires 10 <= n < 100
    ensures |Decimal(n)| == 2
  {
    assert Decimal(n) == [DigitChar(n / 10), DigitChar(n % 10)];
  }

  lemma DecimalLengthFour(n: nat)
    requires 1000 <= n < 10000
    ensures |Decimal(n)| == 4
  {
    assert Decimal(n / 1000) == [DigitChar(n / 1000)];
    assert Decimal(n / 100) == Decimal(n / 1000) + [DigitChar(n / 100 % 10)];
    assert Decimal(n / 10) == Decimal(n / 100) + [DigitChar(n / 10 % 10)];
  }

  /**
   The characters JavaScript's `String.prototype.trim` removes: the
   WhiteSpace code points (tab, vertical tab, form feed, the byte order
   mark and every space separator) and the LineTerminator code points.
   */
  predicate IsJsWhitespace(c: char)
  {
    || c == '\t' || c == '\n' || c == '\U{000B}' || c == '\U{000C}' || c == '\r'
    || c == ' ' || c == '\U{00A0}' || c == '\U{1680}' || ('\U{2000}' <= c <= '\U{200A}')
    || c == '\U{2028}' || c == '\U{2029}' || c == '\U{202F}' || c == '\U{205F}'
    || c == '\U{3000}' || c == '\U{FEFF}'
  }

  /** A line terminator: what the regular-expression `.` does not match. */
  predicate IsLineTerminator(c: char)
  {
    c == '\n' || c == '\r' || c == '\U{2028}' || c == '\U{2029}'
  }

  predicate HasLineTerminator(s: String)
  {
    exists i :: 0 <= i < |s| && IsLineTerminator(s[i])
  }

  function TrimStart(s: String): (r: String)
    ensures |r| <= |s| && r == s[|s| - |r|..]
    ensures r == [] || !IsJsWhitespace(r[0])
    ensures forall i :: 0 <= i < |s| - |r| ==> IsJsWhitespace(s[i])
  {
    if |s| > 0 && IsJsWhitespace(s[0]) then TrimStart(s[1..]) else s
  }

  function TrimEnd(s: String): (r: String)
    ensures |r| <= |s| && r == s[..|r|]
    ensures r == [] || !IsJsWhitespace(r[|r| - 1])
    ensures forall i :: |r| <= i < |s| ==> IsJsWhitespace(s[i])
  {
    if |s| > 0 && IsJsWhitespace(s[|s| - 1]) then TrimEnd(s[..|s| - 1]) else s
  }

  /** JavaScript `s.trim()`. */
  function Trim(s: String): (r: String)
  {
    TrimEnd(TrimStart(s))
  }

  /** `s.trim()` is the slice of `s` without its leading and trailing whitespace. */
  lemma TrimIsSlice(s: String)
    ensures exists i, j ::
              && 0 <= i <= j <= |s| && Trim(s) == s[i..j]
              && (forall k :: 0 <= k < i ==> IsJsWhitespace(s[k]))
              && (forall k :: j <= k < |s| ==> IsJsWhitespace(s[k]))
    ensures Trim(s) == [] || (!IsJsWhitespace(Trim(s)[0]) && !IsJsWhitespace(Trim(s)[|Trim(s)| - 1]))
  {
    var i, j := TrimBounds(s);
    TrimEnds(s);
  }

  /** The bounds of the slice `s.trim()` keeps. */
  lemma TrimBounds(s: String) returns (i: nat, j: nat)
    ensures 0 <= i <= j <= |s| && Trim(s) == s[i..j]
    ensures forall k :: 0 <= k < i ==> IsJsWhitespace(s[k])
    ensures forall k :: j <= k < |s| ==> IsJsWhitespace(s[k])
  {
    var t := TrimStart(s);
    var u := TrimEnd(t);
    i := |s| - |t|;
    j := i + |u|;
    SliceOfSuffix(s, t, u, i);
  }

  /** A prefix `u` of the suffix `t == s[i..]`, and what lies after it in `s`. */
  lemma SliceOfSuffix(s: String, t: String, u: String, i: nat)
    requires i <= |s| && t == s[i..] && |u| <= |t| && u == t[..|u|]
    requires forall k :: |u| <= k < |t| ==> IsJsWhitespace(t[k])
    ensures u == s[i..i + |u|]
    ensures forall k :: i + |u| <= k < |s| ==> IsJsWhitespace(s[k])
  {
    forall k | i + |u| <= k < |s|
      ensures IsJsWhitespace(s[k])
    {
      assert s[k] == t[k - i];
    }
  }

  lemma TrimEnds(s: String)
    ensures Trim(s) == [] || (!IsJsWhitespace(Trim(s)[0]) && !IsJsWhitespace(Trim(s)[|Trim(s)| - 1]))
  {
    var t := TrimStart(s);
    var u := TrimEnd(t);
    if u != [] {
      assert u[0] == t[0];
    }
  }

  /** JavaScript `s.split(sep)` for a one-character separator. */
  function Split(s: String, sep: char): (r: seq<String>)
    ensures |r| > 0
    ensures forall i :: 0 <= i < |r| ==> sep !in r[i]
  {
    if s == [] then [[]]
    else
      var rest := Split(s[1..], sep);
      if s[0] == sep then [[]] + rest
      else [[s[0]] + rest[0]] + rest[1..]
  }

  /** JavaScript `pieces.join(sep)`. */
  function Join(pieces: seq<String>, sep: char): String
    requires |pieces| > 0
  {
    if |pieces| == 1 then pieces[0]
    else pieces[0] + [sep] + Join(pieces[1..], sep)
  }

  /** Splitting and joining on the same separator gives the string back. */
  lemma {:induction false} JoinSplit(s: String, sep: char)
    ensures Join(Split(s, sep), sep) == s
  {
    if s != [] {
      var rest := Split(s[1..], sep);
      JoinSplit(s[1..], sep);
      if s[0] == sep {
        assert Split(s, sep)[1..] == rest;
      } else {
        var r := Split(s, sep);
        if |rest| == 1 {
          assert r == [[s[0]] + rest[0]];
        } else {
          assert r[1..] == rest[1..];
          assert Join(rest, sep) == rest[0] + [sep] + Join(rest[1..], sep);
        }
      }
    }
  }

  /** A string without the separator splits into itself alone. */
  lemma {:induction false} SplitNoSep(s: String, sep: char)
    requires sep !in s
    ensures Split(s, sep) == [s]
  {
    if s != [] {
      SplitNoSep(s[1..], sep);
      assert [s[0]] + s[1..] == s;
    }
  }

  /** A piece without the separator, then the separator, splits off as the first piece. */
  lemma {:induction false} SplitAt(a: String, rest: String, sep: char)
    requires sep !in a
    ensures Split(a + [sep] + rest, sep) == [a] + Split(rest, sep)
  {
    var s := a + [sep] + rest;
    if a == [] {
      assert s == [sep] + rest;
      assert s[1..] == rest;
    } else {
      assert s[1..] == a[1..] + [sep] + rest;
      SplitAt(a[1..], rest, sep);
      assert [a[0]] + a[1..] == a;
    }
  }

  /** A string with no whitespace at either end is its own trim. */
  lemma TrimPlain(s: String)
    requires s == [] || (!IsJsWhitespace(s[0]) && !IsJsWhitespace(s[|s| - 1]))
    ensures Trim(s) == s
  {
  }

  /** Lower-casing leaves a string without upper-case letters as it is. */
  lemma LowerPlain(s: String)
    requires forall i :: 0 <= i < |s| ==> !('A' <= s[i] <= 'Z')
    ensures LowerAll(s) == s
  {
  }
}

=== FILE: transcoding.dfy ===
/**
 The image library (sharp) as the scripts use it: decode a file, resize it
 to a requested width without enlarging it, encode it as WebP and write the
 result. Decoding, encoding and file writes are not modelled; a `Codec`
 says, for the files of one run, what width each file decodes to and which
 (input, output) conversions succeed.
 */
module Transcoding {
  import opened Strings

  datatype Codec = Codec(width: String -> nat, encodes: (String, String) -> bool)

  /** A file a run wrote, with the pixel width of the encoded image. */
  datatype Write = Write(path: String, width: nat)

  /** `resize({ width: requested, withoutEnlargement: true })`: never wider than the input. */
  function ResizedWidth(native: nat, requested: nat): (w: nat)
    ensures w <= requested && w <= native
    ensures w == requested || w == native
  {
    if native < requested then native else requested
  }

  function WrittenPaths(writes: seq<Write>): (r: seq<String>)
    ensures |r| == |writes|
    ensures forall i :: 0 <= i < |writes| ==> r[i] == writes[i].path
  {
    seq(|writes|, i requires 0 <= i < |writes| => writes[i].path)
  }

  lemma WrittenPathsSnoc(writes: seq<Write>, w: Write)
    ensures WrittenPaths(writes + [w]) == WrittenPaths(writes) + [w.path]
  {
  }
}

=== FILE: variant_names.dfy ===
/**
 The legacy variant names that scripts/gen-images.mjs skips and
 scripts/clean-old-variants.mjs deletes: both scripts test a path with
 the same pattern `-\d+w(?:-\d+)?\.webp$` (case-insensitive).
 */
module VariantNames {
  import opened Wrappers
  import opened Strings

  /** `s` ends with `-<digits>w`, the `w` in either case. */
  predicate EndsWithWidthMarker(s: String)
  {
    |s| > 0 && (s[|s| - 1] == 'w' || s[|s| - 1] == 'W') && EndsWithDashNumeral(s[..|s| - 1])
  }

  /**
   `-\d+w(?:-\d+)?\.webp$` with `/i`: a legacy variant such as `-600w.webp`
   or `-900w-768.webp`. Before `.webp` either the width marker ends the
   stem, or a dash numeral does and the width marker precedes it.
   */
  predicate IsWeirdVariant(fp: String)
  {
    && EndsWithIgnoreCase(fp, ".webp")
    && var s := fp[..|fp| - 5];
       || EndsWithWidthMarker(s)
       || (EndsWithDashNumeral(s) && EndsWithWidthMarker(s[..|s| - TrailingDigitCount(s) - 1]))
  }

  /** A name of the legacy shape: `stem-<width>w[-<digits>]<ext>`. */
  function WeirdName(stem: String, width: String, w: char, second: Option<String>, ext: String): String
  {
    stem + "-" + width + [w] + (if second.Some? then "-" + second.value else []) + ext
  }

  predicate WeirdParts(width: String, w: char, second: Option<String>, ext: String)
  {
    && IsNumeral(width)
    && (w == 'w' || w == 'W')
    && (second.Some? ==> IsNumeral(second.value))
    && EqualsIgnoreCase(ext, ".webp")
  }

  /** The language of the legacy-variant pattern, written as its grammar. */
  ghost predicate HasWeirdShape(fp: String)
  {
    exists stem, width, w, second, ext {:trigger WeirdName(stem, width, w, second, ext)} ::
      WeirdParts(width, w, second, ext) && fp == WeirdName(stem, width, w, second, ext)
  }

  /** `IsWeirdVariant` decides exactly the grammar of legacy variant names. */
  lemma WeirdVariantShape(fp: String)
    ensures IsWeirdVariant(fp) <==> HasWeirdShape(fp)
  {
    if IsWeirdVariant(fp) {
      WeirdVariantHasShape(fp);
    }
    if HasWeirdShape(fp) {
      var stem, width, w, second, ext :| WeirdParts(width, w, second, ext) && fp == WeirdName(stem, width, w, second, ext);
      WeirdNameIsWeird(stem, width, w, second, ext);
    }
  }

  lemma WeirdNameIsWeird(stem: String, width: String, w: char, second: Option<String>, ext: String)
    requires WeirdParts(width, w, second, ext)
    ensures IsWeirdVariant(WeirdName(stem, width, w, second, ext))
  {
    var fp := WeirdName(stem, width, w, second, ext);
    var marked := stem + "-" + width + [w];
    var core := marked + (if second.Some? then "-" + second.value else []);
    assert fp == core + ext;
    assert fp[|fp| - 5..] == ext;
    assert fp[..|fp| - 5] == core;
    DashNumeral(stem, width);
    assert marked[..|marked| - 1] == stem + "-" + width;
    assert EndsWithWidthMarker(marked);
    if second.Some? {
      assert core == marked + "-" + second.value;
      DashNumeral(marked, second.value);
    } else {
      assert core == marked;
    }
  }

  lemma WeirdVariantHasShape(fp: String)
    requires IsWeirdVariant(fp)
    ensures HasWeirdShape(fp)
  {
    var s := fp[..|fp| - 5];
    var ext := fp[|fp| - 5..];
    assert fp == s + ext;
    if EndsWithWidthMarker(s) {
      MarkerShape(s, ext);
    } else {
      var j := TrailingDigitCount(s);
      var u := s[..|s| - j - 1];
      var second := s[|s| - j..];
      DashNumeralParts(s);
      DashNumeralDigits(s);
      assert s == u + "-" + second;
      SecondShape(u, second, ext);
    }
  }

  /** `stem-<width>w` followed by the extension. */
  lemma MarkerShape(s: String, ext: String)
    requires EndsWithWidthMarker(s) && EqualsIgnoreCase(ext, ".webp")
    ensures HasWeirdShape(s + ext)
  {
    MarkerParts(s);
    assert s + ext == WeirdName(MarkerStem(s), MarkerWidth(s), s[|s| - 1], None, ext);
  }

  /** `stem-<width>w-<digits>` followed by the extension. */
  lemma SecondShape(u: String, second: String, ext: String)
    requires EndsWithWidthMarker(u) && IsNumeral(second) && EqualsIgnoreCase(ext, ".webp")
    ensures HasWeirdShape(u + "-" + second + ext)
  {
    MarkerParts(u);
    assert u + "-" + second + ext == WeirdName(MarkerStem(u), MarkerWidth(u), u[|u| - 1], Some(second), ext);
  }

  /** The text before the `-<digits>w` marker that ends `s`. */
  function MarkerStem(s: String): String
    requires EndsWithWidthMarker(s)
  {
    var t := s[..|s| - 1];
    t[..|t| - TrailingDigitCount(t) - 1]
  }

  /** The digits of the `-<digits>w` marker that ends `s`. */
  function MarkerWidth(s: String): String
    requires EndsWithWidthMarker(s)
  {
    var t := s[..|s| - 1];
    t[|t| - TrailingDigitCount(t)..]
  }

  lemma MarkerParts(s: String)
    requires EndsWithWidthMarker(s)
    ensures IsNumeral(MarkerWidth(s))
    ensures s == MarkerStem(s) + "-" + MarkerWidth(s) + [s[|s| - 1]]
  {
    var t := s[..|s| - 1];
    DashNumeralParts(t);
    DashNumeralDigits(t);
    assert s == t + [s[|s| - 1]];
  }

  lemma OverlapIsWeird(stem: String)
    ensures IsWeirdVariant(stem + "-900w-768.webp")
  {
    OverlapParts();
    WeirdNameIsWeird(stem, "900", 'w', Some("768"), ".webp");
    OverlapName(stem);
  }

  lemma OverlapParts()
    ensures WeirdParts("900", 'w', Some("768"), ".webp")
  {
  }

  lemma OverlapName(stem: String)
    ensures WeirdName(stem, "900", 'w', Some("768"), ".webp") == stem + "-900w-768.webp"
  {
  }

  /**
   A plain variant `stem-<digits>.webp` is a legacy variant only when its
   stem itself ends with a width marker.
   */
  lemma PlainVariantWeird(stem: String, d: String)
    requires IsNumeral(d)
    ensures IsWeirdVariant(stem + "-" + d + ".webp") <==> EndsWithWidthMarker(stem)
  {
    var fp := stem + "-" + d + ".webp";
    var s := stem + "-" + d;
    assert fp[..|fp| - 5] == s;
    assert fp[|fp| - 5..] == ".webp";
    DashNumeral(stem, d);
    assert !EndsWithWidthMarker(s) by {
      assert s[|s| - 1] == d[|d| - 1];
    }
  }
}

=== FILE: wrappers.dfy ===
/** The optional value used wherever a JavaScript value may be `undefined`. */
module Wrappers {

  datatype Option<+T> = None | Some(value: T) {

    /** The value, or `default` when there is none. */
    function GetOr(default: T): T
    {
      match this
      case Some(v) => v
      case None => default
    }
  }

  /** JavaScript truthiness of an optional string: present and not empty. */
  predicate Truthy<T>(o: Option<seq<T>>)
  {
    o.Some? && o.value != []
  }
}
